=== FILE: README.md ===
# Meteor Madness orbital core in Dafny

This project models the computational core of Meteor Madness, an orbital
simulator with a proxy for NASA/JPL's Small-Body Database (SBDB). The core
covers:

- **Element validation and presets** (`OrbitalService`). The validator reports
  every missing field, or every broken range rule on `a`, `e`, `i`, `omega`,
  `Omega` and `M0`. The catalog holds six famous orbits.
- **The element record** (`Orbits`). It keeps `a`, `e` and `mu`, stores
  angles in radians, and derives the mean motion `n = sqrt(mu / a^3)` and
  the period `T = 2 pi / n`. It also covers `from_dict`/`to_dict` and the
  orbit summary (perigee and apogee altitudes, impact flag and depth).
- **Propagation** (`Kepler`, `Cartesian`, `Simulation`, `Scans`):
  - the bounded Newton solver for Kepler's equation;
  - the true anomaly and the conic radius;
  - the three frame rotations;
  - the `np.arange` sample grid;
  - the trajectory analysis (distances, altitudes, finite-difference speeds,
    first-index extremes, the first impact sample);
  - `run_simulation`, which chains them.
- **The solar-system view** (`SolarSystem`). This is the eight-row planet
  table and the planet states a given number of seconds after J2000.
- **The SBDB payload helpers** (`NeoPayload`, over `JsonValues` and
  `PyText`):
  - number and tri-state boolean coercion;
  - element-list flattening with `_unc` keys;
  - epoch normalisation;
  - extraction of simulation elements (AU to km, key renaming, the Sun's
    `mu`);
  - the processed lookup payload and the search entry built from it.
- **The SBDB client logic** (`NeoRequests`). This is `fetch_object` and
  `search_objects`: early 400 refusals, limit clamping, wildcard wrapping,
  and the mapping of every reply status to a result. The SBDB service is a
  parameter `server: Query -> Reply`, so "no request is made" becomes
  "the result does not depend on `server`".

How the model stands in for Python and its libraries:

- `sin`, `cos`, `sqrt`, `atan2` and `pi` travel as fields of a
  `RealMath.Elementary` record. The predicate `Lawful` gives the facts the
  proofs need: `sin^2 + cos^2 = 1`, `sqrt` as the non-negative square root,
  and bounds on `pi`.
- Numbers are exact reals.
- A Python exception is a `Failure` carrying an `Outcomes.PyError`.
- `float(str)` is a parameter `parse: string -> Option<real>`.
- Decoded JSON is `JsonValues.Json`. Its objects are field lists in insertion
  order, with Python `dict` lookup, assignment and `update`.

Behaviours of the code that the model keeps, each with where it comes from:

- Angles outside `[0, 360]` are rejected by the validator, not wrapped
  (backend/services/orbital_service.py:62-69). `OrbitalService.AngleOutOfRangeRejected`
  shows `M0 = 370` failing.
- The validator does not check `mu` (backend/services/orbital_service.py:16-71).
  An `a`/`mu` sign mismatch surfaces later, as the `math.sqrt` domain error
  in `Orbits.Make` (backend/models/orbital_elements.py:31).
- The Kepler solver returns its last iterate, with no convergence flag, and
  accepts any `e` (backend/services/simulation_service.py:18-36). A zero
  derivative `1 - e cos E` makes the division at line 29 fail. On Python
  floats it raises ZeroDivisionError. In a simulation the anomalies are numpy
  scalars, because the times come from `np.arange`, and the division gives
  `inf` or `nan` instead (see `Kepler.NewtonStep` under "Left out").
- The simulated mean anomaly is `M0 + n t`, not reduced modulo 2 pi
  (backend/services/simulation_service.py:56).
- The sample grid is `np.arange(0, duration, step)`, which excludes the end
  point: it has `ceil(duration / step)` samples, so 3600 s at 60 s steps
  gives 60 (backend/services/simulation_service.py:108). The sample count is
  not capped.
- An impact does not cut the trajectory short. The analysis only names the
  first sample at or below the surface
  (backend/services/simulation_service.py:199-237).
- The analysis takes periapsis and apoapsis from the sampled extremes, the
  first index on ties (backend/services/simulation_service.py:203-231). The
  analytic `a (1 - e)` and `a (1 + e)` appear only in the orbit summary, and
  the model proves them as bounds on every sample.

## Model

The stand-alone simulator `simultion_trajectory/orbital_simulation.py`
repeats the backend's element constructor (lines 21-42), Kepler solver
(51-69), radius (95), rotations (102-128), sampling loop (130-153) and
altitude series (267). The rows below cite the backend copy, and the same
members model both.

| member | source | states |
|---|---|---|
| OrbitalService.Validate | backend/services/orbital_service.py:16-71 | `valid` holds exactly when the error list is empty. A missing field makes the result invalid. With every field present, the errors are the messages of the broken range rules in check order. |
| OrbitalService.Missing | backend/services/orbital_service.py:30-32 | The missing fields are exactly the required fields absent from the map, kept in the required order (a subsequence). |
| OrbitalService.MissingFieldsReported | backend/services/orbital_service.py:27-35 | With a field absent: the result is invalid, no range rule is consulted, and there is one "Missing required field" message per absent field, in field order. Every absent field is named, every message names an absent field, and there are at most six. |
| OrbitalService.SemiMajorAxisViolation | backend/services/orbital_service.py:46-51 | The if/elif chain on `a` yields at most one rule. `a <= 0` gives "positive", `0 < a < 6371` gives the Earth-radius rule, `a > 1e9` gives "too large", and nothing otherwise. |
| OrbitalService.ViolationsMembers | backend/services/orbital_service.py:45-69 | A rule is reported exactly when it is broken, rule by rule. `e` passes iff `0 <= e < 1`, `i` iff `0 <= i <= 180`, and each angle iff it is in `[0, 360]`. |
| OrbitalService.Violations | backend/services/orbital_service.py:45-69 | Reported rules appear in strictly increasing check order: a, e, i, omega, Omega, M0. |
| OrbitalService.ViolationsEmpty | backend/services/orbital_service.py:45-71 | No rule is reported exactly when all six range predicates hold. |
| OrbitalService.ValidIffInRanges | backend/services/orbital_service.py:45-71 | With every field present, the result is valid iff all six values are in range. |
| OrbitalService.RangeErrorsReported | backend/services/orbital_service.py:45-71 | With every field present, a rule's message is among the errors iff that rule is broken. |
| OrbitalService.MessageInjective | backend/services/orbital_service.py:47-69 | The eight error messages are pairwise distinct. |
| OrbitalService.RangeErrorsDistinct | backend/services/orbital_service.py:45-71 | Range errors never repeat, so at most one concerns `a`. |
| OrbitalService.AngleOutOfRangeRejected | backend/services/orbital_service.py:68-69 | An otherwise valid set with `M0 = 370` is rejected with exactly the M0 message: it is not wrapped. |
| OrbitalService.Presets | backend/services/orbital_service.py:86-167 | The catalog has the six keys default, iss, geostationary, molniya, polar and crash, in that order. Every preset carries all six element fields, and only `crash` carries a warning. |
| OrbitalService.PresetValid | backend/services/orbital_service.py:45-71 | An element map whose six values satisfy every range rule validates with no errors. |
| OrbitalService.PresetsValid | backend/services/orbital_service.py:93-153 | Every preset except `crash` passes the validator with no errors. |
| OrbitalService.CrashPresetRejected | backend/services/orbital_service.py:154-165 | The `crash` preset (a = 6000) fails, and its only error is the Earth-radius rule on `a`. |
| Orbits.Make | backend/models/orbital_elements.py:13-34 | Construction succeeds iff `a` and `mu` share a sign: `a = 0` raises ZeroDivisionError and an opposite sign raises the sqrt domain error. It keeps `a`, `e` and `mu`, stores the angles in radians, and gives `n > 0` with `n^2 a^3 = mu` and `T n = 2 pi`. |
| Orbits.FromDict | backend/models/orbital_elements.py:50-61 | Succeeds iff all six element keys are present and `a` shares a sign with the effective `mu`. The effective `mu` is the supplied one, or 3.986004418e5 when absent. A missing `a` raises KeyError('a'). |
| Orbits.ToDict | backend/models/orbital_elements.py:36-48 | The dictionary has exactly the keys a, e, i, omega, Omega, M0, mu, n and T. |
| Orbits.ToDictFromDict | backend/models/orbital_elements.py:36-61 | `to_dict(from_dict(d))` returns every element of `d` and the effective `mu` exactly: over the reals the degree/radian round trip is lossless. |
| Orbits.GetOrbitalInfo | backend/models/orbital_elements.py:63-89 | The perigee altitude is `a (1 - e) - 6371` and the apogee altitude `a (1 + e) - 6371`. Impact is flagged iff the perigee altitude is negative, that is iff `a (1 - e) < 6371`. The impact depth is minus the perigee altitude on impact and 0 otherwise, so never negative. Apogee minus perigee altitude is `2 a e`, so apogee >= perigee for `a > 0`, `e >= 0`. The period in hours times 3600 is `T`, minutes = 60 x hours, and `a`, `e` and `n` are copied. |
| Orbits.InfoReportsInputAngles | backend/models/orbital_elements.py:75-81 | The summary of elements read from a dictionary reports that dictionary's angles in degrees, unchanged. |
| RealMath.DegreesOfRadians | backend/models/orbital_elements.py:41-44 | `math.degrees(math.radians(x)) = x` over the reals. |
| Kepler.NewtonStep | backend/services/simulation_service.py:26-29 | An update fails iff `1 - e cos E = 0`, as Python's float division does. Otherwise the new iterate is the zero of the tangent line of `E - e sin E - M` at `E`. |
| Kepler.FirstStop | backend/services/simulation_service.py:25-34 | The first update at which the loop stops (budget spent, a failed update, or convergence): it stops there and at no earlier update. |
| Kepler.KeplerSolveSpec | backend/services/simulation_service.py:18-36 | The solver returns the iterate at its first stopping point: the first update that converged or failed, or update 50. The result does not say which. |
| Kepler.SolveKepler | backend/services/simulation_service.py:23-36 | The loop performs between 1 and 50 updates and stops at the first stopping point. Its result is the iterate there and equals the recursive definition. |
| Kepler.SlopePositive | backend/services/simulation_service.py:27 | For `0 <= e < 1` the derivative `1 - e cos E` is positive. |
| Kepler.KeplerSolveTotal | backend/services/simulation_service.py:18-36 | On an ellipse the solver never raises. |
| Kepler.NewtonFixedPoint | backend/services/simulation_service.py:26-29 | A root of Kepler's equation is a fixed point of the update. |
| Kepler.CircularOrbit | backend/services/simulation_service.py:23-32 | For `e = 0` the solver returns `M` (it converges after the first update). |
| Cartesian.TrueAnomaly | backend/services/simulation_service.py:38-48 | The true anomaly exists iff the solver returns and `-1 <= e <= 1`. Otherwise `math.sqrt` raises its domain error. |
| Cartesian.TrueAnomalyTotal | backend/services/simulation_service.py:38-48 | On an ellipse the true anomaly is always defined. |
| Cartesian.ConicRadius | backend/services/simulation_service.py:62 | The radius raises ZeroDivisionError iff `1 + e cos nu = 0`. Otherwise `r (1 + e cos nu) = a (1 - e^2)`. |
| Cartesian.RadiusBetweenApsides | backend/services/simulation_service.py:62 | For `a > 0` and `0 <= e < 1` the radius exists and lies in `[a (1 - e), a (1 + e)]`. |
| Cartesian.ApsesNonNegative | backend/models/orbital_elements.py:69-70 | On an ellipse, `0 <= a (1 - e) <= a (1 + e)`. |
| Cartesian.RotateZNorm | backend/services/simulation_service.py:83-84 | A rotation about z keeps the Euclidean length when `c^2 + s^2 = 1`. |
| Cartesian.RotateXNorm | backend/services/simulation_service.py:87-89 | A rotation about x keeps the Euclidean length when `c^2 + s^2 = 1`. |
| Cartesian.RotateZInverse | backend/services/simulation_service.py:91-93 | Rotating about z by the opposite angle undoes the rotation. |
| Cartesian.RotateXInverse | backend/services/simulation_service.py:87-89 | Rotating about x by the opposite angle undoes the rotation. |
| Cartesian.ToInertialNorm | backend/services/simulation_service.py:70-95 | The periapsis, inclination and node rotations together keep the length. |
| Cartesian.Position | backend/services/simulation_service.py:50-95 | A position exists iff the true anomaly exists and the conic radius at that anomaly does: any other step raises nothing. |
| Cartesian.InPlaneNorm | backend/services/simulation_service.py:65-67 | The in-plane point `(r cos nu, r sin nu, 0)` has squared length `r^2`. |
| Cartesian.PositionNorm | backend/services/simulation_service.py:61-95 | The distance of the returned point from the origin is the conic radius `r`, since the in-plane point has `z = 0`. |
| Cartesian.PositionBetweenApsides | backend/services/simulation_service.py:50-95 | On an ellipse the position always exists, and its squared length lies between `(a (1 - e))^2` and `(a (1 + e))^2`. |
| Simulation.Arange | backend/services/simulation_service.py:108 | `np.arange(0, duration, step)` raises for a zero step. Otherwise it has `max(0, ceil(duration / step))` points and point `k` is `k * step`. |
| Simulation.ArangeExcludesEnd | backend/services/simulation_service.py:108 | With a positive step, `k` indexes a sample iff `k * step < duration`: the end point is excluded. |
| Simulation.SampleCountExamples | backend/test_setup.py:46 | 1800 s at 60 s steps gives 30 samples, and 3600 s gives 60, not 61. |
| Simulation.Positions | backend/services/simulation_service.py:110-115 | One position per sample time, each the position at that time. The first sample whose position raises makes the whole run raise. |
| Simulation.Simulate | backend/services/simulation_service.py:97-120 | A successful run has `SampleCount(duration, step)` times, one position per time, time `k` equal to `k * step`, and position `k` the orbit's position at that time. |
| Simulation.SimulateTotal | backend/services/simulation_service.py:97-120 | On an ellipse, simulation fails only for a zero step. |
| Simulation.Distances | backend/services/simulation_service.py:186 | One distance per position. |
| Simulation.DistancesExact | backend/services/simulation_service.py:186 | Each distance is non-negative and its square is the squared length of its position. |
| Simulation.Speeds | backend/services/simulation_service.py:189-193 | With n > 1 positions there are n - 1 speeds. With one position the list is `[0]`. |
| Simulation.SpeedsExact | backend/services/simulation_service.py:189-191 | Speed k times the time step is the length of the k-th displacement: it is non-negative and its square is the squared displacement. With a positive step every speed is non-negative. |
| Simulation.ProcessSpeeds | backend/services/simulation_service.py:189-211 | With more than two samples, the reported speeds are the finite differences over `times[1] - times[0]`. |
| Simulation.Altitudes | backend/services/simulation_service.py:196 | One altitude per distance. |
| Simulation.Process | backend/services/simulation_service.py:170-240 | The analysis raises (numpy's axis error) exactly for an empty trajectory. |
| Simulation.ProcessSeries | backend/services/simulation_service.py:182-212 | Times and positions are passed through. There is one distance and one altitude per position, even after an impact. Each distance is the length of its position, and each altitude is that distance minus 6371. |
| Simulation.ProcessExtremes | backend/services/simulation_service.py:196-231 | `min_distance <= every distance <= max_distance`. `min_altitude` and `max_altitude` are `min_distance` and `max_distance` less the Earth radius. The periapsis sample is the first index with the least distance, and the apoapsis sample the first index with the greatest. |
| Simulation.ProcessImpact | backend/services/simulation_service.py:199-237 | `will_impact` holds iff some distance is `<= 6371`. Then the index is the first such sample and the time and position are that sample's. Otherwise every impact field is `None`. |
| Simulation.ProcessVelocities | backend/services/simulation_service.py:188-219 | With more than two samples there are n - 1 reported speeds and the average lies between their least and greatest. With two or fewer, the list is empty and the average is 0. |
| Simulation.RunSimulation | backend/services/simulation_service.py:129-168 | The run succeeds iff the elements build, the simulation succeeds and there is at least one sample. On success the data is the analysis of that run, `total_points` is the sample count, and `orbital_period` is `T`. |
| Simulation.SetupScriptRun | backend/test_setup.py:28-48 | The setup script's run of the 7000 km, `e = 0.2` orbit for 1800 s at 60 s steps succeeds with 30 points. |
| Simulation.TrajectoryBetweenApsides | backend/services/simulation_service.py:108-115 | On an ellipse every sampled position's squared length lies between the squared apsis distances. |
| Simulation.DistancesBetweenApsides | backend/services/simulation_service.py:186 | On an ellipse every sampled distance lies in `[a (1 - e), a (1 + e)]`. |
| Simulation.SampledDistancesBetweenApsides | backend/services/simulation_service.py:142-160 | Every distance that `run_simulation` reports for an ellipse lies in `[a (1 - e), a (1 + e)]`. |
| Simulation.NoImpactAbovePeriapsis | backend/services/simulation_service.py:199-200 | An elliptical orbit whose periapsis is above 6371 km never reports an impact. |
| Scans.ArgMin | backend/services/simulation_service.py:203 | `np.argmin` gives an index of a least element, with every earlier element strictly greater. |
| Scans.ArgMax | backend/services/simulation_service.py:204 | `np.argmax` gives an index of a greatest element, with every earlier element strictly smaller. |
| Scans.Min | backend/services/simulation_service.py:215-217 | `np.min` is an element and a lower bound. |
| Scans.Max | backend/services/simulation_service.py:216-218 | `np.max` is an element and an upper bound. |
| Scans.ShiftExtremes | backend/services/simulation_service.py:196-216 | Shifting every element by a constant shifts the least and greatest elements by that constant. |
| Scans.MeanBetween | backend/services/simulation_service.py:219 | The mean lies between the least and the greatest element. |
| Scans.FirstAtMost | backend/services/simulation_service.py:199-200 | The first index whose value is `<= bound`, with every earlier value above it. None iff no value is `<= bound`. |
| SolarSystem.TableWellFormed | backend/services/solar_system_service.py:30-39 | The table has 8 rows, each with a positive period and a mean anomaly in [0, 360). |
| SolarSystem.MeanMotion | backend/services/solar_system_service.py:54 | The mean motion is positive, and one period in seconds times it is `2 pi`. |
| SolarSystem.MeanAnomalyNow | backend/services/solar_system_service.py:54-56 | The wrapped mean anomaly lies in [0, 2 pi) and differs from `radians(M0) + n * dt` by a whole number of turns. |
| SolarSystem.MeanAnomalyDetermined | backend/services/solar_system_service.py:56 | Any angle in [0, 2 pi) that differs from `radians(M0) + n * dt` by whole turns is the reported mean anomaly, so the value is determined. |
| RealMath.FloorMod | backend/services/solar_system_service.py:56 | Python's float `%` by a positive modulus lands in [0, modulus) and differs from its argument by a whole multiple of the modulus. |
| RealMath.CongruentUnique | backend/services/solar_system_service.py:56 | Two values in [0, modulus) that differ from the same argument by whole multiples of the modulus are equal. |
| SolarSystem.PlanetStates | backend/services/solar_system_service.py:48-78 | The result has `sunRadiusKm = 695700` and exactly 8 planet entries, one per table row. |
| SolarSystem.PlanetStatesRows | backend/services/solar_system_service.py:59-71 | Entry k copies name, colours, radius, eccentricity, inclination, node, periapsis and period from row k. It has `semiMajorAxisKm = au x 149597870.7` and `meanAnomalyDeg` in [0, 360). |
| SolarSystem.DegreesInRange | backend/services/solar_system_service.py:57 | An angle in [0, 2 pi) is in [0, 360) degrees. |
| SolarSystem.AtEpoch | backend/services/solar_system_service.py:55-57 | At zero elapsed seconds every planet reports its table mean anomaly. |
| SolarSystem.Periodic | backend/services/solar_system_service.py:54-71 | One orbital period later every planet's entry is unchanged. |
| PyText.Strip | backend/services/nasa_neo_service.py:270 | `strip()` returns the infix left after removing Python whitespace at both ends: both removed ends are whitespace and the result has none at its ends. |
| PyText.StripUnique | backend/services/nasa_neo_service.py:105 | Whitespace `p`, `q` around a tight `r` strip to exactly `r`. |
| PyText.StripPadding | backend/services/nasa_neo_service.py:105 | Extra whitespace around a string does not change its stripped form. |
| PyText.StripIdempotent | backend/services/nasa_neo_service.py:105 | Stripping twice is stripping once. |
| PyText.Lower | backend/services/nasa_neo_service.py:304 | `lower()` maps each ASCII capital to its small letter and keeps every other character. |
| PyText.StripUpper | backend/services/nasa_neo_service.py:304 | Stripping and upper-casing commute. |
| JsonValues.Get | backend/services/nasa_neo_service.py:264 | `d.get(key)` finds a value iff the key is present, and the value is stored under that key. |
| JsonValues.PutGet | backend/services/nasa_neo_service.py:272 | After `d[key] = v`, `key` reads `v` and every other key reads what it read before. |
| JsonValues.PutDistinct | backend/services/nasa_neo_service.py:272 | Assignment keeps keys distinct and adds no key but `key`. |
| JsonValues.UpdateGet | backend/services/nasa_neo_service.py:180 | After `d.update(e)`, every key of `e` holds its value from `e` and every other key its value from `d`. |
| JsonValues.UpdateDistinct | backend/services/nasa_neo_service.py:180 | `update` keeps keys distinct. |
| NeoPayload.CoerceNumber | backend/services/nasa_neo_service.py:281-291 | Only a string can change, and then into the number `float` makes of it. A string `float` rejects comes back unchanged. |
| NeoPayload.CoerceNumberIdempotent | backend/services/nasa_neo_service.py:281-291 | Coercing twice is coercing once. |
| NeoPayload.ToFloat | backend/services/nasa_neo_service.py:347-355 | `float` of a number is that number. `None`, a list or a dict raises; no other error kind occurs. |
| NeoPayload.ToFloatCoerced | backend/services/nasa_neo_service.py:281-291 | Coercion never changes what `float` makes of a value. |
| NeoPayload.CoerceBool | backend/services/nasa_neo_service.py:294-309 | Booleans are kept. A number reads as "non-zero". `None`, lists and dicts read as unknown. |
| NeoPayload.CoerceBoolString | backend/services/nasa_neo_service.py:295-309 | Every string reads as the word table says of its stripped lower-case form: the early `""`/`"null"` exit agrees with the table. |
| NeoPayload.NullReading | backend/services/nasa_neo_service.py:295 | `"null"` is already normal and is not a yes or no word. |
| NeoPayload.CoerceBoolPadding | backend/services/nasa_neo_service.py:304 | Whitespace around a string does not change its reading. |
| NeoPayload.CoerceBoolIgnoresCase | backend/services/nasa_neo_service.py:304 | Letter case does not change a string's reading. |
| NeoPayload.WordReading | backend/services/nasa_neo_service.py:304-309 | A tight lower-case word reads as the word table says. |
| NeoPayload.TrueWordsRead | backend/services/nasa_neo_service.py:305-306 | Every word of the yes set reads as true. |
| NeoPayload.FalseWordsRead | backend/services/nasa_neo_service.py:307-308 | Every word of the no set reads as false. |
| NeoPayload.YesWords | backend/services/nasa_neo_service.py:305-306 | "y", "yes", "true" and "1" read as true. |
| NeoPayload.NoWords | backend/services/nasa_neo_service.py:307-308 | "n", "no", "false" and "0" read as false. |
| NeoPayload.DigitsAgree | backend/services/nasa_neo_service.py:301-308 | The strings "1" and "0" read as true and false, as the numbers 1 and 0 do. |
| NeoPayload.Assignments | backend/services/nasa_neo_service.py:260-276 | A non-dict entry, or one without a truthy name/label, assigns nothing. Otherwise it assigns the stripped, coerced value under the key, then `key_unc` iff the entry has an `uncertainty` field. It makes at most two assignments, with distinct keys. |
| NeoPayload.Collect | backend/services/nasa_neo_service.py:259-278 | The loop either raises TypeError (unhashable key) or yields a dict with distinct keys. |
| NeoPayload.CollectFails | backend/services/nasa_neo_service.py:260-272 | The loop raises iff some entry's key is a list or a dict. |
| NeoPayload.FailingEntry | backend/services/nasa_neo_service.py:272 | A failed loop has an entry with an unhashable key. |
| NeoPayload.FailsAtUnhashable | backend/services/nasa_neo_service.py:272 | An entry with an unhashable key makes the loop fail. |
| NeoPayload.CollectGet | backend/services/nasa_neo_service.py:259-278 | After the loop every key holds the value of the last assignment made to it, and no key is present that no entry assigned. |
| NeoPayload.ElementListToDict | backend/services/nasa_neo_service.py:250-278 | A falsy input gives `{}`. A truthy number or boolean raises (not iterable). A result always has distinct keys. |
| NeoPayload.ElementListToDictGet | backend/services/nasa_neo_service.py:250-278 | Each key of the result holds the value of the last entry that assigned it. |
| NeoPayload.NormalizeEpoch | backend/services/nasa_neo_service.py:312-330 | No epoch iff the section is falsy. A dict gives the coerced `value`, or `julian_date` when `value` is falsy, with its `time_scale` and `calendar_date` copied. A non-dict section becomes `jd` with no time scale or date. |
| NeoPayload.EpochDictForms | backend/services/nasa_neo_service.py:316-324 | In a dict, a truthy `value` decides the date as a bare epoch would. `julian_date` is used only when `value` is falsy. The time scale and calendar date are always copied. |
| NeoPayload.EpochForms | backend/services/nasa_neo_service.py:316-330 | A bare epoch, the same value under `value`, and under `julian_date` give the same `jd`. |
| NeoPayload.MissingKeys | backend/services/nasa_neo_service.py:342 | A key is reported missing iff it is a required source key whose value is `None` or absent. The missing keys keep the order of the required keys (a subsequence of them). |
| NeoPayload.MissingSourceKeys | backend/services/nasa_neo_service.py:333-342 | The missing SBDB keys come in the order a, e, i, w, om, ma, and none is listed twice. |
| NeoPayload.ExtractSimulationElements | backend/services/nasa_neo_service.py:332-359 | The missing list is `MissingKeys` of the six SBDB keys, and elements are returned iff it is empty. Otherwise each element is `float` of its source key, with `a` converted from AU to km (times 149597870.7), `w`/`om`/`ma` renamed to `omega`/`Omega`/`M0`, and `mu = 1.32712440018e11`. A failure means no key is missing and some key's value is one `float` rejects. |
| NeoPayload.ConvertElements | backend/services/nasa_neo_service.py:347-357 | The six conversions: each element is `float` of its SBDB key, `a` in km, and the Sun's `mu`. A failure is a TypeError/ValueError from `float` on one of the six keys. |
| NeoPayload.ExtractedElementsBuildOrbit | backend/services/nasa_neo_service.py:347-357 | Extracted elements build an orbit iff the semi-major axis is positive, and the orbit keeps that axis and the Sun's `mu`. |
| NeoPayload.Section | backend/services/nasa_neo_service.py:214-215 | An absent or falsy section reads as `{}`, a dict gives its fields, and any other truthy value raises AttributeError at its first `.get`. |
| NeoPayload.ObjectSection | backend/services/nasa_neo_service.py:213 | The object section is readable iff it is absent or a dict: unlike the others it has no `or {}`. |
| NeoPayload.BuildResponse | backend/services/nasa_neo_service.py:212-247 | The orbit's elements are the flattened `elements` list. The simulation elements and missing list are `_extract_simulation_elements` of those elements, with an empty missing list reported as `None`. Simulation elements are present iff the missing list is `None`. `physical` is the flattened `phys_par.parameters`, or `None` when empty. The seven object fields are copied from `des`, `fullname`, `neo`, `pha`, `orbit_class`, `alts` and `spkid`. The epoch, residuals and both coerced MOIDs come from the orbit section. It fails iff a section, a list or a conversion fails. |
| NeoPayload.SearchEntry | backend/services/nasa_neo_service.py:369-390 | A search entry has eight distinct keys. |
| NeoPayload.SearchEntryFields | backend/services/nasa_neo_service.py:370-388 | The entry reports all eight fields. The designation, `spkid` and orbit class are taken as they are. The full name falls back to the designation. `neo` and `pha` are the tri-state flags. `absolute_magnitude_h` is the coerced `H` of a dict `physical`, else `None`. `moid_au` is the coerced MOID. |
| NeoPayload.SearchEntryKeepsMoid | backend/services/nasa_neo_service.py:387 | An entry built from a processed payload reports its MOID unchanged. |
| NeoRequests.FetchObject | backend/services/nasa_neo_service.py:48-100 | An empty identifier gives 400, an unreachable service 503, a 404 reply 404, and any other 4xx/5xx reply that status. A successful lookup came from a non-error object reply, and its data is `_build_response` of that reply. Conversely, such a reply whose `_build_response` succeeds is a successful lookup. A non-error dict reply without `object` gives 502 with `message`, else `error`, else "Invalid response from NASA SBDB". A non-error reply fails outright iff it is not a dict or `_build_response` raises. |
| NeoRequests.EmptyIdentifierNoRequest | backend/services/nasa_neo_service.py:54-59 | An empty identifier is refused with status 400 whatever the service would answer: no request is made. |
| NeoRequests.IdentifierSentVerbatim | backend/services/nasa_neo_service.py:61-66 | A non-empty identifier's outcome depends only on the reply to that exact query. |
| NeoRequests.SafeLimit | backend/services/nasa_neo_service.py:113 | The limit is `clamp(int(limit), 1, 25)` for numbers (a boolean gives 1) and 10 otherwise. It always lies in [1, 25]. |
| NeoRequests.SafeLimitIdempotent | backend/services/nasa_neo_service.py:113 | A limit that is already safe is kept. |
| NeoRequests.Wildcard | backend/services/nasa_neo_service.py:115-117 | A term containing `*` is kept. Otherwise it becomes `*term*`. |
| NeoRequests.WildcardIdempotent | backend/services/nasa_neo_service.py:115-117 | Wrapping twice is wrapping once. |
| NeoRequests.ListEntries | backend/services/nasa_neo_service.py:168-185 | One entry per list item, in order, each built from its item. |
| NeoRequests.Detail | backend/services/nasa_neo_service.py:177-178 | A designation that is not a non-empty string is not looked up. Otherwise the result fails iff the lookup raises. A found detail is exactly the data of a successful lookup, and a failed lookup gives no detail. |
| NeoRequests.ListEntry | backend/services/nasa_neo_service.py:169-183 | An item that is not a dict fails. Otherwise the entry fails iff the detail lookup fails, and a built entry has distinct keys. |
| NeoRequests.ListEntryLooked | backend/services/nasa_neo_service.py:170-179 | When looking up `pdes` gives `Looked(d)`, the entry is the match's base fields updated with `SearchEntry(d)`. |
| NeoRequests.LookedEntryFields | backend/services/nasa_neo_service.py:379-388 | After that update, all eight fields come from `d`, including `designation`, `pha` and `absolute_magnitude_h`. |
| NeoRequests.ListEntryUnlooked | backend/services/nasa_neo_service.py:170-182 | When `pdes` is not looked up or its lookup fails, the entry is the base fields followed by `pha` and `absolute_magnitude_h`, both `None`. |
| NeoRequests.UnlookedEntryFields | backend/services/nasa_neo_service.py:171-182 | That entry has six fields. `pha` and `absolute_magnitude_h` are `None`. `designation`, `full_name`, `moid_au` and `orbit_class` are the match's `pdes`, `name`, coerced `moid` and `class`. |
| NeoRequests.Head | backend/services/nasa_neo_service.py:169 | `matches[:n]` on a list is its first `min(n, len)` items. |
| NeoRequests.CompleteSearch | backend/services/nasa_neo_service.py:133-207 | A 404 gives `{count: 0, results: []}`. A status other than 200/300 fails with that status and the payload's message, or the status text. A single object gives count 1 with its search entry iff its NEO flag reads as true, and count 0 otherwise. A payload without an object is read by `MatchSearch`. Results never exceed the safe limit. |
| NeoRequests.MatchSearch | backend/services/nasa_neo_service.py:166-207 | A non-empty match list gives `min(len, limit)` results, the k-th built from the k-th match, with count `payload.get("count", len(matches))`. It fails iff building an entry fails. A truthy non-list `list` fails. With no matches, it gives 400 with the payload's message, else 500 "Unexpected response from NASA SBDB". |
| NeoRequests.Payload | backend/services/nasa_neo_service.py:362-367 | A dict body is read as it is; any other body reads as `{}`. |
| NeoRequests.SearchObjects | backend/services/nasa_neo_service.py:102-207 | A blank query gives 400, an unreachable service 503, and a 404 reply `{count: 0, results: []}`. Any other reply is `CompleteSearch` of it under `SafeLimit(limit)`. Found results never exceed the safe limit, and so never exceed 25. |
| NeoRequests.BlankQueryNoRequest | backend/services/nasa_neo_service.py:105-111 | A query blank after stripping is refused whatever the service would answer: no request is made. |
| NeoRequests.WhitespaceQueryRefused | backend/services/nasa_neo_service.py:105-111 | A query of one space is refused with 400. |

## Left out

- Network and JSON decoding: `session.get` and `response.json()` are replaced by the `server` parameter. A body that fails to decode is not modelled. `_safe_json`'s reading of a non-dict body as `{}` is `NeoRequests.Payload`.
- The Flask application (`backend/app.py`), the interactive matplotlib simulator, `OrbitalVisualizer` and the command-line `main`: these are transport, plotting and UI code.
- Floating point: every quantity is an exact real. IEEE rounding, overflow, `inf` and `nan` are not modelled. This includes an infinite or `nan` search limit, which makes `int()` raise.
- Kepler.NewtonStep: a zero slope `1 - e cos E` is the failure `ZeroDivision`. That is what Python floats do. On the numpy scalars that `simulate` passes (backend/services/simulation_service.py:108-112), the division at line 29 instead gives `inf` or `nan` with a RuntimeWarning. With `f != 0` the run then fails one step later, because `math.sin(inf)` raises ValueError. With `f = df = 0` it never raises: `e = 1`, `M0 = 0` at `t = 0` gives `nan` positions, and `run_simulation` reports success where `Simulation.RunSimulation` fails. The validator rejects `e = 1`, so this is only reached by calling the service directly.
- Transcendental functions are constrained by the `Lawful` laws only. Convergence of the Newton iteration and the residual of Kepler's equation are not proved.
- The clock: `get_planet_states` takes the seconds since J2000 as input, and its two ISO timestamp strings are omitted.
- `_build_response`'s constant `source` citation block is omitted from `NeoPayload.Processed`.
- NeoPayload.Assignments: an entry whose key is a number or `True` is skipped. The source would store it under that non-string key, which the string-keyed field lists cannot represent.
- NeoRequests.Detail: a truthy designation that is not a string is not looked up. The source would send it as the `sstr` parameter.
- NeoPayload.ToFloat: `float` of a string is the abstract `parse`. Python's float-literal grammar (including its own whitespace stripping) is not modelled.
- PyText.Lower: only ASCII letters are lower-cased. No other character lower-cases to a letter of the yes/no words, so readings are unaffected.
- JSON objects with duplicate keys are read first-match. Python's decoder keeps the last duplicate.
- Integers and floats in JSON are both `JNum`. For example, the `count` the search reports is `JNum(0.0)` where Python returns the integer `0`.
- Exception kinds are named for the reader. For example, slicing a dict is `NotSubscriptable`, although recent Pythons raise KeyError there. Every caller treats all exceptions alike.
- Simulation.Process: requires one time per position, and distinct first two times when there are several. `run_simulation` always supplies both. Equal times would give numpy's `inf` speeds.
- `calculate_orbital_info` in orbital_service.py is `from_dict` followed by `get_orbital_info`, both modelled. It has no row of its own.

=== FILE: cartesian.dfy ===
/** Position on the orbit at time `t` (`mean_to_true_anomaly` and
    `orbital_to_cartesian` in backend/services/simulation_service.py, repeated
    in simultion_trajectory/orbital_simulation.py).

    The eccentric anomaly from the Kepler solver becomes the true anomaly
    `nu`, the conic equation gives the radius, and three planar rotations
    (periapsis argument about z, inclination about x, node longitude about
    z) carry the in-plane point to the inertial frame.
 */
module Cartesian {
  import opened Outcomes
  import opened RealMath
  import Orbits
  import Kepler

  datatype Vec3 = Vec3(x: real, y: real, z: real)

  /** Squared Euclidean length. */
  function NormSq(v: Vec3): real
  {
    v.x * v.x + v.y * v.y + v.z * v.z
  }

  function Sub(u: Vec3, v: Vec3): Vec3
  {
    Vec3(u.x - v.x, u.y - v.y, u.z - v.z)
  }

  /** Rotation about the z axis by the angle whose cosine and sine are `c`
      and `s`. */
  function RotateZ(v: Vec3, c: real, s: real): Vec3
  {
    Vec3(v.x * c - v.y * s, v.x * s + v.y * c, v.z)
  }

  /** Rotation about the x axis by the angle whose cosine and sine are `c`
      and `s`. */
  function RotateX(v: Vec3, c: real, s: real): Vec3
  {
    Vec3(v.x, v.y * c - v.z * s, v.y * s + v.z * c)
  }

  /** A planar rotation of (p, q) keeps p^2 + q^2 when c^2 + s^2 = 1. */
  lemma PlanarRotation(p: real, q: real, c: real, s: real)
    requires c * c + s * s == 1.0
    ensures (p * c - q * s) * (p * c - q * s) + (p * s + q * c) * (p * s + q * c) == p * p + q * q
  {
    assert (p * c - q * s) * (p * c - q * s) + (p * s + q * c) * (p * s + q * c)
        == (p * p + q * q) * (c * c + s * s);
  }

  lemma RotateZNorm(v: Vec3, c: real, s: real)
    requires c * c + s * s == 1.0
    ensures NormSq(RotateZ(v, c, s)) == NormSq(v)
  {
    PlanarRotation(v.x, v.y, c, s);
  }

  lemma RotateXNorm(v: Vec3, c: real, s: real)
    requires c * c + s * s == 1.0
    ensures NormSq(RotateX(v, c, s)) == NormSq(v)
  {
    PlanarRotation(v.y, v.z, c, s);
  }

  /** Rotating by the opposite angle undoes a z rotation. */
  lemma RotateZInverse(v: Vec3, c: real, s: real)
    requires c * c + s * s == 1.0
    ensures RotateZ(RotateZ(v, c, s), c, -s) == v
  {
    var w := RotateZ(v, c, s);
    assert w.x * c + w.y * s == v.x * (c * c + s * s);
    assert -w.x * s + w.y * c == v.y * (c * c + s * s);
  }

  /** Rotating by the opposite angle undoes an x rotation. */
  lemma RotateXInverse(v: Vec3, c: real, s: real)
    requires c * c + s * s == 1.0
    ensures RotateX(RotateX(v, c, s), c, -s) == v
  {
    var w := RotateX(v, c, s);
    assert w.y * c + w.z * s == v.y * (c * c + s * s);
    assert -w.y * s + w.z * c == v.z * (c * c + s * s);
  }

  /** The periapsis, inclination and node rotations, in that order. */
  function ToInertial(p: Vec3, el: Orbits.Elements, m: Elementary): Vec3
  {
    var p1 := RotateZ(p, m.cos(el.omega), m.sin(el.omega));
    var p2 := RotateX(p1, m.cos(el.i), m.sin(el.i));
    RotateZ(p2, m.cos(el.Omega), m.sin(el.Omega))
  }

  /** The three rotations preserve length. */
  lemma ToInertialNorm(p: Vec3, el: Orbits.Elements, m: Elementary)
    requires Lawful(m)
    ensures NormSq(ToInertial(p, el, m)) == NormSq(p)
  {
    var p1 := RotateZ(p, m.cos(el.omega), m.sin(el.omega));
    var p2 := RotateX(p1, m.cos(el.i), m.sin(el.i));
    RotateZNorm(p, m.cos(el.omega), m.sin(el.omega));
    RotateXNorm(p1, m.cos(el.i), m.sin(el.i));
    RotateZNorm(p2, m.cos(el.Omega), m.sin(el.Omega));
  }

  /** `mean_to_true_anomaly`: solve Kepler's equation, then
      `nu = 2 atan2(sqrt(1 + e) sin(E/2), sqrt(1 - e) cos(E/2))`;
      `math.sqrt` of a negative number raises. */
  function TrueAnomaly(M: real, e: real, m: Elementary): (r: Result<real, PyError>)
    ensures r.Success? <==> Kepler.KeplerSolve(M, e, m).Success? && -1.0 <= e <= 1.0
    ensures Kepler.KeplerSolve(M, e, m).Success? && !(-1.0 <= e <= 1.0) ==> r == Failure(MathDomain)
  {
    var E :- Kepler.KeplerSolve(M, e, m);
    if 1.0 + e < 0.0 || 1.0 - e < 0.0 then Failure(MathDomain)
    else Success(2.0 * m.atan2(m.sqrt(1.0 + e) * m.sin(E / 2.0), m.sqrt(1.0 - e) * m.cos(E / 2.0)))
  }

  /** On an elliptical orbit the true anomaly is always defined. */
  lemma TrueAnomalyTotal(M: real, e: real, m: Elementary)
    requires Lawful(m)
    requires 0.0 <= e < 1.0
    ensures TrueAnomaly(M, e, m).Success?
  {
    Kepler.KeplerSolveTotal(M, e, m);
  }

  /** The conic equation `r = a (1 - e^2) / (1 + e cos nu)`. */
  function ConicRadius(a: real, e: real, nu: real, m: Elementary): (r: Result<real, PyError>)
    ensures r.Failure? <==> 1.0 + e * m.cos(nu) == 0.0
    ensures r.Failure? ==> r.error == ZeroDivision
    ensures r.Success? ==> r.value * (1.0 + e * m.cos(nu)) == a * (1.0 - e * e)
  {
    var denominator := 1.0 + e * m.cos(nu);
    if denominator == 0.0 then Failure(ZeroDivision)
    else Success(a * (1.0 - e * e) / denominator)
  }

  /** Periapsis and apoapsis distances `a (1 - e)` and `a (1 + e)`. */
  function Periapsis(el: Orbits.Elements): real { el.a * (1.0 - el.e) }
  function Apoapsis(el: Orbits.Elements): real { el.a * (1.0 + el.e) }

  lemma ApsesNonNegative(el: Orbits.Elements)
    requires el.a > 0.0 && 0.0 <= el.e < 1.0
    ensures 0.0 <= Periapsis(el) <= Apoapsis(el)
  {
    NonNegProduct(el.a, 1.0 - el.e);
    NonNegProduct(el.a, 2.0 * el.e);
  }

  /** On an ellipse the radius lies between periapsis and apoapsis. */
  lemma RadiusBetweenApsides(el: Orbits.Elements, nu: real, m: Elementary)
    requires Lawful(m)
    requires el.a > 0.0 && 0.0 <= el.e < 1.0
    ensures ConicRadius(el.a, el.e, nu, m).Success?
    ensures Periapsis(el) <= ConicRadius(el.a, el.e, nu, m).value <= Apoapsis(el)
  {
    var a, e := el.a, el.e;
    var c := m.cos(nu);
    CosBounded(m, nu);
    var d := 1.0 + e * c;
    assert e * (1.0 - c) >= 0.0 by { NonNegProduct(e, 1.0 - c); }
    assert e * (1.0 + c) >= 0.0 by { NonNegProduct(e, 1.0 + c); }
    assert 1.0 - e <= d <= 1.0 + e;
    assert d > 0.0;
    var r := ConicRadius(a, e, nu, m).value;
    PosProduct(a, 1.0 - e);
    PosProduct(a, 1.0 + e);
    assert a * (1.0 - e * e) == Periapsis(el) * (1.0 + e) == Apoapsis(el) * (1.0 - e);
    assert r * d == Periapsis(el) * (1.0 + e);
    assert r * d == Apoapsis(el) * (1.0 - e);
    Between(r, d, Periapsis(el), 1.0 + e);
    Between(r, d, Apoapsis(el), 1.0 - e);
  }

  /** From `r d = k f` with `d` compared to `f`, `r` compares to `k` the
      other way round. */
  lemma Between(r: real, d: real, k: real, f: real)
    requires d > 0.0 && f > 0.0 && k > 0.0
    requires r * d == k * f
    ensures d <= f ==> k <= r
    ensures f <= d ==> r <= k
  {
    if d <= f && r < k {
      assert r * d < k * d by { PosProduct(k - r, d); }
      NonNegProduct(k, f - d);
    }
    if f <= d && r > k {
      assert r * d > k * d by { PosProduct(r - k, d); }
      NonNegProduct(k, d - f);
    }
  }

  /** The point on the orbit in the orbital plane, before rotation. */
  function InPlane(r: real, nu: real, m: Elementary): Vec3
  {
    Vec3(r * m.cos(nu), r * m.sin(nu), 0.0)
  }

  lemma InPlaneNorm(r: real, nu: real, m: Elementary)
    requires Lawful(m)
    ensures NormSq(InPlane(r, nu, m)) == r * r
  {
    var c, s := m.cos(nu), m.sin(nu);
    assert c * c + s * s == 1.0;
    assert (r * c) * (r * c) + (r * s) * (r * s) == r * r * (c * c + s * s);
  }

  /** The mean anomaly `t` seconds after epoch. */
  function MeanAnomalyAt(el: Orbits.Elements, t: real): real
  {
    el.M0 + el.n * t
  }

  /** `orbital_to_cartesian(elements, t)`. */
  function Position(el: Orbits.Elements, t: real, m: Elementary): (r: Result<Vec3, PyError>)
    ensures r.Success? <==>
      && TrueAnomaly(MeanAnomalyAt(el, t), el.e, m).Success?
      && ConicRadius(el.a, el.e, TrueAnomaly(MeanAnomalyAt(el, t), el.e, m).value, m).Success?
  {
    var nu := TrueAnomaly(MeanAnomalyAt(el, t), el.e, m);
    if nu.Failure? then Failure(nu.error)
    else
      var radius := ConicRadius(el.a, el.e, nu.value, m);
      if radius.Failure? then Failure(radius.error)
      else Success(ToInertial(InPlane(radius.value, nu.value, m), el, m))
  }

  /** The position's squared length is the square of the conic radius. */
  lemma PositionNorm(el: Orbits.Elements, t: real, m: Elementary)
    requires Lawful(m)
    requires Position(el, t, m).Success?
    ensures TrueAnomaly(MeanAnomalyAt(el, t), el.e, m).Success?
    ensures var nu := TrueAnomaly(MeanAnomalyAt(el, t), el.e, m).value;
      && ConicRadius(el.a, el.e, nu, m).Success?
      && NormSq(Position(el, t, m).value) == Square(ConicRadius(el.a, el.e, nu, m).value)
  {
    var M := MeanAnomalyAt(el, t);
    var ta := TrueAnomaly(M, el.e, m);
    assert ta.Success?;
    var cr := ConicRadius(el.a, el.e, ta.value, m);
    assert cr.Success?;
    InPlaneNorm(cr.value, ta.value, m);
    ToInertialNorm(InPlane(cr.value, ta.value, m), el, m);
  }

  /** On an ellipse (`a > 0`, `0 <= e < 1`) the position always exists and
      its distance from the centre lies between periapsis and apoapsis,
      compared through squares. */
  lemma PositionBetweenApsides(el: Orbits.Elements, t: real, m: Elementary)
    requires Lawful(m)
    requires el.a > 0.0 && 0.0 <= el.e < 1.0
    ensures Position(el, t, m).Success?
    ensures Square(Periapsis(el)) <= NormSq(Position(el, t, m).value) <= Square(Apoapsis(el))
  {
    var M := MeanAnomalyAt(el, t);
    TrueAnomalyTotal(M, el.e, m);
    var nu := TrueAnomaly(M, el.e, m).value;
    RadiusBetweenApsides(el, nu, m);
    var radius := ConicRadius(el.a, el.e, nu, m).value;
    ApsesNonNegative(el);
    PositionNorm(el, t, m);
    SquareMonotone(Periapsis(el), radius);
    SquareMonotone(radius, Apoapsis(el));
  }

  function Square(x: real): real { x * x }

  lemma SquareMonotone(s: real, r: real)
    requires 0.0 <= s <= r
    ensures Square(s) <= Square(r)
  {
    if s < r {
      SquareStrict(s, r);
    }
  }
}

=== FILE: json.dfy ===
/** Decoded JSON values as the Python code sees them after `response.json()`,
    and the few dictionary operations the payload helpers perform on them.

    A JSON object is a list of fields in insertion order. Objects built by
    the modelled code keep their keys distinct, as a Python `dict` does.
    Integers and floats are both `JNum`: no modelled operation tells them
    apart.
 */
module JsonValues {
  import opened Outcomes

  datatype Json =
    | JNull
    | JBool(b: bool)
    | JNum(x: real)
    | JStr(s: string)
    | JList(items: seq<Json>)
    | JObj(fields: Fields)

  type Fields = seq<(string, Json)>

  /** Python truthiness: `None`, `False`, zero and empty containers are
      false. */
  predicate Truthy(v: Json)
  {
    match v
    case JNull => false
    case JBool(b) => b
    case JNum(x) => x != 0.0
    case JStr(s) => |s| > 0
    case JList(items) => |items| > 0
    case JObj(fields) => |fields| > 0
  }

  predicate HasKey(d: Fields, key: string)
  {
    exists j :: 0 <= j < |d| && d[j].0 == key
  }

  predicate DistinctKeys(d: Fields)
  {
    forall j, k :: 0 <= j < k < |d| ==> d[j].0 != d[k].0
  }

  /** The value stored under `key`, if any. */
  function Get(d: Fields, key: string): (r: Option<Json>)
    ensures r.Some? <==> HasKey(d, key)
    ensures r.Some? ==> (key, r.value) in d
  {
    if |d| == 0 then None
    else if d[0].0 == key then Some(d[0].1)
    else
      var rest := Get(d[1..], key);
      assert forall j :: 1 <= j < |d| ==> d[j] == d[1..][j - 1];
      rest
  }

  /** The value under the first field that carries `key`. */
  lemma {:induction false} GetAt(d: Fields, j: nat, key: string)
    requires j < |d| && d[j].0 == key
    requires forall i :: 0 <= i < j ==> d[i].0 != key
    ensures Get(d, key) == Some(d[j].1)
  {
    if j > 0 {
      assert forall i :: 1 <= i < |d| ==> d[i] == d[1..][i - 1];
      GetAt(d[1..], j - 1, key);
    }
  }

  /** In a dictionary with distinct keys, every field is found under its
      own key. */
  lemma GetDistinct(d: Fields, j: nat)
    requires DistinctKeys(d) && j < |d|
    ensures Get(d, d[j].0) == Some(d[j].1)
  {
    GetAt(d, j, d[j].0);
  }

  /** `d.get(key)`: an absent key reads as `None`. */
  function Lookup(d: Fields, key: string): Json
  {
    Get(d, key).GetOr(JNull)
  }

  /** `d[key] = v`: an existing key keeps its place and takes the new
      value; a new key goes at the end. */
  function Put(d: Fields, key: string, v: Json): Fields
  {
    if |d| == 0 then [(key, v)]
    else if d[0].0 == key then [(key, v)] + d[1..]
    else [d[0]] + Put(d[1..], key, v)
  }

  /** After `d[key] = v`, `key` reads `v` and every other key reads what it
      read before. */
  lemma {:induction false} PutGet(d: Fields, key: string, v: Json, k: string)
    ensures Get(Put(d, key, v), k) == (if k == key then Some(v) else Get(d, k))
  {
    if |d| > 0 && d[0].0 != key {
      PutGet(d[1..], key, v, k);
    }
  }

  /** Assignment keeps a dictionary's keys distinct. */
  lemma {:induction false} PutDistinct(d: Fields, key: string, v: Json)
    requires DistinctKeys(d)
    ensures DistinctKeys(Put(d, key, v))
    ensures forall j :: 0 <= j < |Put(d, key, v)| ==> Put(d, key, v)[j].0 == key || HasKey(d, Put(d, key, v)[j].0)
  {
    if |d| > 0 && d[0].0 != key {
      var rest := d[1..];
      assert forall j :: 1 <= j < |d| ==> d[j] == rest[j - 1];
      PutDistinct(rest, key, v);
      var r := Put(d, key, v);
      assert r == [d[0]] + Put(rest, key, v);
      assert forall j :: 1 <= j < |r| ==> r[j].0 != d[0].0;
    } else if |d| > 0 {
      var r := Put(d, key, v);
      assert forall j :: 0 <= j < |d| ==> r[j].0 == d[j].0;
    }
  }

  /** `d.update(e)`: the fields of `e` assigned one after another. */
  function Update(d: Fields, e: Fields): Fields
    decreases |e|
  {
    if |e| == 0 then d else Update(Put(d, e[0].0, e[0].1), e[1..])
  }

  /** After `d.update(e)` with a dictionary `e`, every key of `e` holds its
      value from `e` and every other key its value from `d`. */
  lemma {:induction false} UpdateGet(d: Fields, e: Fields, k: string)
    requires DistinctKeys(e)
    ensures Get(Update(d, e), k) == (if HasKey(e, k) then Get(e, k) else Get(d, k))
    decreases |e|
  {
    if |e| > 0 {
      var tail := e[1..];
      assert forall j :: 1 <= j < |e| ==> e[j] == tail[j - 1];
      UpdateGet(Put(d, e[0].0, e[0].1), tail, k);
      PutGet(d, e[0].0, e[0].1, k);
      if k == e[0].0 {
        assert !HasKey(tail, k);
      } else {
        assert HasKey(e, k) <==> HasKey(tail, k);
      }
    }
  }

  /** After `d.update(e)` with a dictionary `e`, each field of `e` is
      found under its key. */
  lemma UpdateCovers(d: Fields, e: Fields)
    requires DistinctKeys(e)
    ensures forall j :: 0 <= j < |e| ==> Get(Update(d, e), e[j].0) == Some(e[j].1)
  {
    forall j | 0 <= j < |e|
      ensures Get(Update(d, e), e[j].0) == Some(e[j].1)
    {
      UpdateGet(d, e, e[j].0);
      GetDistinct(e, j);
    }
  }

  /** `update` keeps a dictionary's keys distinct. */
  lemma {:induction false} UpdateDistinct(d: Fields, e: Fields)
    requires DistinctKeys(d)
    ensures DistinctKeys(Update(d, e))
    decreases |e|
  {
    if |e| > 0 {
      PutDistinct(d, e[0].0, e[0].1);
      UpdateDistinct(Put(d, e[0].0, e[0].1), e[1..]);
    }
  }
}

=== FILE: kepler.dfy ===
/** The bounded Newton solver for Kepler's equation `M = E - e sin E`
    (`OrbitalSimulation.solve_kepler_equation`, present in both
    backend/services/simulation_service.py and
    simultion_trajectory/orbital_simulation.py).

    The solver starts from `E = M`, performs at most `MaxIterations` Newton
    updates, returns the new iterate as soon as two successive iterates are
    closer than `Tolerance`, and otherwise returns the last iterate. It
    reports nothing about whether it converged. A zero derivative is a
    failure, as it is for Python floats (`ZeroDivisionError`); on numpy
    scalars the division gives `inf` or `nan` instead, which the model
    does not represent.
 */
module Kepler {
  import opened Outcomes
  import opened RealMath

  const MaxIterations: nat := 50

  /** The default `tolerance` argument, 1e-8. */
  const Tolerance: real := 0.00000001

  /** The derivative of `E - e sin E - M` with respect to `E`. */
  function Slope(E: real, e: real, m: Elementary): real
  {
    1.0 - e * m.cos(E)
  }

  /** One Newton update from `E`. The new iterate is the zero of the
      tangent line of `E - e sin E - M` at `E`. */
  function NewtonStep(E: real, M: real, e: real, m: Elementary): (r: Result<real, PyError>)
    ensures r.Failure? <==> Slope(E, e, m) == 0.0
    ensures r.Failure? ==> r.error == ZeroDivision
    ensures r.Success? ==> (E - e * m.sin(E) - M) + Slope(E, e, m) * (r.value - E) == 0.0
  {
    var f := E - e * m.sin(E) - M;
    var df := Slope(E, e, m);
    if df == 0.0 then Failure(ZeroDivision) else Success(E - f / df)
  }

  /** The `k`-th Newton iterate starting from `E0 = M`, or the error that
      interrupted the sequence. */
  function Iterate(M: real, e: real, k: nat, m: Elementary): Result<real, PyError>
  {
    if k == 0 then Success(M)
    else
      match Iterate(M, e, k - 1, m)
      case Failure(err) => Failure(err)
      case Success(E) => NewtonStep(E, M, e, m)
  }

  /** Update `k` brought the iterate within `Tolerance` of its predecessor. */
  predicate Converged(M: real, e: real, k: nat, m: Elementary)
  {
    && k >= 1
    && Iterate(M, e, k, m).Success?
    && Iterate(M, e, k - 1, m).Success?
    && Abs(Iterate(M, e, k, m).value - Iterate(M, e, k - 1, m).value) < Tolerance
  }

  /** The solver stops after update `k`: the budget is spent, the update
      failed, or it converged. */
  predicate Stops(M: real, e: real, k: nat, m: Elementary)
  {
    k == MaxIterations || Iterate(M, e, k, m).Failure? || Converged(M, e, k, m)
  }

  /** The first update at or after `from` at which the solver stops. */
  function FirstStop(M: real, e: real, from: nat, m: Elementary): (r: nat)
    requires from <= MaxIterations
    ensures from <= r <= MaxIterations
    ensures Stops(M, e, r, m)
    ensures forall j :: from <= j < r ==> !Stops(M, e, j, m)
    decreases MaxIterations - from
  {
    if Stops(M, e, from, m) then from else FirstStop(M, e, from + 1, m)
  }

  /** The loop of `solve_kepler_equation` after `done` updates, with
      current iterate `E`. */
  function SolveFrom(E: real, M: real, e: real, done: nat, m: Elementary): Result<real, PyError>
    requires done <= MaxIterations
    decreases MaxIterations - done
  {
    if done == MaxIterations then Success(E)
    else
      var next := NewtonStep(E, M, e, m);
      if next.Failure? then next
      else if Abs(next.value - E) < Tolerance then next
      else SolveFrom(next.value, M, e, done + 1, m)
  }

  /** `solve_kepler_equation(M, e)` with the default tolerance. */
  function KeplerSolve(M: real, e: real, m: Elementary): Result<real, PyError>
  {
    SolveFrom(M, M, e, 0, m)
  }

  lemma {:induction false} SolveFromIsFirstStop(E: real, M: real, e: real, done: nat, m: Elementary)
    requires done <= MaxIterations
    requires Iterate(M, e, done, m) == Success(E)
    requires done == MaxIterations || !Stops(M, e, done, m)
    ensures SolveFrom(E, M, e, done, m) == Iterate(M, e, FirstStop(M, e, done, m), m)
    decreases MaxIterations - done
  {
    if done < MaxIterations {
      var next := NewtonStep(E, M, e, m);
      assert Iterate(M, e, done + 1, m) == next;
      if next.Failure? || Abs(next.value - E) < Tolerance {
        assert Stops(M, e, done + 1, m);
      } else {
        SolveFromIsFirstStop(next.value, M, e, done + 1, m);
      }
    }
  }

  /** The solver returns the iterate at its first stopping point: the first
      update that failed or converged, or update 50. Nothing in the result
      distinguishes convergence from an exhausted budget. */
  lemma KeplerSolveSpec(M: real, e: real, m: Elementary)
    ensures KeplerSolve(M, e, m) == Iterate(M, e, FirstStop(M, e, 0, m), m)
  {
    assert !Stops(M, e, 0, m);
    SolveFromIsFirstStop(M, M, e, 0, m);
  }

  /** The solver's loop, as a method: it returns the outcome and the number
      of Newton updates it performed. */
  method SolveKepler(M: real, e: real, m: Elementary) returns (r: Result<real, PyError>, updates: nat)
    ensures 1 <= updates <= MaxIterations
    ensures r == Iterate(M, e, updates, m)
    ensures Stops(M, e, updates, m)
    ensures forall j: nat :: j < updates ==> !Stops(M, e, j, m)
    ensures r == KeplerSolve(M, e, m)
  {
    var E := M;
    var done: nat := 0;
    assert !Stops(M, e, 0, m);
    while done < MaxIterations
      invariant done <= MaxIterations
      invariant Iterate(M, e, done, m) == Success(E)
      invariant forall j: nat :: j <= done && j < MaxIterations ==> !Stops(M, e, j, m)
    {
      var next := NewtonStep(E, M, e, m);
      assert Iterate(M, e, done + 1, m) == next;
      if next.Failure? || Abs(next.value - E) < Tolerance {
        r, updates := next, done + 1;
        assert Stops(M, e, updates, m);
        FirstStopUnique(M, e, updates, m);
        return;
      }
      E := next.value;
      done := done + 1;
    }
    r, updates := Success(E), done;
    FirstStopUnique(M, e, updates, m);
  }

  /** A stopping point with no earlier one is the first. */
  lemma FirstStopUnique(M: real, e: real, k: nat, m: Elementary)
    requires k <= MaxIterations
    requires Stops(M, e, k, m)
    requires forall j: nat :: j < k ==> !Stops(M, e, j, m)
    ensures FirstStop(M, e, 0, m) == k
    ensures KeplerSolve(M, e, m) == Iterate(M, e, k, m)
  {
    KeplerSolveSpec(M, e, m);
  }

  /** For an ellipse (0 <= e < 1) the derivative `1 - e cos E` is positive,
      so no update can divide by zero. */
  lemma SlopePositive(E: real, e: real, m: Elementary)
    requires Lawful(m)
    requires 0.0 <= e < 1.0
    ensures Slope(E, e, m) > 0.0
  {
    CosBounded(m, E);
    var c := m.cos(E);
    var p := e * c;
    assert Slope(E, e, m) == 1.0 - p;
    if c >= 0.0 {
      NonNegProduct(e, 1.0 - c);
      assert e * (1.0 - c) == e - p;
    } else {
      NonNegProduct(e, -c);
      assert e * -c == -p;
    }
  }

  lemma {:induction false} IterateTotal(M: real, e: real, k: nat, m: Elementary)
    requires Lawful(m)
    requires 0.0 <= e < 1.0
    ensures Iterate(M, e, k, m).Success?
  {
    if k > 0 {
      IterateTotal(M, e, k - 1, m);
      SlopePositive(Iterate(M, e, k - 1, m).value, e, m);
    }
  }

  /** On an elliptical orbit the solver always returns a value. */
  lemma KeplerSolveTotal(M: real, e: real, m: Elementary)
    requires Lawful(m)
    requires 0.0 <= e < 1.0
    ensures KeplerSolve(M, e, m).Success?
  {
    KeplerSolveSpec(M, e, m);
    IterateTotal(M, e, FirstStop(M, e, 0, m), m);
  }

  /** A root of Kepler's equation is a fixed point of the update. */
  lemma NewtonFixedPoint(E: real, M: real, e: real, m: Elementary)
    requires E - e * m.sin(E) == M
    requires Slope(E, e, m) != 0.0
    ensures NewtonStep(E, M, e, m) == Success(E)
  {
    var f := E - e * m.sin(E) - M;
    assert f == 0.0;
    assert f / Slope(E, e, m) == 0.0;
  }

  /** On a circular orbit the eccentric anomaly is the mean anomaly: the
      first update reproduces `M` and the solver stops there. */
  lemma CircularOrbit(M: real, m: Elementary)
    ensures KeplerSolve(M, 0.0, m) == Success(M)
  {
    assert NewtonStep(M, M, 0.0, m) == Success(M);
    assert Converged(M, 0.0, 1, m);
    KeplerSolveSpec(M, 0.0, m);
  }
}

=== FILE: neo_payload.dfy ===
/** The pure helpers that normalise a Small-Body Database payload
    (`NasaNeoService._coerce_number`, `_coerce_bool`,
    `_element_list_to_dict`, `_normalize_epoch`,
    `_extract_simulation_elements`, `_build_response` and
    `_search_entry_from_processed` in backend/services/nasa_neo_service.py).

    Python's `float(str)` is the parameter `parse`: the grammar of float
    literals is outside the model, only whether a string converts and to
    what.
 */
module NeoPayload {
  import opened Outcomes
  import opened Sequences
  import opened JsonValues
  import opened PyText
  import RealMath
  import Orbits

  /** One astronomical unit in km (`AU_IN_KM`). */
  const AuInKm: real := 149597870.7

  /** The Sun's gravitational parameter in km^3/s^2, 1.32712440018e11. */
  const SunMu: real := 132712440018.0

  /** `float(s)` for a string `s`: `None` where Python raises ValueError. */
  type Parser = string -> Option<real>

  // ---------------------------------------------------------------------
  // Numbers

  /** `_coerce_number`: a string that `float` accepts becomes that number;
      every other value, and every string `float` rejects, is returned as
      it is. */
  function CoerceNumber(v: Json, parse: Parser): (r: Json)
    ensures r == v || (v.JStr? && r.JNum?)
    ensures r.JStr? ==> r == v && parse(r.s).None?
    ensures v.JStr? && parse(v.s).Some? ==> r == JNum(parse(v.s).value)
  {
    match v
    case JStr(s) => if parse(s).Some? then JNum(parse(s).value) else v
    case _ => v
  }

  /** Python's `float(v)` on a decoded JSON value. */
  function ToFloat(v: Json, parse: Parser): (r: Result<real, PyError>)
    ensures v.JNum? ==> r == Success(v.x)
    ensures v.JNull? || v.JList? || v.JObj? ==> r == Failure(NotConvertible)
    ensures r.Failure? ==> r.error == NotConvertible
  {
    match v
    case JNum(x) => Success(x)
    case JBool(b) => Success(if b then 1.0 else 0.0)
    case JStr(s) => if parse(s).Some? then Success(parse(s).value) else Failure(NotConvertible)
    case _ => Failure(NotConvertible)
  }

  /** Coercing a value that was already coerced changes nothing. */
  lemma CoerceNumberIdempotent(v: Json, parse: Parser)
    ensures CoerceNumber(CoerceNumber(v, parse), parse) == CoerceNumber(v, parse)
  {
  }

  /** Coercion never changes what `float` makes of a value: it only does
      ahead of time the conversion `float` would do. */
  lemma ToFloatCoerced(v: Json, parse: Parser)
    ensures ToFloat(CoerceNumber(v, parse), parse) == ToFloat(v, parse)
  {
  }

  // ---------------------------------------------------------------------
  // Booleans

  const TrueWords: set<string> := {"y", "yes", "true", "1"}
  const FalseWords: set<string> := {"n", "no", "false", "0"}

  /** The boolean a normalised word spells, if any. */
  function WordValue(w: string): Option<bool>
  {
    if w in TrueWords then Some(true)
    else if w in FalseWords then Some(false)
    else None
  }

  /** `_coerce_bool`: `None`, `""` and `"null"` are unknown; booleans are
      kept; numbers are true when non-zero; other values are compared, as
      stripped lower-case text, with the yes and no words. The text of a
      list or a dict starts with a bracket or a brace and is never one of
      them. */
  function CoerceBool(v: Json): (r: Option<bool>)
    ensures v.JBool? ==> r == Some(v.b)
    ensures v.JNum? ==> r == Some(v.x != 0.0)
    ensures v.JNull? || v.JList? || v.JObj? ==> r == None
  {
    if v == JNull || v == JStr("") || v == JStr("null") then None
    else
      match v
      case JBool(b) => Some(b)
      case JNum(x) => Some(x != 0.0)
      case JStr(s) => WordValue(Lower(Strip(s)))
      case _ => None
  }

  /** Every string goes through the word table: the early exits for `""`
      and `"null"` give the answer the table would give. */
  lemma CoerceBoolString(s: string)
    ensures CoerceBool(JStr(s)) == WordValue(Lower(Strip(s)))
  {
    if s == "null" {
      NullReading();
    } else if s == "" {
      EmptyReading(s);
    } else {
      assert JStr(s) != JNull && JStr(s) != JStr("") && JStr(s) != JStr("null");
    }
  }

  /** The empty string strips and lower-cases to itself, which is no word. */
  lemma EmptyReading(s: string)
    requires |s| == 0
    ensures Lower(Strip(s)) == s
    ensures WordValue(s) == None
  {
    EmptyStrip(s);
    EmptyNotWord(s);
  }

  lemma EmptyStrip(s: string)
    requires |s| == 0
    ensures Lower(Strip(s)) == s
  {
  }

  lemma EmptyNotWord(s: string)
    requires |s| == 0
    ensures WordValue(s) == None
  {
  }

  /** `"null"` is already stripped and lower-case, and is not a word. */
  lemma NullReading()
    ensures Lower(Strip("null")) == "null"
    ensures WordValue("null") == None
  {
    assert Tight("null") && Lower("null") == "null";
    NormalWord("null");
    assert "null" !in TrueWords && "null" !in FalseWords;
  }

  /** A word with no whitespace at its ends and no upper-case letter is
      its own normal form. */
  lemma NormalWord(w: string)
    requires Tight(w) && Lower(w) == w
    ensures Lower(Strip(w)) == w
  {
    assert [] + w + [] == w;
    StripUnique([], w, []);
  }

  /** Whitespace around a string does not change its reading. */
  lemma CoerceBoolPadding(pre: string, s: string, post: string)
    requires AllSpace(pre) && AllSpace(post)
    ensures CoerceBool(JStr(pre + s + post)) == CoerceBool(JStr(s))
  {
    CoerceBoolString(pre + s + post);
    CoerceBoolString(s);
    StripPadding(pre, s, post);
  }

  /** Letter case does not change a string's reading. */
  lemma CoerceBoolIgnoresCase(s: string)
    ensures CoerceBool(JStr(Upper(s))) == CoerceBool(JStr(s))
  {
    CoerceBoolString(Upper(s));
    CoerceBoolString(s);
    StripUpper(s);
    LowerUpper(Strip(s));
  }

  /** A normalised word reads as itself. */
  lemma WordReading(w: string)
    requires Tight(w) && Lower(w) == w
    ensures CoerceBool(JStr(w)) == WordValue(w)
  {
    CoerceBoolString(w);
    NormalWord(w);
  }

  /** The words of the table are already stripped and lower-case. */
  lemma TableWordsNormal()
    ensures forall w :: w in TrueWords || w in FalseWords ==> Tight(w) && Lower(w) == w
  {
    assert Tight("y") && Lower("y") == "y";
    assert Tight("yes") && Lower("yes") == "yes";
    assert Tight("true") && Lower("true") == "true";
    assert Tight("1") && Lower("1") == "1";
    assert Tight("n") && Lower("n") == "n";
    assert Tight("no") && Lower("no") == "no";
    assert Tight("false") && Lower("false") == "false";
    assert Tight("0") && Lower("0") == "0";
  }

  /** Every yes word reads as true. */
  lemma TrueWordsRead()
    ensures forall w :: w in TrueWords ==> CoerceBool(JStr(w)) == Some(true)
  {
    TableWordsNormal();
    forall w | w in TrueWords
      ensures CoerceBool(JStr(w)) == Some(true)
    {
      WordReading(w);
    }
  }

  /** No word is both a yes word and a no word. */
  lemma TableDisjoint()
    ensures forall w :: w in FalseWords ==> w !in TrueWords
  {
  }

  /** Every no word reads as false. */
  lemma FalseWordsRead()
    ensures forall w :: w in FalseWords ==> CoerceBool(JStr(w)) == Some(false)
  {
    TableWordsNormal();
    TableDisjoint();
    forall w | w in FalseWords
      ensures CoerceBool(JStr(w)) == Some(false)
    {
      WordReading(w);
    }
  }

  /** A number reads as "non-zero". */
  lemma NumberReading(x: real)
    ensures CoerceBool(JNum(x)) == Some(x != 0.0)
  {
  }

  /** The digit strings read as the numbers they spell. */
  lemma DigitsAgree()
    ensures CoerceBool(JStr("1")) == Some(true)
    ensures CoerceBool(JStr("0")) == Some(false)
    ensures CoerceBool(JNum(1.0)) == Some(true)
    ensures CoerceBool(JNum(0.0)) == Some(false)
  {
    TrueWordsRead();
    FalseWordsRead();
    assert "1" in TrueWords;
    assert "0" in FalseWords;
    NumberReading(1.0);
    NumberReading(0.0);
  }

  /** The yes words read as true. */
  lemma YesWords()
    ensures CoerceBool(JStr("y")) == Some(true)
    ensures CoerceBool(JStr("yes")) == Some(true)
    ensures CoerceBool(JStr("true")) == Some(true)
    ensures CoerceBool(JStr("1")) == Some(true)
  {
    TrueWordsRead();
    assert "y" in TrueWords && "yes" in TrueWords && "true" in TrueWords && "1" in TrueWords;
  }

  /** The no words read as false. */
  lemma NoWords()
    ensures CoerceBool(JStr("n")) == Some(false)
    ensures CoerceBool(JStr("no")) == Some(false)
    ensures CoerceBool(JStr("false")) == Some(false)
    ensures CoerceBool(JStr("0")) == Some(false)
  {
    FalseWordsRead();
    assert "n" in FalseWords && "no" in FalseWords && "false" in FalseWords && "0" in FalseWords;
  }

  /** `True` and `False` as JSON, `None` as null. */
  function BoolJson(b: Option<bool>): Json
  {
    match b
    case Some(v) => JBool(v)
    case None => JNull
  }

  // ---------------------------------------------------------------------
  // Element lists

  /** `entry.get("name") or entry.get("label")`. */
  function EntryKey(entry: Fields): Json
  {
    if Truthy(Lookup(entry, "name")) then Lookup(entry, "name") else Lookup(entry, "label")
  }

  /** The stored value of an entry: a string value is stripped, then the
      value is coerced. */
  function EntryValue(entry: Fields, parse: Parser): Json
  {
    var value := Lookup(entry, "value");
    CoerceNumber(if value.JStr? then JStr(Strip(value.s)) else value, parse)
  }

  /** A list or a dict as an entry's key: `parsed[key] = ...` raises. */
  predicate UnhashableKey(entry: Json)
  {
    && entry.JObj?
    && Truthy(EntryKey(entry.fields))
    && (EntryKey(entry.fields).JList? || EntryKey(entry.fields).JObj?)
  }

  /** The dictionary assignments one entry makes, in order: none for an
      entry that is not a dict or has no key, the coerced value under the
      key, and the coerced uncertainty under `key + "_unc"` only when the
      entry has an `uncertainty` field. */
  function Assignments(entry: Json, parse: Parser): (r: Fields)
    ensures |r| <= 2
    ensures |r| > 0 <==> entry.JObj? && Truthy(EntryKey(entry.fields)) && EntryKey(entry.fields).JStr?
    ensures |r| == 2 <==> |r| > 0 && HasKey(entry.fields, "uncertainty")
    ensures |r| > 0 ==> r[0] == (EntryKey(entry.fields).s, EntryValue(entry.fields, parse))
    ensures |r| == 2 ==> r[1] == (r[0].0 + "_unc", CoerceNumber(Lookup(entry.fields, "uncertainty"), parse))
    ensures DistinctKeys(r)
  {
    if !entry.JObj? then []
    else
      var key := EntryKey(entry.fields);
      if !Truthy(key) || !key.JStr? then []
      else
        [(key.s, EntryValue(entry.fields, parse))]
        + if HasKey(entry.fields, "uncertainty")
          then [(key.s + "_unc", CoerceNumber(Lookup(entry.fields, "uncertainty"), parse))]
          else []
  }

  /** All assignments made by a sequence of entries, in order. */
  function AllAssignments(entries: seq<Json>, parse: Parser): Fields
  {
    if |entries| == 0 then []
    else AllAssignments(entries[..|entries| - 1], parse) + Assignments(entries[|entries| - 1], parse)
  }

  /** The value of the last assignment to `key`, if any. */
  function LastWrite(w: Fields, key: string): Option<Json>
  {
    if |w| == 0 then None
    else if w[|w| - 1].0 == key then Some(w[|w| - 1].1)
    else LastWrite(w[..|w| - 1], key)
  }

  /** The loop of `_element_list_to_dict` over `entries`. */
  function Collect(entries: seq<Json>, parse: Parser): (r: Result<Fields, PyError>)
    ensures r.Failure? ==> r.error == Unhashable
    ensures r.Success? ==> DistinctKeys(r.value)
  {
    if |entries| == 0 then Success([])
    else
      var init := entries[..|entries| - 1];
      var entry := entries[|entries| - 1];
      var d :- Collect(init, parse);
      if UnhashableKey(entry) then Failure(Unhashable)
      else
        UpdateDistinct(d, Assignments(entry, parse));
        Success(Update(d, Assignments(entry, parse)))
  }

  /** The loop raises exactly when some entry has a list or a dict as its
      key. */
  lemma {:induction false} CollectFails(entries: seq<Json>, parse: Parser)
    ensures Collect(entries, parse).Failure? <==> exists j :: 0 <= j < |entries| && UnhashableKey(entries[j])
  {
    if Collect(entries, parse).Failure? {
      var j := FailingEntry(entries, parse);
    } else {
      forall j | 0 <= j < |entries|
        ensures !UnhashableKey(entries[j])
      {
        if UnhashableKey(entries[j]) {
          FailsAtUnhashable(entries, parse, j);
        }
      }
    }
  }

  /** A failed loop points at an entry with an unhashable key. */
  lemma {:induction false} FailingEntry(entries: seq<Json>, parse: Parser) returns (j: nat)
    requires Collect(entries, parse).Failure?
    ensures j < |entries| && UnhashableKey(entries[j])
  {
    var init := entries[..|entries| - 1];
    CollectStep(entries, parse);
    if Collect(init, parse).Failure? {
      j := FailingEntry(init, parse);
      assert entries[j] == init[j];
    } else {
      j := |entries| - 1;
    }
  }

  /** An entry with an unhashable key makes the loop fail. */
  lemma {:induction false} FailsAtUnhashable(entries: seq<Json>, parse: Parser, j: nat)
    requires j < |entries| && UnhashableKey(entries[j])
    ensures Collect(entries, parse).Failure?
  {
    var init := entries[..|entries| - 1];
    CollectStep(entries, parse);
    if j < |entries| - 1 {
      assert entries[j] == init[j];
      FailsAtUnhashable(init, parse, j);
    }
  }

  /** One step of the loop fails when the earlier steps did or the last
      entry's key is unhashable. */
  lemma CollectStep(entries: seq<Json>, parse: Parser)
    requires |entries| > 0
    ensures Collect(entries, parse).Failure? <==>
      Collect(entries[..|entries| - 1], parse).Failure? || UnhashableKey(entries[|entries| - 1])
  {
  }

  /** What the loop iterates over: the values of a dict, the items of a
      list, or the one-character strings of a string. */
  function Entries(elements: Json): seq<Json>
  {
    match elements
    case JObj(fields) => seq(|fields|, j requires 0 <= j < |fields| => fields[j].1)
    case JList(items) => items
    case JStr(s) => seq(|s|, j requires 0 <= j < |s| => JStr([s[j]]))
    case _ => []
  }

  /** `_element_list_to_dict`. */
  function ElementListToDict(elements: Json, parse: Parser): (r: Result<Fields, PyError>)
    ensures !Truthy(elements) ==> r == Success([])
    ensures Truthy(elements) && (elements.JNum? || elements.JBool?) ==> r == Failure(NotIterable)
    ensures r.Success? ==> DistinctKeys(r.value)
  {
    if !Truthy(elements) then Success([])
    else if elements.JNum? || elements.JBool? then Failure(NotIterable)
    else Collect(Entries(elements), parse)
  }

  /** After the loop every key holds the value of the last assignment made
      to it, and no key was added that no entry assigned. */
  lemma {:induction false} CollectGet(entries: seq<Json>, parse: Parser, key: string)
    requires Collect(entries, parse).Success?
    ensures Get(Collect(entries, parse).value, key) == LastWrite(AllAssignments(entries, parse), key)
  {
    if |entries| > 0 {
      var init := entries[..|entries| - 1];
      var a := Assignments(entries[|entries| - 1], parse);
      assert forall j :: 0 <= j < |init| ==> init[j] == entries[j];
      CollectGet(init, parse, key);
      UpdateGet(Collect(init, parse).value, a, key);
      LastWriteConcat(AllAssignments(init, parse), a, key);
      LastWriteDistinct(a, key);
    }
  }

  lemma {:induction false} LastWriteConcat(w: Fields, a: Fields, key: string)
    ensures LastWrite(w + a, key) == if LastWrite(a, key).Some? then LastWrite(a, key) else LastWrite(w, key)
    decreases |a|
  {
    if |a| > 0 {
      assert (w + a)[..|w + a| - 1] == w + a[..|a| - 1];
      LastWriteConcat(w, a[..|a| - 1], key);
    } else {
      assert w + a == w;
    }
  }

  /** With distinct keys the last assignment is the only one. */
  lemma {:induction false} LastWriteDistinct(a: Fields, key: string)
    requires DistinctKeys(a)
    ensures LastWrite(a, key) == Get(a, key)
    decreases |a|
  {
    if |a| > 0 {
      var init := a[..|a| - 1];
      assert forall j :: 0 <= j < |init| ==> init[j] == a[j];
      LastWriteDistinct(init, key);
      GetSnoc(init, a[|a| - 1], key);
      assert a == init + [a[|a| - 1]];
      if a[|a| - 1].0 == key {
        assert !HasKey(init, key);
      }
    }
  }

  /** Looking up in a list extended at the end. */
  lemma {:induction false} GetSnoc(d: Fields, last: (string, Json), key: string)
    ensures Get(d + [last], key) == if HasKey(d, key) then Get(d, key) else if last.0 == key then Some(last.1) else None
  {
    if |d| > 0 {
      assert (d + [last])[1..] == d[1..] + [last];
      GetSnoc(d[1..], last, key);
      assert HasKey(d, key) <==> d[0].0 == key || HasKey(d[1..], key) by {
        assert forall j :: 1 <= j < |d| ==> d[j] == d[1..][j - 1];
      }
    }
  }

  /** `_element_list_to_dict` holds, under each key, the value of the last
      entry that assigned it. */
  lemma ElementListToDictGet(elements: Json, parse: Parser, key: string)
    requires ElementListToDict(elements, parse).Success?
    ensures Get(ElementListToDict(elements, parse).value, key) == LastWrite(AllAssignments(Entries(elements), parse), key)
  {
    if Truthy(elements) {
      CollectGet(Entries(elements), parse, key);
    }
  }

  // ---------------------------------------------------------------------
  // Epochs

  datatype Epoch = Epoch(jd: Json, timeScale: Json, calendarDate: Json)

  /** `_normalize_epoch`: nothing for a missing or empty epoch; for a dict,
      its `value` (or, when that is empty, its `julian_date`) coerced,
      with its time scale and calendar date; for any other value, that
      value coerced. */
  function NormalizeEpoch(section: Json, parse: Parser): (r: Option<Epoch>)
    ensures r.None? <==> !Truthy(section)
    ensures r.Some? && !section.JObj? ==> r.value == Epoch(CoerceNumber(section, parse), JNull, JNull)
    ensures Truthy(section) && section.JObj? ==>
      var f := section.fields;
      var value := if Truthy(Lookup(f, "value")) then Lookup(f, "value") else Lookup(f, "julian_date");
      r == Some(Epoch(CoerceNumber(value, parse), Lookup(f, "time_scale"), Lookup(f, "calendar_date")))
  {
    if !Truthy(section) then None
    else if section.JObj? then
      var f := section.fields;
      var value := if Truthy(Lookup(f, "value")) then Lookup(f, "value") else Lookup(f, "julian_date");
      Some(Epoch(CoerceNumber(value, parse), Lookup(f, "time_scale"), Lookup(f, "calendar_date")))
    else Some(Epoch(CoerceNumber(section, parse), JNull, JNull))
  }

  /** A bare epoch, the same epoch under `value`, and the same epoch under
      `julian_date` give the same Julian date. */
  lemma EpochForms(x: Json, parse: Parser)
    requires Truthy(x) && !x.JObj?
    ensures NormalizeEpoch(JObj([("value", x)]), parse).value.jd == NormalizeEpoch(x, parse).value.jd
    ensures NormalizeEpoch(JObj([("julian_date", x)]), parse).value.jd == NormalizeEpoch(x, parse).value.jd
  {
    assert Lookup([("julian_date", x)], "value") == JNull;
  }

  /** In an epoch dict, a truthy `value` decides the Julian date and
      `julian_date` is read only when `value` is empty; the time scale and
      calendar date are copied whatever the date's form. */
  lemma EpochDictForms(f: Fields, parse: Parser)
    requires |f| > 0
    ensures var v, j := Lookup(f, "value"), Lookup(f, "julian_date");
      var r := NormalizeEpoch(JObj(f), parse).value;
      && (Truthy(v) && !v.JObj? ==> r.jd == NormalizeEpoch(v, parse).value.jd)
      && (!Truthy(v) && Truthy(j) && !j.JObj? ==> r.jd == NormalizeEpoch(j, parse).value.jd)
      && (!Truthy(v) && !Truthy(j) ==> r.jd == CoerceNumber(j, parse))
      && r.timeScale == Lookup(f, "time_scale") && r.calendarDate == Lookup(f, "calendar_date")
  {
  }

  // ---------------------------------------------------------------------
  // Simulation elements

  /** The SBDB names of the six elements, in the order they are checked. */
  const SourceKeys: seq<string> := ["a", "e", "i", "w", "om", "ma"]

  /** The keys among `keys` whose value is `None` or absent, in order. */
  function MissingKeys(elements: Fields, keys: seq<string>): (r: seq<string>)
    ensures |r| <= |keys|
    ensures forall k :: k in r <==> k in keys && Lookup(elements, k) == JNull
    ensures IsSubsequence(r, keys)
  {
    if |keys| == 0 then []
    else
      var rest := MissingKeys(elements, keys[1..]);
      assert forall k :: k in keys <==> k == keys[0] || k in keys[1..];
      if Lookup(elements, keys[0]) == JNull then [keys[0]] + rest else rest
  }

  /** The missing source keys come in the order `a`, `e`, `i`, `w`, `om`,
      `ma`, each at most once. */
  lemma MissingSourceKeys(elements: Fields)
    ensures IsSubsequence(MissingKeys(elements, SourceKeys), SourceKeys)
    ensures Distinct(MissingKeys(elements, SourceKeys))
  {
    SubsequenceDistinct(MissingKeys(elements, SourceKeys), SourceKeys);
  }

  /** The dictionary handed to the simulator. */
  datatype SimulationElements = SimulationElements(a: real, e: real, i: real, omega: real, Omega: real, M0: real, mu: real)

  /** The six conversions of `_extract_simulation_elements`, in source
      order: `a` from AU to km, `w`, `om` and `ma` renamed, and the Sun's
      `mu`. The first value `float` rejects raises. */
  function ConvertElements(elements: Fields, parse: Parser): (r: Result<SimulationElements, PyError>)
    ensures r.Failure? ==> r.error == NotConvertible
    ensures r.Failure? ==> exists k :: k in SourceKeys && ToFloat(Lookup(elements, k), parse).Failure?
    ensures r.Success? ==>
      var s := r.value;
      && ToFloat(Lookup(elements, "a"), parse) == Success(s.a / 149597870.7)
      && ToFloat(Lookup(elements, "e"), parse) == Success(s.e)
      && ToFloat(Lookup(elements, "i"), parse) == Success(s.i)
      && ToFloat(Lookup(elements, "w"), parse) == Success(s.omega)
      && ToFloat(Lookup(elements, "om"), parse) == Success(s.Omega)
      && ToFloat(Lookup(elements, "ma"), parse) == Success(s.M0)
      && s.mu == 1.32712440018e11
  {
    var a :- ToFloat(Lookup(elements, "a"), parse);
    var e :- ToFloat(Lookup(elements, "e"), parse);
    var i :- ToFloat(Lookup(elements, "i"), parse);
    var omega :- ToFloat(Lookup(elements, "w"), parse);
    var node :- ToFloat(Lookup(elements, "om"), parse);
    var M0 :- ToFloat(Lookup(elements, "ma"), parse);
    Success(SimulationElements(a * AuInKm, e, i, omega, node, M0, SunMu))
  }

  /** `_extract_simulation_elements`: the missing source keys if there are
      any; otherwise the six elements converted with `float`, `a` from AU
      to km, `w`, `om` and `ma` renamed to `omega`, `Omega` and `M0`, and
      the Sun's `mu`. A value `float` rejects raises. */
  function ExtractSimulationElements(elements: Fields, parse: Parser): (r: Result<(Option<SimulationElements>, seq<string>), PyError>)
    ensures r.Success? ==> r.value.1 == MissingKeys(elements, SourceKeys)
    ensures r.Success? ==> (r.value.0.Some? <==> r.value.1 == [])
    ensures r.Failure? ==> MissingKeys(elements, SourceKeys) == [] && r.error == NotConvertible
    ensures r.Failure? ==> exists k :: k in SourceKeys && ToFloat(Lookup(elements, k), parse).Failure?
    ensures r.Success? && r.value.0.Some? ==>
      var s := r.value.0.value;
      && ToFloat(Lookup(elements, "a"), parse) == Success(s.a / 149597870.7)
      && ToFloat(Lookup(elements, "e"), parse) == Success(s.e)
      && ToFloat(Lookup(elements, "i"), parse) == Success(s.i)
      && ToFloat(Lookup(elements, "w"), parse) == Success(s.omega)
      && ToFloat(Lookup(elements, "om"), parse) == Success(s.Omega)
      && ToFloat(Lookup(elements, "ma"), parse) == Success(s.M0)
      && s.mu == 1.32712440018e11
  {
    var missing := MissingKeys(elements, SourceKeys);
    if |missing| > 0 then Success((None, missing))
    else
      var s :- ConvertElements(elements, parse);
      Success((Some(s), []))
  }

  /** The simulation elements as the dictionary `OrbitalElements.from_dict`
      reads. */
  function AsElementMap(s: SimulationElements): map<string, real>
  {
    map["a" := s.a, "e" := s.e, "i" := s.i, "omega" := s.omega, "Omega" := s.Omega, "M0" := s.M0, "mu" := s.mu]
  }

  /** Extracted elements carry every key `from_dict` needs and the Sun's
      positive `mu`, so building an orbit from them succeeds exactly when
      the semi-major axis is positive, and keeps that axis and `mu`. */
  lemma ExtractedElementsBuildOrbit(elements: Fields, parse: Parser, m: RealMath.Elementary)
    requires RealMath.Lawful(m)
    requires ExtractSimulationElements(elements, parse).Success?
    requires ExtractSimulationElements(elements, parse).value.0.Some?
    ensures var s := ExtractSimulationElements(elements, parse).value.0.value;
      var orbit := Orbits.FromDict(AsElementMap(s), m);
      && (orbit.Success? <==> s.a > 0.0)
      && (orbit.Success? ==> orbit.value.a == s.a && orbit.value.mu == SunMu)
  {
  }

  // ---------------------------------------------------------------------
  // The processed lookup payload

  datatype ObjectSummary = ObjectSummary(
    designation: Json, fullName: Json, neo: Json, pha: Json,
    orbitClass: Json, alternates: Json, spkid: Json)

  datatype OrbitSummary = OrbitSummary(
    epoch: Option<Epoch>, elements: Fields, residuals: Json, moid: Json, moidJupiter: Json)

  /** The dictionary `_build_response` returns, without its constant
      `source` citation block. */
  datatype Processed = Processed(
    obj: ObjectSummary, orbit: OrbitSummary, physical: Option<Fields>,
    simulation: Option<SimulationElements>, missing: Option<seq<string>>)

  /** `payload.get(key, {}) or {}`, about to be read with `.get`: anything
      other than a dict, once truthy, raises AttributeError. */
  function Section(payload: Fields, key: string): (r: Result<Fields, PyError>)
    ensures !HasKey(payload, key) ==> r == Success([])
    ensures !Truthy(Lookup(payload, key)) ==> r == Success([])
    ensures Lookup(payload, key).JObj? ==> r == Success(Lookup(payload, key).fields)
    ensures Truthy(Lookup(payload, key)) && !Lookup(payload, key).JObj? ==> r == Failure(NoSuchAttribute)
  {
    var v := Get(payload, key).GetOr(JObj([]));
    if !Truthy(v) then Success([])
    else if v.JObj? then Success(v.fields)
    else Failure(NoSuchAttribute)
  }

  /** `payload.get("object", {})`, read with `.get`: with no `or {}`, even
      a null or an empty list raises. */
  function ObjectSection(payload: Fields): (r: Result<Fields, PyError>)
    ensures r.Success? <==> Get(payload, "object").None? || Get(payload, "object").value.JObj?
  {
    var v := Get(payload, "object").GetOr(JObj([]));
    if v.JObj? then Success(v.fields) else Failure(NoSuchAttribute)
  }

  /** `_build_response`, raising where the source raises and in the same
      order: the orbit section, its element list, the physical section,
      its parameter list, the conversion of the elements, the object
      section. */
  function BuildResponse(payload: Fields, parse: Parser): (r: Result<Processed, PyError>)
    ensures r.Success? ==> (r.value.simulation.Some? <==> r.value.missing.None?)
    ensures r.Success? && r.value.physical.Some? ==> |r.value.physical.value| > 0
    ensures r.Success? ==> r.value.missing.None? || |r.value.missing.value| > 0
    ensures r.Success? ==>
      && Section(payload, "orbit").Success?
      && r.value.orbit.moid == CoerceNumber(Lookup(Section(payload, "orbit").value, "moid"), parse)
    // The orbit section: its epoch, its element list flattened, the
    // simulation elements extracted from that list, and its coerced MOIDs.
    ensures r.Success? ==>
      var orbit := Section(payload, "orbit").value;
      && ElementListToDict(Lookup(orbit, "elements"), parse) == Success(r.value.orbit.elements)
      && ExtractSimulationElements(r.value.orbit.elements, parse).Success?
      && r.value.simulation == ExtractSimulationElements(r.value.orbit.elements, parse).value.0
      && r.value.missing.GetOr([]) == ExtractSimulationElements(r.value.orbit.elements, parse).value.1
      && r.value.orbit.epoch == NormalizeEpoch(Lookup(orbit, "epoch"), parse)
      && r.value.orbit.residuals == Lookup(orbit, "residuals")
      && r.value.orbit.moidJupiter == CoerceNumber(Lookup(orbit, "moid_jup"), parse)
    // The physical section: its parameter list flattened, `None` when empty.
    ensures r.Success? ==>
      && Section(payload, "phys_par").Success?
      && ElementListToDict(Lookup(Section(payload, "phys_par").value, "parameters"), parse).Success?
      && r.value.physical.GetOr([]) == ElementListToDict(Lookup(Section(payload, "phys_par").value, "parameters"), parse).value
    // The object section: seven fields copied under their new names.
    ensures r.Success? ==>
      && ObjectSection(payload).Success?
      && var obj := ObjectSection(payload).value;
      r.value.obj == ObjectSummary(
        Lookup(obj, "des"), Lookup(obj, "fullname"), Lookup(obj, "neo"), Lookup(obj, "pha"),
        Lookup(obj, "orbit_class"), Lookup(obj, "alts"), Lookup(obj, "spkid"))
    // It fails exactly when one of the sections or lists cannot be read or
    // an element cannot be converted.
    ensures r.Failure? <==>
      || Section(payload, "orbit").Failure?
      || ElementListToDict(Lookup(Section(payload, "orbit").value, "elements"), parse).Failure?
      || Section(payload, "phys_par").Failure?
      || ElementListToDict(Lookup(Section(payload, "phys_par").value, "parameters"), parse).Failure?
      || ExtractSimulationElements(ElementListToDict(Lookup(Section(payload, "orbit").value, "elements"), parse).value, parse).Failure?
      || ObjectSection(payload).Failure?
  {
    var orbit :- Section(payload, "orbit");
    var elements :- ElementListToDict(Lookup(orbit, "elements"), parse);
    var physical :- Section(payload, "phys_par");
    var parameters :- ElementListToDict(Lookup(physical, "parameters"), parse);
    var extracted :- ExtractSimulationElements(elements, parse);
    var obj :- ObjectSection(payload);
    Success(Processed(
      ObjectSummary(
        Lookup(obj, "des"), Lookup(obj, "fullname"), Lookup(obj, "neo"), Lookup(obj, "pha"),
        Lookup(obj, "orbit_class"), Lookup(obj, "alts"), Lookup(obj, "spkid")),
      OrbitSummary(
        NormalizeEpoch(Lookup(orbit, "epoch"), parse), elements, Lookup(orbit, "residuals"),
        CoerceNumber(Lookup(orbit, "moid"), parse), CoerceNumber(Lookup(orbit, "moid_jup"), parse)),
      if |parameters| == 0 then None else Some(parameters),
      extracted.0,
      if |extracted.1| == 0 then None else Some(extracted.1)))
  }

  /** `_search_entry_from_processed`. */
  function SearchEntry(p: Processed, parse: Parser): (r: Fields)
    ensures |r| == 8 && DistinctKeys(r)
  {
    var h := if p.physical.Some? then Lookup(p.physical.value, "H") else JNull;
    [ ("designation", p.obj.designation),
      ("full_name", if Truthy(p.obj.fullName) then p.obj.fullName else p.obj.designation),
      ("spkid", p.obj.spkid),
      ("neo", BoolJson(CoerceBool(p.obj.neo))),
      ("pha", BoolJson(CoerceBool(p.obj.pha))),
      ("absolute_magnitude_h", CoerceNumber(h, parse)),
      ("orbit_class", p.obj.orbitClass),
      ("moid_au", CoerceNumber(p.orbit.moid, parse)) ]
  }

  /** A search entry copies the designation, SPK-ID and orbit class,
      reports the MOID and the absolute magnitude `H` coerced, a full name
      that falls back to the designation, and the tri-state NEO and PHA
      flags. */
  lemma SearchEntryFields(p: Processed, parse: Parser)
    ensures var r := SearchEntry(p, parse);
      && Lookup(r, "designation") == p.obj.designation
      && Lookup(r, "full_name") == (if Truthy(p.obj.fullName) then p.obj.fullName else p.obj.designation)
      && Lookup(r, "spkid") == p.obj.spkid
      && Lookup(r, "neo") == BoolJson(CoerceBool(p.obj.neo))
      && Lookup(r, "pha") == BoolJson(CoerceBool(p.obj.pha))
      && Lookup(r, "absolute_magnitude_h") ==
           CoerceNumber(if p.physical.Some? then Lookup(p.physical.value, "H") else JNull, parse)
      && Lookup(r, "orbit_class") == p.obj.orbitClass
      && Lookup(r, "moid_au") == CoerceNumber(p.orbit.moid, parse)
  {
    var r := SearchEntry(p, parse);
    assert Lookup(r, "designation") == r[0].1 by { GetDistinct(r, 0); }
    assert Lookup(r, "full_name") == r[1].1 by { GetDistinct(r, 1); }
    assert Lookup(r, "spkid") == r[2].1 by { GetDistinct(r, 2); }
    assert Lookup(r, "neo") == r[3].1 by { GetDistinct(r, 3); }
    assert Lookup(r, "pha") == r[4].1 by { GetDistinct(r, 4); }
    assert Lookup(r, "absolute_magnitude_h") == r[5].1 by { GetDistinct(r, 5); }
    assert Lookup(r, "orbit_class") == r[6].1 by { GetDistinct(r, 6); }
    assert Lookup(r, "moid_au") == r[7].1 by { GetDistinct(r, 7); }
  }

  /** The processed payload's MOID is already coerced, so a search entry
      built from it reports it unchanged. */
  lemma SearchEntryKeepsMoid(payload: Fields, parse: Parser)
    requires BuildResponse(payload, parse).Success?
    ensures var p := BuildResponse(payload, parse).value;
      Lookup(SearchEntry(p, parse), "moid_au") == p.orbit.moid
  {
    var p := BuildResponse(payload, parse).value;
    var orbit := Section(payload, "orbit").value;
    CoerceNumberIdempotent(Lookup(orbit, "moid"), parse);
    SearchEntryFields(p, parse);
  }
}

=== FILE: neo_requests.dfy ===
/** `NasaNeoService.fetch_object` and `NasaNeoService.search_objects` in
    backend/services/nasa_neo_service.py.

    The Small-Body Database is the parameter `server`: it maps the query
    the service would send to the reply it gets, either a status code with
    a decoded JSON body or a connection failure. A result that does not
    depend on `server` is one for which no request is made.
 */
module NeoRequests {
  import opened Outcomes
  import opened JsonValues
  import opened PyText
  import RealMath
  import opened NeoPayload

  /** The query parameters of one `sbdb.api` request: `sstr`, plus
      `full-prec=true` for a lookup or `neo=1` for a search. */
  datatype Query = ObjectQuery(sstr: string) | SearchQuery(sstr: string)

  /** `requests.RequestException`, or a response. */
  datatype Reply = Unreachable | Responded(status: int, body: Json)

  type Server = Query -> Reply

  /** The `error` text of a failed result. */
  datatype ErrorText =
    | Message(message: Json)          // a message taken from the payload
    | StatusMessage(code: int)        // "NASA SBDB responded with status <code>"
    | ContactFailed                   // "Failed to contact NASA SBDB service: <exception>"
    | Fixed(text: string)

  const IdentifierRequired: string := "Identifier is required to query NASA SBDB"
  const ObjectNotFound: string := "Object not found in NASA SBDB"
  const InvalidResponse: string := "Invalid response from NASA SBDB"
  const QueryRequired: string := "Query parameter 'q' is required"
  const UnexpectedResponse: string := "Unexpected response from NASA SBDB"

  /** `NeoLookupResult`: success carries the processed payload with status
      200, failure a status and an error text. */
  datatype LookupResult = Looked(data: Processed) | LookupFailed(status: int, error: ErrorText)

  /** `requests.Response.ok`: false exactly for the 4xx and 5xx codes. */
  predicate Ok(status: int)
  {
    !(400 <= status < 600)
  }

  /** `fetch_object(identifier)`. A body that is not a JSON object makes
      the source raise: AttributeError on `.get` for a list or a string,
      TypeError on `in` for anything else. */
  function FetchObject(identifier: string, server: Server, parse: Parser): (r: Result<LookupResult, PyError>)
    ensures identifier == "" ==> r == Success(LookupFailed(400, Fixed(IdentifierRequired)))
    ensures identifier != "" && server(ObjectQuery(identifier)).Unreachable? ==>
      r == Success(LookupFailed(503, ContactFailed))
    ensures identifier != "" && server(ObjectQuery(identifier)).Responded? ==>
      var status := server(ObjectQuery(identifier)).status;
      && (status == 404 ==> r == Success(LookupFailed(404, Fixed(ObjectNotFound))))
      && (status != 404 && !Ok(status) ==> r == Success(LookupFailed(status, StatusMessage(status))))
    ensures r.Success? && r.value.Looked? ==>
      && server(ObjectQuery(identifier)).Responded?
      && Ok(server(ObjectQuery(identifier)).status) && server(ObjectQuery(identifier)).status != 404
      && server(ObjectQuery(identifier)).body.JObj?
      && BuildResponse(server(ObjectQuery(identifier)).body.fields, parse) == Success(r.value.data)
    ensures identifier != "" && server(ObjectQuery(identifier)).Responded? ==>
      var reply := server(ObjectQuery(identifier));
      (reply.status != 404 && Ok(reply.status) ==> (r.Failure? <==> !reply.body.JObj? || (HasKey(reply.body.fields, "object") && BuildResponse(reply.body.fields, parse).Failure?)))
    ensures identifier != "" && server(ObjectQuery(identifier)).Responded? ==>
      var reply := server(ObjectQuery(identifier));
      (&& reply.status != 404 && Ok(reply.status) && reply.body.JObj? && HasKey(reply.body.fields, "object")
       && BuildResponse(reply.body.fields, parse).Success?
       ==> r == Success(Looked(BuildResponse(reply.body.fields, parse).value)))
    ensures identifier != "" && server(ObjectQuery(identifier)).Responded? ==>
      var reply := server(ObjectQuery(identifier));
      (reply.status != 404 && Ok(reply.status) && reply.body.JObj? && !HasKey(reply.body.fields, "object") ==>
        var message, error := Lookup(reply.body.fields, "message"), Lookup(reply.body.fields, "error");
        r == Success(LookupFailed(502,
          if Truthy(message) then Message(message)
          else if Truthy(error) then Message(error)
          else Fixed(InvalidResponse))))
  {
    if identifier == "" then Success(LookupFailed(400, Fixed(IdentifierRequired)))
    else
      match server(ObjectQuery(identifier))
      case Unreachable => Success(LookupFailed(503, ContactFailed))
      case Responded(status, body) =>
        if status == 404 then Success(LookupFailed(404, Fixed(ObjectNotFound)))
        else if !Ok(status) then Success(LookupFailed(status, StatusMessage(status)))
        else if body.JList? || body.JStr? then Failure(NoSuchAttribute)
        else if !body.JObj? then Failure(NotIterable)
        else if !HasKey(body.fields, "object") then
          var message, error := Lookup(body.fields, "message"), Lookup(body.fields, "error");
          Success(LookupFailed(502,
            if Truthy(message) then Message(message)
            else if Truthy(error) then Message(error)
            else Fixed(InvalidResponse)))
        else
          var data :- BuildResponse(body.fields, parse);
          Success(Looked(data))
  }

  /** An empty identifier is refused with status 400 before any request:
      the outcome is the same whatever the server would answer. */
  lemma EmptyIdentifierNoRequest(s1: Server, s2: Server, parse: Parser)
    ensures FetchObject("", s1, parse) == FetchObject("", s2, parse)
    ensures FetchObject("", s1, parse).value.LookupFailed?
    ensures FetchObject("", s1, parse).value.status == 400
  {
  }

  /** A non-empty identifier is sent as it is, without stripping: the
      outcome is decided by the server's reply to exactly that query. */
  lemma IdentifierSentVerbatim(identifier: string, s1: Server, s2: Server, parse: Parser)
    requires identifier != ""
    requires s1(ObjectQuery(identifier)) == s2(ObjectQuery(identifier))
    ensures FetchObject(identifier, s1, parse) == FetchObject(identifier, s2, parse)
  {
  }

  // ---------------------------------------------------------------------
  // Search

  const DefaultLimit: int := 10
  const MaxLimit: int := 25

  /** `max(1, min(int(limit), 25))` for a number (a boolean is a number to
      `isinstance`), 10 for anything else. */
  function SafeLimit(limit: Json): (n: int)
    ensures 1 <= n <= 25
    ensures !(limit.JNum? || limit.JBool?) ==> n == 10
    ensures limit.JNum? && 1 <= RealMath.Trunc(limit.x) <= 25 ==> n == RealMath.Trunc(limit.x)
    ensures limit.JNum? && RealMath.Trunc(limit.x) < 1 ==> n == 1
    ensures limit.JNum? && RealMath.Trunc(limit.x) > 25 ==> n == 25
    ensures limit.JBool? ==> n == 1
  {
    var k :=
      match limit
      case JNum(x) => RealMath.Trunc(x)
      case JBool(b) => if b then 1 else 0
      case _ => DefaultLimit;
    if k < 1 then 1 else if k > MaxLimit then MaxLimit else k
  }

  /** A limit that is already safe is kept. */
  lemma SafeLimitIdempotent(limit: Json)
    ensures SafeLimit(JNum(SafeLimit(limit) as real)) == SafeLimit(limit)
  {
    var n := SafeLimit(limit);
    assert RealMath.Trunc(n as real) == n;
  }

  /** The search term: the query wrapped in `*` wildcards unless it already
      contains one. */
  function Wildcard(s: string): (t: string)
    ensures '*' in t
    ensures '*' in s ==> t == s
    ensures '*' !in s ==> |t| == |s| + 2 && t[0] == '*' && t[|t| - 1] == '*' && t[1..|t| - 1] == s
  {
    if '*' in s then s else "*" + s + "*"
  }

  /** Wrapping an already wrapped term changes nothing. */
  lemma WildcardIdempotent(s: string)
    ensures Wildcard(Wildcard(s)) == Wildcard(s)
  {
  }

  /** `NeoSearchResult`: success carries `count` and `results` with status
      200, failure a status and an error text. */
  datatype SearchResult = Found(count: Json, results: seq<Fields>) | SearchFailed(status: int, error: ErrorText)

  /** The lookup behind a list match: the processed payload when the lookup
      succeeds, nothing when it fails. A designation that is not a
      non-empty string is not looked up. */
  function Detail(designation: Json, server: Server, parse: Parser): (r: Result<Option<Processed>, PyError>)
    ensures !designation.JStr? || designation.s == "" ==> r == Success(None)
    ensures designation.JStr? && designation.s != "" ==>
      (r.Failure? <==> FetchObject(designation.s, server, parse).Failure?)
    ensures r.Success? && r.value.Some? ==>
      designation.JStr? && FetchObject(designation.s, server, parse) == Success(Looked(r.value.value))
    ensures designation.JStr? && FetchObject(designation.s, server, parse).Success? ==>
      (FetchObject(designation.s, server, parse).value.LookupFailed? ==> r == Success(None))
  {
    if !designation.JStr? || designation.s == "" then Success(None)
    else
      var looked :- FetchObject(designation.s, server, parse);
      Success(if looked.Looked? then Some(looked.data) else None)
  }

  /** The entry a list match starts from, built from the match's own
      `pdes`, `name`, `moid` and `class`. */
  function ListBase(f: Fields, parse: Parser): (r: Fields)
    ensures |r| == 4 && DistinctKeys(r)
  {
    [ ("designation", Lookup(f, "pdes")), ("full_name", Lookup(f, "name")),
      ("moid_au", CoerceNumber(Lookup(f, "moid"), parse)), ("orbit_class", Lookup(f, "class")) ]
  }

  /** One entry of the list branch: the match's own fields, updated with
      the looked-up entry when the lookup succeeds, and otherwise with
      `pha` and `absolute_magnitude_h` set to `None`. A match that is not
      a dictionary has no `.get`. */
  function ListEntry(item: Json, server: Server, parse: Parser): (r: Result<Fields, PyError>)
    ensures !item.JObj? ==> r == Failure(NoSuchAttribute)
    ensures item.JObj? ==>
      (r.Failure? <==> Detail(Lookup(item.fields, "pdes"), server, parse).Failure?)
    ensures r.Success? ==> DistinctKeys(r.value)
  {
    if !item.JObj? then Failure(NoSuchAttribute)
    else
      var base := ListBase(item.fields, parse);
      var detail :- Detail(Lookup(item.fields, "pdes"), server, parse);
      if detail.Some? then
        UpdateDistinct(base, SearchEntry(detail.value, parse));
        Success(Update(base, SearchEntry(detail.value, parse)))
      else Success(base + [("pha", JNull), ("absolute_magnitude_h", JNull)])
  }

  /** When a match's designation is not looked up, or its lookup fails,
      the entry is the match's own fields with `pha` and
      `absolute_magnitude_h` set to `None` (`UnlookedEntryFields` gives
      their values). */
  lemma ListEntryUnlooked(item: Json, server: Server, parse: Parser)
    requires item.JObj? && Detail(Lookup(item.fields, "pdes"), server, parse) == Success(None)
    ensures ListEntry(item, server, parse) ==
      Success(ListBase(item.fields, parse) + [("pha", JNull), ("absolute_magnitude_h", JNull)])
  {
  }

  /** The entry of a match that was not looked up keeps the match's own
      designation, name, coerced MOID and class, and reports `pha` and
      `absolute_magnitude_h` as `None`. */
  lemma UnlookedEntryFields(f: Fields, parse: Parser)
    ensures var r := ListBase(f, parse) + [("pha", JNull), ("absolute_magnitude_h", JNull)];
      && |r| == 6
      && Lookup(r, "pha") == JNull
      && Lookup(r, "absolute_magnitude_h") == JNull
      && Lookup(r, "designation") == Lookup(f, "pdes")
      && Lookup(r, "full_name") == Lookup(f, "name")
      && Lookup(r, "moid_au") == CoerceNumber(Lookup(f, "moid"), parse)
      && Lookup(r, "orbit_class") == Lookup(f, "class")
  {
    var r := ListBase(f, parse) + [("pha", JNull), ("absolute_magnitude_h", JNull)];
    assert DistinctKeys(r);
    assert Lookup(r, "designation") == r[0].1 by { GetDistinct(r, 0); }
    assert Lookup(r, "full_name") == r[1].1 by { GetDistinct(r, 1); }
    assert Lookup(r, "moid_au") == r[2].1 by { GetDistinct(r, 2); }
    assert Lookup(r, "orbit_class") == r[3].1 by { GetDistinct(r, 3); }
    assert Lookup(r, "pha") == r[4].1 by { GetDistinct(r, 4); }
    assert Lookup(r, "absolute_magnitude_h") == r[5].1 by { GetDistinct(r, 5); }
  }

  /** When the lookup of a match's designation succeeds, the entry is the
      match's own fields updated with the search entry of the looked-up
      object (`LookedEntryFields` gives their values). */
  lemma ListEntryLooked(item: Json, pdes: string, server: Server, parse: Parser, d: Processed)
    requires item.JObj? && Lookup(item.fields, "pdes") == JStr(pdes)
    requires FetchObject(pdes, server, parse) == Success(Looked(d))
    ensures ListEntry(item, server, parse) == Success(Update(ListBase(item.fields, parse), SearchEntry(d, parse)))
  {
  }

  /** Updating a match's fields with a looked-up object's search entry
      reports that object throughout: its designation, name, MOID and
      class replace the match's own, and `pha` and `absolute_magnitude_h`
      come from the processed payload. */
  lemma LookedEntryFields(base: Fields, d: Processed, parse: Parser, r: Fields)
    requires r == Update(base, SearchEntry(d, parse))
    ensures Lookup(r, "designation") == d.obj.designation
    ensures Lookup(r, "full_name") == (if Truthy(d.obj.fullName) then d.obj.fullName else d.obj.designation)
    ensures Lookup(r, "spkid") == d.obj.spkid
    ensures Lookup(r, "neo") == BoolJson(CoerceBool(d.obj.neo))
    ensures Lookup(r, "pha") == BoolJson(CoerceBool(d.obj.pha))
    ensures Lookup(r, "absolute_magnitude_h") ==
      CoerceNumber(if d.physical.Some? then Lookup(d.physical.value, "H") else JNull, parse)
    ensures Lookup(r, "orbit_class") == d.obj.orbitClass
    ensures Lookup(r, "moid_au") == CoerceNumber(d.orbit.moid, parse)
  {
    var e := SearchEntry(d, parse);
    UpdateCovers(base, e);
    assert Lookup(r, "designation") == e[0].1;
    assert Lookup(r, "full_name") == e[1].1;
    assert Lookup(r, "spkid") == e[2].1;
    assert Lookup(r, "neo") == e[3].1;
    assert Lookup(r, "pha") == e[4].1;
    assert Lookup(r, "absolute_magnitude_h") == e[5].1;
    assert Lookup(r, "orbit_class") == e[6].1;
    assert Lookup(r, "moid_au") == e[7].1;
  }

  function ListEntries(items: seq<Json>, server: Server, parse: Parser): (r: Result<seq<Fields>, PyError>)
    ensures r.Success? ==> |r.value| == |items|
    ensures r.Success? ==> forall k :: 0 <= k < |items| ==> ListEntry(items[k], server, parse) == Success(r.value[k])
  {
    if |items| == 0 then Success([])
    else
      var first :- ListEntry(items[0], server, parse);
      var rest :- ListEntries(items[1..], server, parse);
      Success([first] + rest)
  }

  /** `matches[:safe_limit]` on a truthy `list` value. Slicing a string
      works but its items have no `.get`; other values cannot be sliced. */
  function Head(matches: Json, n: nat): (r: Result<seq<Json>, PyError>)
    ensures matches.JList? ==> r.Success? && r.value == matches.items[..if n < |matches.items| then n else |matches.items|]
  {
    match matches
    case JList(items) => Success(items[..if n < |items| then n else |items|])
    case JStr(_) => Failure(NoSuchAttribute)
    case _ => Failure(NotSubscriptable)
  }

  /** `_safe_json`: the decoded body when it is a dict, an empty dict
      otherwise. */
  function Payload(body: Json): (r: Fields)
    ensures body.JObj? ==> r == body.fields
    ensures !body.JObj? ==> r == []
  {
    if body.JObj? then body.fields else []
  }

  /** The part of `search_objects` that reads a payload with no single
      object: its `list` of matches, else its message, else a fixed
      text. */
  function MatchSearch(safeLimit: nat, payload: Fields, server: Server, parse: Parser): (r: Result<SearchResult, PyError>)
    requires 1 <= safeLimit
    ensures r.Success? && r.value.Found? ==> |r.value.results| <= safeLimit
    // A list of matches: one entry per match among the first `safeLimit`.
    ensures
      (&& Get(payload, "list").Some? && Get(payload, "list").value.JList?
       && |Get(payload, "list").value.items| > 0)
      ==>
        var items := Get(payload, "list").value.items;
        var n := if |items| < safeLimit then |items| else safeLimit;
        && (r.Success? <==> ListEntries(items[..n], server, parse).Success?)
        && (r.Success? ==>
              && r.value.Found?
              && |r.value.results| == n
              && (forall k :: 0 <= k < n ==> ListEntry(items[k], server, parse) == Success(r.value.results[k]))
              && r.value.count == Get(payload, "count").GetOr(JNum(|items| as real)))
    // A truthy `list` that is not a list cannot be read item by item.
    ensures Get(payload, "list").Some? && Truthy(Get(payload, "list").value) && !Get(payload, "list").value.JList? ==>
      r.Failure?
    // No match: the payload's message, or a fixed text.
    ensures !Truthy(Get(payload, "list").GetOr(JList([]))) ==>
        var message := Lookup(payload, "message");
        r == Success(if Truthy(message) then SearchFailed(400, Message(message)) else SearchFailed(500, Fixed(UnexpectedResponse)))
  {
    var matches := Get(payload, "list").GetOr(JList([]));
    if Truthy(matches) then
      var items :- Head(matches, safeLimit);
      var results :- ListEntries(items, server, parse);
      var total := JNum(if matches.JList? then |matches.items| as real else 0.0);
      Success(Found(Get(payload, "count").GetOr(total), results))
    else if Truthy(Lookup(payload, "message")) then
      Success(SearchFailed(400, Message(Lookup(payload, "message"))))
    else Success(SearchFailed(500, Fixed(UnexpectedResponse)))
  }

  /** The part of `search_objects` after the response arrives. */
  function CompleteSearch(safeLimit: nat, status: int, body: Json, server: Server, parse: Parser): (r: Result<SearchResult, PyError>)
    requires 1 <= safeLimit
    ensures status == 404 ==> r == Success(Found(JNum(0.0), []))
    ensures status != 404 && status != 200 && status != 300 ==>
      var message := Lookup(Payload(body), "message");
      r == Success(SearchFailed(status, if Truthy(message) then Message(message) else StatusMessage(status)))
    ensures r.Success? && r.value.Found? ==> |r.value.results| <= safeLimit
    // A single object: kept only when its NEO flag reads as true.
    ensures (status == 200 || status == 300) && HasKey(Payload(body), "object") ==>
      var processed := BuildResponse(Payload(body), parse);
      && (processed.Failure? ==> r == Failure(processed.error))
      && (processed.Success? && CoerceBool(processed.value.obj.neo) == Some(true) ==>
            r == Success(Found(JNum(1.0), [SearchEntry(processed.value, parse)])))
      && (processed.Success? && CoerceBool(processed.value.obj.neo) != Some(true) ==>
            r == Success(Found(JNum(0.0), [])))
    ensures (status == 200 || status == 300) && !HasKey(Payload(body), "object") ==>
      r == MatchSearch(safeLimit, Payload(body), server, parse)
  {
    var payload := Payload(body);
    if status == 404 then Success(Found(JNum(0.0), []))
    else if status != 200 && status != 300 then
      var message := Lookup(payload, "message");
      Success(SearchFailed(status, if Truthy(message) then Message(message) else StatusMessage(status)))
    else if HasKey(payload, "object") then
      var processed :- BuildResponse(payload, parse);
      if CoerceBool(processed.obj.neo) != Some(true) then Success(Found(JNum(0.0), []))
      else Success(Found(JNum(1.0), [SearchEntry(processed, parse)]))
    else MatchSearch(safeLimit, payload, server, parse)
  }

  /** `search_objects(query, limit)`; a missing query is `None`. */
  function SearchObjects(query: Option<string>, limit: Json, server: Server, parse: Parser): (r: Result<SearchResult, PyError>)
    ensures Strip(query.GetOr("")) == "" ==> r == Success(SearchFailed(400, Fixed(QueryRequired)))
    ensures r.Success? && r.value.Found? ==> |r.value.results| <= SafeLimit(limit) <= 25
    ensures Strip(query.GetOr("")) != "" ==>
      var reply := server(SearchQuery(Wildcard(Strip(query.GetOr("")))));
      && (reply.Unreachable? ==> r == Success(SearchFailed(503, ContactFailed)))
      && (reply.Responded? && reply.status == 404 ==> r == Success(Found(JNum(0.0), [])))
      && (reply.Responded? ==> r == CompleteSearch(SafeLimit(limit), reply.status, reply.body, server, parse))
  {
    var sanitized := Strip(query.GetOr(""));
    if sanitized == "" then Success(SearchFailed(400, Fixed(QueryRequired)))
    else
      match server(SearchQuery(Wildcard(sanitized)))
      case Unreachable => Success(SearchFailed(503, ContactFailed))
      case Responded(status, body) => CompleteSearch(SafeLimit(limit), status, body, server, parse)
  }

  /** A query that is empty once stripped is refused with status 400 before
      any request: the outcome is the same whatever the server would
      answer. */
  lemma BlankQueryNoRequest(query: Option<string>, limit: Json, s1: Server, s2: Server, parse: Parser)
    requires Strip(query.GetOr("")) == ""
    ensures SearchObjects(query, limit, s1, parse) == SearchObjects(query, limit, s2, parse)
  {
  }

  /** Whitespace alone is refused as a search query (as an identifier it
      is sent, see `IdentifierSentVerbatim`). */
  lemma WhitespaceQueryRefused(limit: Json, server: Server, parse: Parser)
    ensures SearchObjects(Some(" "), limit, server, parse) == Success(SearchFailed(400, Fixed(QueryRequired)))
  {
    assert " " + [] + [] == " ";
    StripUnique(" ", [], []);
  }
}

=== FILE: orbital_elements.dfy ===
/** The Keplerian element record and the orbit summary derived from it
    (`OrbitalElements` in backend/models/orbital_elements.py, repeated in
    simultion_trajectory/orbital_simulation.py). */
module Orbits {
  import opened Outcomes
  import opened RealMath

  /** Mean radius of the Earth in km. */
  const EarthRadius: real := 6371.0
  /** Earth's standard gravitational parameter in km^3/s^2 (3.986004418e5). */
  const EarthMu: real := 398600.4418

  /** The element set as the constructor stores it: `a` in km, the four
      angles in radians, the mean motion `n` in rad/s and the period `T` in s. */
  datatype Elements = Elements(
    a: real, e: real,
    i: real, omega: real, Omega: real, M0: real,
    mu: real, n: real, T: real)

  /** The sign rule that decides whether `sqrt(mu / a^3)` and `2 pi / n`
      are defined. */
  predicate SameSign(a: real, mu: real)
  {
    (a > 0.0 && mu > 0.0) || (a < 0.0 && mu < 0.0)
  }

  /** The constructor: keeps `a`, `e` and `mu`, converts the angles from
      degrees to radians, and derives `n = sqrt(mu / a^3)` and `T = 2 pi / n`,
      raising where Python's float arithmetic raises. */
  function Make(a: real, e: real, iDeg: real, omegaDeg: real, OmegaDeg: real, M0Deg: real,
                mu: real, m: Elementary): (r: Result<Elements, PyError>)
    requires Lawful(m)
    ensures r.Success? <==> SameSign(a, mu)
    ensures a == 0.0 ==> r == Failure(ZeroDivision)
    ensures a != 0.0 && !SameSign(a, mu) && mu != 0.0 ==> r == Failure(MathDomain)
    ensures r.Success? ==>
      && r.value.a == a && r.value.e == e && r.value.mu == mu
      && r.value.i == Radians(iDeg, m) && r.value.omega == Radians(omegaDeg, m)
      && r.value.Omega == Radians(OmegaDeg, m) && r.value.M0 == Radians(M0Deg, m)
    ensures r.Success? ==> r.value.n > 0.0 && r.value.n * r.value.n * (a * a * a) == mu
    ensures r.Success? ==> r.value.T * r.value.n == 2.0 * m.pi
  {
    var cube := a * a * a;
    if cube == 0.0 then
      CubeSign(a);
      Failure(ZeroDivision)
    else
      var q := mu / cube;
      QuotientSign(a, mu, cube);
      if q < 0.0 then Failure(MathDomain)
      else
        var n := m.sqrt(q);
        if n == 0.0 then Failure(ZeroDivision)
        else
          SqrtPositive(m, q);
          assert n * n * cube == mu by {
            assert n * n == q;
            assert q * cube == mu;
          }
          Success(Elements(a, e, Radians(iDeg, m), Radians(omegaDeg, m), Radians(OmegaDeg, m),
                           Radians(M0Deg, m), mu, n, 2.0 * m.pi / n))
  }

  lemma CubeSign(a: real)
    ensures a > 0.0 ==> a * a * a > 0.0
    ensures a < 0.0 ==> a * a * a < 0.0
    ensures a == 0.0 ==> a * a * a == 0.0
  {
  }

  /** `mu / a^3` is positive exactly when `a` and `mu` share a sign, and zero
      exactly when `mu` is. */
  lemma QuotientSign(a: real, mu: real, cube: real)
    requires cube == a * a * a && cube != 0.0
    ensures mu / cube > 0.0 <==> SameSign(a, mu)
    ensures mu / cube == 0.0 <==> mu == 0.0
    ensures (mu / cube) * cube == mu
  {
    CubeSign(a);
    var q := mu / cube;
    assert q * cube == mu;
    if cube > 0.0 {
      if q > 0.0 { PosProduct(q, cube); }
      if q < 0.0 { PosProduct(-q, cube); }
    } else {
      if q > 0.0 { PosProduct(q, -cube); }
      if q < 0.0 { PosProduct(-q, -cube); }
    }
  }

  /** `from_dict`: reads the six elements in keyword order (a missing key
      raises `KeyError`) and `mu`, which defaults to Earth's value. */
  function FromDict(d: map<string, real>, m: Elementary): (r: Result<Elements, PyError>)
    requires Lawful(m)
    ensures r.Success? <==>
      && (forall k :: k in ElementKeys ==> k in d)
      && SameSign(d["a"], if "mu" in d then d["mu"] else EarthMu)
    ensures r.Success? ==> r.value.mu == (if "mu" in d then d["mu"] else EarthMu)
    ensures r.Failure? && "a" !in d ==> r.error == KeyMissing("a")
  {
    if "a" !in d then Failure(KeyMissing("a"))
    else if "e" !in d then Failure(KeyMissing("e"))
    else if "i" !in d then Failure(KeyMissing("i"))
    else if "omega" !in d then Failure(KeyMissing("omega"))
    else if "Omega" !in d then Failure(KeyMissing("Omega"))
    else if "M0" !in d then Failure(KeyMissing("M0"))
    else
      var mu := if "mu" in d then d["mu"] else EarthMu;
      Make(d["a"], d["e"], d["i"], d["omega"], d["Omega"], d["M0"], mu, m)
  }

  /** The six element keys, in the order `from_dict` reads them. */
  const ElementKeys: seq<string> := ["a", "e", "i", "omega", "Omega", "M0"]

  /** `to_dict`: the stored record with the angles converted back to degrees. */
  function ToDict(el: Elements, m: Elementary): (d: map<string, real>)
    requires m.pi != 0.0
    ensures d.Keys == {"a", "e", "i", "omega", "Omega", "M0", "mu", "n", "T"}
  {
    map[
      "a" := el.a, "e" := el.e,
      "i" := Degrees(el.i, m), "omega" := Degrees(el.omega, m),
      "Omega" := Degrees(el.Omega, m), "M0" := Degrees(el.M0, m),
      "mu" := el.mu, "n" := el.n, "T" := el.T]
  }

  /** `to_dict(from_dict(d))` gives back every element of `d` and the
      effective `mu`, exactly: over the reals the degree/radian round trip
      loses nothing. */
  lemma ToDictFromDict(d: map<string, real>, m: Elementary)
    requires Lawful(m)
    requires FromDict(d, m).Success?
    ensures forall k :: k in ElementKeys ==> ToDict(FromDict(d, m).value, m)[k] == d[k]
    ensures ToDict(FromDict(d, m).value, m)["mu"] == (if "mu" in d then d["mu"] else EarthMu)
  {
    var el := FromDict(d, m).value;
    DegreesOfRadians(d["i"], m);
    DegreesOfRadians(d["omega"], m);
    DegreesOfRadians(d["Omega"], m);
    DegreesOfRadians(d["M0"], m);
  }

  /** The summary returned by `get_orbital_info`. */
  datatype OrbitalInfo = OrbitalInfo(
    semiMajorAxis: real,
    eccentricity: real,
    inclination: real,
    argumentOfPeriapsis: real,
    longitudeOfAscendingNode: real,
    meanAnomalyAtEpoch: real,
    periodHours: real,
    periodMinutes: real,
    meanMotion: real,
    perigeeAltitude: real,
    apogeeAltitude: real,
    willImpact: bool,
    impactDepth: real)

  /** `get_orbital_info`: perigee and apogee altitudes above a 6371 km Earth,
      the impact flag and depth, and the period in hours and minutes. */
  function GetOrbitalInfo(el: Elements, m: Elementary): (r: OrbitalInfo)
    requires m.pi != 0.0
    ensures r.perigeeAltitude == el.a * (1.0 - el.e) - EarthRadius
    ensures r.apogeeAltitude == el.a * (1.0 + el.e) - EarthRadius
    ensures r.willImpact <==> r.perigeeAltitude < 0.0
    ensures r.willImpact <==> el.a * (1.0 - el.e) < EarthRadius
    ensures r.impactDepth == (if r.willImpact then -r.perigeeAltitude else 0.0)
    ensures r.impactDepth >= 0.0
    ensures r.willImpact ==> r.impactDepth == EarthRadius - el.a * (1.0 - el.e)
    ensures !r.willImpact ==> r.impactDepth == 0.0
    ensures r.apogeeAltitude - r.perigeeAltitude == 2.0 * el.a * el.e
    ensures el.a > 0.0 && el.e >= 0.0 ==> r.apogeeAltitude >= r.perigeeAltitude
    ensures r.periodHours * 3600.0 == el.T
    ensures r.periodMinutes == 60.0 * r.periodHours
    ensures r.semiMajorAxis == el.a && r.eccentricity == el.e && r.meanMotion == el.n
  {
    var perigee := el.a * (1.0 - el.e) - EarthRadius;
    var apogee := el.a * (1.0 + el.e) - EarthRadius;
    var impact := perigee < 0.0;
    assert apogee - perigee == 2.0 * el.a * el.e;
    ProductSign(el.a, el.e);
    OrbitalInfo(
      el.a, el.e,
      Degrees(el.i, m), Degrees(el.omega, m), Degrees(el.Omega, m), Degrees(el.M0, m),
      el.T / 3600.0, el.T / 60.0, el.n,
      perigee, apogee, impact,
      if impact then Abs(perigee) else 0.0)
  }

  lemma ProductSign(a: real, e: real)
    ensures a >= 0.0 && e >= 0.0 ==> a * e >= 0.0
  {
    if a >= 0.0 && e >= 0.0 {
      NonNegProduct(a, e);
    }
  }

  /** The summary of elements read from a dictionary reports the dictionary's
      own angles in degrees, unchanged. */
  lemma InfoReportsInputAngles(d: map<string, real>, m: Elementary)
    requires Lawful(m)
    requires FromDict(d, m).Success?
    ensures var info := GetOrbitalInfo(FromDict(d, m).value, m);
      && info.inclination == d["i"]
      && info.argumentOfPeriapsis == d["omega"]
      && info.longitudeOfAscendingNode == d["Omega"]
      && info.meanAnomalyAtEpoch == d["M0"]
  {
    DegreesOfRadians(d["i"], m);
    DegreesOfRadians(d["omega"], m);
    DegreesOfRadians(d["Omega"], m);
    DegreesOfRadians(d["M0"], m);
  }
}

=== FILE: orbital_service.dfy ===
/** Element validation and the preset catalog
    (`OrbitalService` in backend/services/orbital_service.py). */
module OrbitalService {
  import opened Outcomes
  import opened Sequences
  import Orbits

  /** The outcome of `validate_orbital_elements`. */
  datatype ValidationResult = ValidationResult(valid: bool, errors: seq<string>)

  /** The fields the validator demands, in the order it checks them. */
  const RequiredFields: seq<string> := Orbits.ElementKeys

  /** Largest accepted semi-major axis, in km (1e9). */
  const MaxSemiMajorAxis: real := 1000000000.0

  /** The validator's range rules, one per message it can emit. */
  datatype Rule = APositive | ABelowEarth | ATooLarge | Eccentricity | Inclination | Periapsis | Node | MeanAnomaly

  function Message(rule: Rule): string
  {
    match rule
    case APositive => "Semi-major axis (a) must be positive"
    case ABelowEarth => "Semi-major axis (a) must be greater than Earth radius (6371 km)"
    case ATooLarge => "Semi-major axis (a) is too large (max 1e9 km)"
    case Eccentricity => "Eccentricity (e) must be between 0 and 1 (exclusive)"
    case Inclination => "Inclination (i) must be between 0 and 180 degrees"
    case Periapsis => "Argument of periapsis (omega) must be between 0 and 360 degrees"
    case Node => "Longitude of ascending node (Omega) must be between 0 and 360 degrees"
    case MeanAnomaly => "Mean anomaly at epoch (M0) must be between 0 and 360 degrees"
  }

  /** The position of each rule in the order the validator checks them; the
      three rules on `a` share a position. */
  function Rank(rule: Rule): nat
  {
    match rule
    case APositive => 0
    case ABelowEarth => 0
    case ATooLarge => 0
    case Eccentricity => 1
    case Inclination => 2
    case Periapsis => 3
    case Node => 4
    case MeanAnomaly => 5
  }

  function MissingMessage(field: string): string
  {
    "Missing required field: " + field
  }

  /** The fields of `fields` that `d` lacks, in their original order. */
  function Missing(fields: seq<string>, d: map<string, real>): (r: seq<string>)
    ensures forall k :: 0 <= k < |r| ==> r[k] in fields && r[k] !in d
    ensures forall f :: f in fields && f !in d ==> f in r
    ensures IsSubsequence(r, fields)
  {
    if |fields| == 0 then []
    else
      var rest := Missing(fields[1..], d);
      if fields[0] !in d then [fields[0]] + rest else rest
  }

  function MissingMessages(fields: seq<string>): (r: seq<string>)
    ensures |r| == |fields|
    ensures forall k :: 0 <= k < |r| ==> r[k] == MissingMessage(fields[k])
  {
    if |fields| == 0 then [] else [MissingMessage(fields[0])] + MissingMessages(fields[1..])
  }

  predicate AllPresent(d: map<string, real>)
  {
    forall f :: f in RequiredFields ==> f in d
  }

  /** The validator's range rules, stated independently of its code. */
  predicate AOk(a: real) { 6371.0 <= a <= MaxSemiMajorAxis }
  predicate EOk(e: real) { 0.0 <= e < 1.0 }
  predicate IOk(i: real) { 0.0 <= i <= 180.0 }
  predicate AngleOk(x: real) { 0.0 <= x <= 360.0 }

  predicate InRanges(a: real, e: real, i: real, omega: real, Omega: real, M0: real)
  {
    AOk(a) && EOk(e) && IOk(i) && AngleOk(omega) && AngleOk(Omega) && AngleOk(M0)
  }

  /** The if/elif chain on `a`: at most one rule, chosen by the first
      failing test. */
  function SemiMajorAxisViolation(a: real): (r: seq<Rule>)
    ensures |r| <= 1
    ensures |r| == 0 <==> AOk(a)
    ensures a <= 0.0 ==> r == [APositive]
    ensures 0.0 < a < Orbits.EarthRadius ==> r == [ABelowEarth]
    ensures a > MaxSemiMajorAxis ==> r == [ATooLarge]
  {
    if a <= 0.0 then [APositive]
    else if a < Orbits.EarthRadius then [ABelowEarth]
    else if a > MaxSemiMajorAxis then [ATooLarge]
    else []
  }

  /** The rules whose test failed, in the order they were checked. */
  function Failed(checks: seq<(Rule, bool)>): (r: seq<Rule>)
    ensures |r| <= |checks|
  {
    if |checks| == 0 then []
    else if checks[0].1 then [checks[0].0] + Failed(checks[1..])
    else Failed(checks[1..])
  }

  /** A rule is reported exactly when one of its checks failed. */
  lemma {:induction false} FailedMembers(checks: seq<(Rule, bool)>, x: Rule)
    ensures x in Failed(checks) <==> exists k :: 0 <= k < |checks| && checks[k] == (x, true)
  {
    if |checks| > 0 {
      FailedMembers(checks[1..], x);
      if exists k :: 1 <= k < |checks| && checks[k] == (x, true) {
        var k :| 1 <= k < |checks| && checks[k] == (x, true);
        assert checks[1..][k - 1] == (x, true);
      }
      if exists k :: 0 <= k < |checks[1..]| && checks[1..][k] == (x, true) {
        var k :| 0 <= k < |checks[1..]| && checks[1..][k] == (x, true);
        assert checks[k + 1] == (x, true);
      }
    }
  }

  /** Nothing is reported when no check failed, and something when one did. */
  lemma {:induction false} FailedEmpty(checks: seq<(Rule, bool)>)
    ensures |Failed(checks)| == 0 <==> forall k :: 0 <= k < |checks| ==> !checks[k].1
  {
    if |checks| > 0 {
      FailedEmpty(checks[1..]);
      assert forall k :: 1 <= k < |checks| ==> checks[k] == checks[1..][k - 1];
    }
  }

  ghost predicate RanksIncrease(rules: seq<Rule>)
  {
    forall j, k :: 0 <= j < k < |rules| ==> Rank(rules[j]) < Rank(rules[k])
  }

  /** Reports keep the order of the checks. */
  lemma {:induction false} FailedOrdered(checks: seq<(Rule, bool)>)
    requires forall j, k :: 0 <= j < k < |checks| ==> Rank(checks[j].0) < Rank(checks[k].0)
    ensures RanksIncrease(Failed(checks))
    ensures forall x :: x in Failed(checks) ==> exists k :: 0 <= k < |checks| && checks[k].0 == x
  {
    if |checks| > 0 {
      var rest := checks[1..];
      FailedOrdered(rest);
      var r := Failed(checks);
      forall x | x in Failed(rest)
        ensures Rank(checks[0].0) < Rank(x)
      {
        var k :| 0 <= k < |rest| && rest[k].0 == x;
        assert rest[k] == checks[k + 1];
      }
      forall x | x in r
        ensures exists k :: 0 <= k < |checks| && checks[k].0 == x
      {
        if x != checks[0].0 {
          assert x in Failed(rest);
          var k :| 0 <= k < |rest| && rest[k].0 == x;
          assert checks[k + 1].0 == x;
        }
      }
    }
  }

  /** The six range tests in the validator's order; the test on `a` carries
      the rule its if/elif chain selects. */
  function Checks(a: real, e: real, i: real, omega: real, Omega: real, M0: real): seq<(Rule, bool)>
  {
    var aRule := SemiMajorAxisViolation(a);
    [ (if |aRule| == 1 then aRule[0] else APositive, |aRule| == 1),
      (Eccentricity, !(0.0 <= e < 1.0)),
      (Inclination, !(0.0 <= i <= 180.0)),
      (Periapsis, !(0.0 <= omega <= 360.0)),
      (Node, !(0.0 <= Omega <= 360.0)),
      (MeanAnomaly, !(0.0 <= M0 <= 360.0)) ]
  }

  /** When each rule fires, stated rule by rule; the three rules on `a`
      exclude one another as the if/elif chain does. */
  predicate Broken(rule: Rule, a: real, e: real, i: real, omega: real, Omega: real, M0: real)
  {
    match rule
    case APositive => a <= 0.0
    case ABelowEarth => 0.0 < a < Orbits.EarthRadius
    case ATooLarge => a > MaxSemiMajorAxis
    case Eccentricity => !EOk(e)
    case Inclination => !IOk(i)
    case Periapsis => !AngleOk(omega)
    case Node => !AngleOk(Omega)
    case MeanAnomaly => !AngleOk(M0)
  }

  /** Every range rule that fails is reported once, in the validator's order. */
  function Violations(a: real, e: real, i: real, omega: real, Omega: real, M0: real): (r: seq<Rule>)
    ensures RanksIncrease(r)
  {
    var checks := Checks(a, e, i, omega, Omega, M0);
    FailedOrdered(checks);
    Failed(checks)
  }

  /** The check list, entry by entry. */
  lemma ChecksEntries(a: real, e: real, i: real, omega: real, Omega: real, M0: real)
    ensures var checks := Checks(a, e, i, omega, Omega, M0);
      && |checks| == 6
      && checks[0].1 == !AOk(a)
      && (checks[0].1 ==> [checks[0].0] == SemiMajorAxisViolation(a))
      && checks[1] == (Eccentricity, !EOk(e))
      && checks[2] == (Inclination, !IOk(i))
      && checks[3] == (Periapsis, !AngleOk(omega))
      && checks[4] == (Node, !AngleOk(Omega))
      && checks[5] == (MeanAnomaly, !AngleOk(M0))
  {
  }

  /** A rule is reported exactly when it is broken. */
  lemma ViolationsMembers(a: real, e: real, i: real, omega: real, Omega: real, M0: real, x: Rule)
    ensures x in Violations(a, e, i, omega, Omega, M0) <==> Broken(x, a, e, i, omega, Omega, M0)
  {
    var checks := Checks(a, e, i, omega, Omega, M0);
    ChecksEntries(a, e, i, omega, Omega, M0);
    FailedMembers(checks, x);
    var aRules := SemiMajorAxisViolation(a);
    if x in Failed(checks) {
      var k :| 0 <= k < |checks| && checks[k] == (x, true);
      if k == 0 {
        assert aRules == [x];
      }
    }
    if Broken(x, a, e, i, omega, Omega, M0) {
      if x.APositive? || x.ABelowEarth? || x.ATooLarge? {
        assert aRules == [x];
        assert checks[0] == (x, true);
      } else if x.Eccentricity? {
        assert checks[1] == (x, true);
      } else if x.Inclination? {
        assert checks[2] == (x, true);
      } else if x.Periapsis? {
        assert checks[3] == (x, true);
      } else if x.Node? {
        assert checks[4] == (x, true);
      } else {
        assert checks[5] == (x, true);
      }
    }
  }

  /** No report at all exactly when every range rule is satisfied. */
  lemma ViolationsEmpty(a: real, e: real, i: real, omega: real, Omega: real, M0: real)
    ensures |Violations(a, e, i, omega, Omega, M0)| == 0 <==> InRanges(a, e, i, omega, Omega, M0)
  {
    ChecksEntries(a, e, i, omega, Omega, M0);
    FailedEmpty(Checks(a, e, i, omega, Omega, M0));
  }

  function Messages(rules: seq<Rule>): (r: seq<string>)
    ensures |r| == |rules|
    ensures forall k :: 0 <= k < |r| ==> r[k] == Message(rules[k])
  {
    if |rules| == 0 then [] else [Message(rules[0])] + Messages(rules[1..])
  }

  /** Recovers a rule from its message, by length and, where two lengths
      coincide, by the last character. */
  function Classify(m: string): Rule
  {
    if |m| == 63 then (if m[62] == ')' then ABelowEarth else Periapsis)
    else if |m| == 45 then ATooLarge
    else if |m| == 52 then Eccentricity
    else if |m| == 49 then Inclination
    else if |m| == 69 then Node
    else if |m| == 60 then MeanAnomaly
    else APositive
  }

  lemma ClassifyMessage(x: Rule)
    ensures Classify(Message(x)) == x
  {
    match x
    case APositive =>
    case ABelowEarth =>
    case ATooLarge =>
    case Eccentricity =>
    case Inclination =>
    case Periapsis =>
    case Node =>
    case MeanAnomaly =>
  }

  /** Distinct rules have distinct messages. */
  lemma MessageInjective(x: Rule, y: Rule)
    requires Message(x) == Message(y)
    ensures x == y
  {
    ClassifyMessage(x);
    ClassifyMessage(y);
  }

  /** `validate_orbital_elements`: missing fields are reported first and
      alone; otherwise every broken range rule is reported. */
  function Validate(d: map<string, real>): (r: ValidationResult)
    ensures r.valid <==> |r.errors| == 0
    ensures !AllPresent(d) ==> !r.valid
    ensures AllPresent(d) ==>
      r.errors == Messages(Violations(d["a"], d["e"], d["i"], d["omega"], d["Omega"], d["M0"]))
  {
    var missing := Missing(RequiredFields, d);
    if |missing| > 0 then
      ValidationResult(false, MissingMessages(missing))
    else
      assert AllPresent(d);
      var errors := Messages(Violations(d["a"], d["e"], d["i"], d["omega"], d["Omega"], d["M0"]));
      ValidationResult(|errors| == 0, errors)
  }

  /** When a field is absent, the errors are one message per absent field,
      in field order, and no range rule is consulted: every absent field is
      named, every message names an absent field, and there are at most six. */
  lemma MissingFieldsReported(d: map<string, real>)
    requires !AllPresent(d)
    ensures var r := Validate(d);
      && !r.valid
      && r.errors == MissingMessages(Missing(RequiredFields, d))
      && |r.errors| <= |RequiredFields|
    ensures forall f :: f in RequiredFields && f !in d ==> MissingMessage(f) in Validate(d).errors
    ensures forall k :: 0 <= k < |Validate(d).errors| ==>
      Validate(d).errors[k] == MissingMessage(Missing(RequiredFields, d)[k])
      && Missing(RequiredFields, d)[k] in RequiredFields
      && Missing(RequiredFields, d)[k] !in d
  {
    var missing := Missing(RequiredFields, d);
    var f0 :| f0 in RequiredFields && f0 !in d;
    assert f0 in missing;
    assert Validate(d) == ValidationResult(false, MissingMessages(missing));
    MessagesNameFields(missing);
    SubsequenceLength(missing, RequiredFields);
  }

  /** Every listed field has its message among the missing-field messages. */
  lemma MessagesNameFields(fields: seq<string>)
    ensures forall f :: f in fields ==> MissingMessage(f) in MissingMessages(fields)
  {
    forall f | f in fields
      ensures MissingMessage(f) in MissingMessages(fields)
    {
      var k :| 0 <= k < |fields| && fields[k] == f;
      assert MissingMessages(fields)[k] == MissingMessage(f);
    }
  }

  /** With every field present, the element set is valid exactly when all
      six range rules hold. */
  lemma ValidIffInRanges(d: map<string, real>)
    requires AllPresent(d)
    ensures Validate(d).valid <==> InRanges(d["a"], d["e"], d["i"], d["omega"], d["Omega"], d["M0"])
  {
    ViolationsEmpty(d["a"], d["e"], d["i"], d["omega"], d["Omega"], d["M0"]);
  }

  /** With every field present, a rule's message appears exactly when the
      rule is broken. */
  lemma RangeErrorsReported(d: map<string, real>, x: Rule)
    requires AllPresent(d)
    ensures Message(x) in Validate(d).errors
        <==> Broken(x, d["a"], d["e"], d["i"], d["omega"], d["Omega"], d["M0"])
  {
    var v := Violations(d["a"], d["e"], d["i"], d["omega"], d["Omega"], d["M0"]);
    assert Validate(d).errors == Messages(v);
    ViolationsMembers(d["a"], d["e"], d["i"], d["omega"], d["Omega"], d["M0"], x);
    MessagesMembers(v, x);
  }

  /** A rule's message is among the messages of a rule list exactly when
      the rule is in the list. */
  lemma {:induction false} MessagesMembers(v: seq<Rule>, x: Rule)
    ensures Message(x) in Messages(v) <==> x in v
  {
    if |v| > 0 {
      MessagesMembers(v[1..], x);
      assert Messages(v) == [Message(v[0])] + Messages(v[1..]);
      assert v == [v[0]] + v[1..];
      if Message(v[0]) == Message(x) {
        MessageInjective(v[0], x);
      }
    }
  }

  /** Range errors follow the order a, e, i, omega, Omega, M0 and never
      repeat, so at most one concerns `a`. */
  lemma RangeErrorsDistinct(d: map<string, real>)
    requires AllPresent(d)
    ensures var errs := Validate(d).errors;
      forall j, k :: 0 <= j < k < |errs| ==> errs[j] != errs[k]
  {
    var v := Violations(d["a"], d["e"], d["i"], d["omega"], d["Omega"], d["M0"]);
    var errs := Messages(v);
    assert Validate(d).errors == errs;
    forall j, k | 0 <= j < k < |errs|
      ensures errs[j] != errs[k]
    {
      if errs[j] == errs[k] {
        MessageInjective(v[j], v[k]);
      }
    }
  }

  /** Angles outside [0, 360] are rejected rather than wrapped: an otherwise
      valid element set with `M0 = 370` fails with exactly the `M0` message. */
  lemma AngleOutOfRangeRejected()
    ensures Validate(ElementMap(7000.0, 0.2, 28.5, 0.0, 0.0, 370.0))
         == ValidationResult(false, [Message(MeanAnomaly)])
  {
    var v := Violations(7000.0, 0.2, 28.5, 0.0, 0.0, 370.0);
    forall y ensures y in v <==> y == MeanAnomaly {
      ViolationsMembers(7000.0, 0.2, 28.5, 0.0, 0.0, 370.0, y);
    }
    OnlyRule(v, MeanAnomaly);
    ValidateElementMap(7000.0, 0.2, 28.5, 0.0, 0.0, 370.0);
  }

  /** A rank-ordered report holding a single rule holds it once. */
  lemma OnlyRule(v: seq<Rule>, x: Rule)
    requires RanksIncrease(v)
    requires forall y :: y in v <==> y == x
    ensures v == [x]
  {
    assert x in v;
    FirstTwoDiffer(v);
  }

  lemma FirstTwoDiffer(v: seq<Rule>)
    requires RanksIncrease(v)
    ensures |v| > 1 ==> v[0] != v[1] && v[0] in v && v[1] in v
  {
  }

  function ElementMap(a: real, e: real, i: real, omega: real, Omega: real, M0: real): map<string, real>
  {
    map["a" := a, "e" := e, "i" := i, "omega" := omega, "Omega" := Omega, "M0" := M0]
  }

  /** One entry of the preset catalog. */
  datatype Preset = Preset(name: string, description: string, elements: map<string, real>, warning: Outcomes.Option<string>)

  /** The map view of an element set validates exactly as its six values
      are judged by the range rules. */
  lemma ValidateElementMap(a: real, e: real, i: real, omega: real, Omega: real, M0: real)
    ensures var errs := Messages(Violations(a, e, i, omega, Omega, M0));
      Validate(ElementMap(a, e, i, omega, Omega, M0)) == ValidationResult(|errs| == 0, errs)
  {
    var d := ElementMap(a, e, i, omega, Omega, M0);
    assert AllPresent(d);
  }

  /** `get_orbital_presets`, with the dictionary's key order kept as a sequence. */
  function Presets(): (r: seq<(string, Preset)>)
    ensures |r| == 6
    ensures r[0].0 == "default" && r[1].0 == "iss" && r[2].0 == "geostationary"
         && r[3].0 == "molniya" && r[4].0 == "polar" && r[5].0 == "crash"
    ensures forall k :: 0 <= k < |r| ==> AllPresent(r[k].1.elements)
    ensures forall k :: 0 <= k < |r| ==> (r[k].1.warning.Some? <==> r[k].0 == "crash")
  {
    [
      ("default", Preset("Órbita por Defecto", "Órbita LEO con excentricidad moderada",
                         ElementMap(7000.0, 0.2, 28.5, 0.0, 0.0, 0.0), None)),
      ("iss", Preset("Estación Espacial Internacional", "Órbita real de la ISS",
                     ElementMap(6778.0, 0.0003, 51.6, 0.0, 0.0, 0.0), None)),
      ("geostationary", Preset("Órbita Geostacionaria", "Satélite geoestacionario sobre el ecuador",
                               ElementMap(42164.0, 0.0, 0.0, 0.0, 0.0, 0.0), None)),
      ("molniya", Preset("Órbita Molniya", "Órbita elíptica de comunicaciones rusas",
                         ElementMap(26600.0, 0.74, 63.4, 270.0, 0.0, 0.0), None)),
      ("polar", Preset("Órbita Polar", "Órbita polar de observación terrestre",
                       ElementMap(8000.0, 0.1, 90.0, 0.0, 0.0, 0.0), None)),
      ("crash", Preset("Órbita de Impacto (Educativa)", "⚠️ Órbita que impactará con la Tierra",
                       ElementMap(6000.0, 0.6, 45.0, 0.0, 0.0, 0.0),
                       Some("Esta órbita resultará en impacto con la superficie terrestre")))
    ]
  }

  /** A preset whose six values satisfy every range rule validates. */
  lemma PresetValid(a: real, e: real, i: real, omega: real, Omega: real, M0: real)
    requires InRanges(a, e, i, omega, Omega, M0)
    ensures Validate(ElementMap(a, e, i, omega, Omega, M0)) == ValidationResult(true, [])
  {
    ValidateElementMap(a, e, i, omega, Omega, M0);
    ViolationsEmpty(a, e, i, omega, Omega, M0);
  }

  /** Every preset but `crash` passes the validator. */
  lemma PresetsValid()
    ensures Validate(Presets()[0].1.elements) == ValidationResult(true, [])
    ensures Validate(Presets()[1].1.elements) == ValidationResult(true, [])
    ensures Validate(Presets()[2].1.elements) == ValidationResult(true, [])
    ensures Validate(Presets()[3].1.elements) == ValidationResult(true, [])
    ensures Validate(Presets()[4].1.elements) == ValidationResult(true, [])
  {
    PresetValid(7000.0, 0.2, 28.5, 0.0, 0.0, 0.0);
    PresetValid(6778.0, 0.0003, 51.6, 0.0, 0.0, 0.0);
    PresetValid(42164.0, 0.0, 0.0, 0.0, 0.0, 0.0);
    PresetValid(26600.0, 0.74, 63.4, 270.0, 0.0, 0.0);
    PresetValid(8000.0, 0.1, 90.0, 0.0, 0.0, 0.0);
  }

  /** The `crash` preset (a = 6000 km) fails, and only the Earth-radius rule
      on `a` objects. */
  lemma CrashPresetRejected()
    ensures Validate(Presets()[5].1.elements) == ValidationResult(false, [Message(ABelowEarth)])
  {
    var d := ElementMap(6000.0, 0.6, 45.0, 0.0, 0.0, 0.0);
    assert Validate(d) == ValidationResult(false, [Message(ABelowEarth)]) by {
      var v := Violations(6000.0, 0.6, 45.0, 0.0, 0.0, 0.0);
      forall y ensures y in v <==> y == ABelowEarth {
        ViolationsMembers(6000.0, 0.6, 45.0, 0.0, 0.0, 0.0, y);
      }
      OnlyRule(v, ABelowEarth);
      ValidateElementMap(6000.0, 0.6, 45.0, 0.0, 0.0, 0.0);
    }
    assert Presets()[5].1.elements == d;
  }
}

=== FILE: outcomes.dfy ===
/** Failure-carrying result types shared by every module of the model.

    The Python code reports failure either by raising an exception or by
    returning a status object; the model turns every exception it can reach
    into a `PyError` inside a `Result`.
 */
module Outcomes {

  /** A value that may be absent (Python's `None`). */
  datatype Option<+T> = None | Some(value: T)
  {
    function GetOr(default: T): T
    {
      match this
      case Some(v) => v
      case None => default
    }
  }

  /** Either a computed value or the error that interrupted the computation. */
  datatype Result<+R, +E> = Success(value: R) | Failure(error: E)
  {
    predicate IsFailure()
    {
      Failure?
    }

    function PropagateFailure<U>(): Result<U, E>
      requires Failure?
    {
      Failure(error)
    }

    function Extract(): R
      requires Success?
    {
      value
    }
  }

  /** The exceptions the modelled Python code can raise. */
  datatype PyError =
    | ZeroDivision        // ZeroDivisionError: float division by zero
    | MathDomain          // ValueError: math domain error (sqrt of a negative)
    | KeyMissing(key: string)  // KeyError on a dictionary lookup
    | NotIterable         // TypeError: iterating a number or a boolean
    | NotConvertible      // TypeError / ValueError from float(x)
    | NoSuchAttribute     // AttributeError: `.get` on something that is not a dict
    | EmptyAxis           // numpy AxisError on an empty position array
    | Unhashable          // TypeError: a list or a dict used as a dictionary key
    | NotSubscriptable    // TypeError: slicing a number, a boolean or a dict
}

=== FILE: py_text.dfy ===
/** The two Python `str` methods the payload helpers rely on: `strip()`
    with no argument, which removes leading and trailing characters for
    which `str.isspace` holds, and `lower()`, of which only the ASCII part
    matters here (see `Lower`). */
module PyText {

  /** `c.isspace()`: the Unicode characters Python treats as whitespace. */
  predicate IsSpace(c: char)
  {
    || ('\U{9}' <= c <= '\U{D}')
    || ('\U{1C}' <= c <= ' ')
    || c == '\U{85}' || c == '\U{A0}' || c == '\U{1680}'
    || ('\U{2000}' <= c <= '\U{200A}')
    || c == '\U{2028}' || c == '\U{2029}' || c == '\U{202F}' || c == '\U{205F}'
    || c == '\U{3000}'
  }

  predicate AllSpace(s: string)
  {
    forall j :: 0 <= j < |s| ==> IsSpace(s[j])
  }

  /** Neither end of `s` is whitespace. */
  predicate Tight(s: string)
  {
    |s| == 0 || (!IsSpace(s[0]) && !IsSpace(s[|s| - 1]))
  }

  /** The length of the whitespace run that starts `s`. */
  function LeadingSpaces(s: string): (k: nat)
    ensures k <= |s|
    ensures AllSpace(s[..k])
    ensures k < |s| ==> !IsSpace(s[k])
  {
    if |s| == 0 || !IsSpace(s[0]) then 0
    else
      var rest := LeadingSpaces(s[1..]);
      assert s[..rest + 1] == [s[0]] + s[1..][..rest];
      rest + 1
  }

  /** The length of the whitespace run that ends `s`. */
  function TrailingSpaces(s: string): (k: nat)
    ensures k <= |s|
    ensures AllSpace(s[|s| - k..])
    ensures k < |s| ==> !IsSpace(s[|s| - 1 - k])
  {
    if |s| == 0 || !IsSpace(s[|s| - 1]) then 0
    else
      var init := s[..|s| - 1];
      var rest := TrailingSpaces(init);
      assert s[|s| - (rest + 1)..] == init[|init| - rest..] + [s[|s| - 1]];
      rest + 1
  }

  /** `s.strip()`: the infix of `s` left after removing the whitespace at
      both ends. */
  function Strip(s: string): (r: string)
    ensures |r| <= |s|
    ensures LeadingSpaces(s) + |r| <= |s|
    ensures r == s[LeadingSpaces(s)..LeadingSpaces(s) + |r|]
    ensures AllSpace(s[..LeadingSpaces(s)]) && AllSpace(s[LeadingSpaces(s) + |r|..])
    ensures Tight(r)
  {
    var i := LeadingSpaces(s);
    var t := s[i..];
    var k := TrailingSpaces(t);
    assert s[i + (|t| - k)..] == t[|t| - k..];
    t[..|t| - k]
  }

  /** Whatever `p` and `q` are made of whitespace and `r` has none at its
      ends, `(p + r + q).strip()` is `r`: `Strip` is the unique such infix. */
  lemma StripUnique(p: string, r: string, q: string)
    requires AllSpace(p) && AllSpace(q) && Tight(r)
    ensures Strip(p + r + q) == r
  {
    var s := p + r + q;
    if |r| == 0 {
      AllSpaceConcat(p, q);
      assert s == p + q;
      assert LeadingSpaces(s) == |s|;
    } else {
      assert s[|p|] == r[0];
      var i := LeadingSpaces(s);
      assert i == |p|;
      var t := s[i..];
      assert t == r + q;
      var k := TrailingSpaces(t);
      assert t[|t| - 1 - |q|] == r[|r| - 1];
      assert k == |q|;
      assert t[..|t| - k] == r;
    }
  }

  lemma AllSpaceConcat(a: string, b: string)
    requires AllSpace(a) && AllSpace(b)
    ensures AllSpace(a + b)
  {
    forall j | 0 <= j < |a + b|
      ensures IsSpace((a + b)[j])
    {
      if j < |a| { assert (a + b)[j] == a[j]; } else { assert (a + b)[j] == b[j - |a|]; }
    }
  }

  /** The whitespace `strip` removes at the front. */
  function Head(s: string): string
  {
    s[..LeadingSpaces(s)]
  }

  /** The whitespace `strip` removes at the back. */
  function Tail(s: string): string
  {
    s[LeadingSpaces(s) + |Strip(s)|..]
  }

  /** Every string is its leading whitespace, its stripped text and its
      trailing whitespace. */
  lemma Decompose(s: string)
    ensures s == Head(s) + Strip(s) + Tail(s)
    ensures AllSpace(Head(s)) && AllSpace(Tail(s))
  {
    var i := LeadingSpaces(s);
    assert s == s[..i] + s[i..i + |Strip(s)|] + s[i + |Strip(s)|..];
  }

  /** Stripping ignores any extra whitespace around the text. */
  lemma StripPadding(pre: string, s: string, post: string)
    requires AllSpace(pre) && AllSpace(post)
    ensures Strip(pre + s + post) == Strip(s)
  {
    Decompose(s);
    var p, r, q := Head(s), Strip(s), Tail(s);
    AllSpaceConcat(pre, p);
    AllSpaceConcat(q, post);
    Regroup(pre, p, r, q, post);
    StripUnique(pre + p, r, q + post);
  }

  lemma Regroup(a: string, b: string, c: string, d: string, e: string)
    ensures a + (b + c + d) + e == (a + b) + c + (d + e)
  {
  }

  /** Stripping twice is stripping once. */
  lemma StripIdempotent(s: string)
    ensures Strip(Strip(s)) == Strip(s)
  {
    var r := Strip(s);
    assert [] + r + [] == r;
    StripUnique([], r, []);
  }

  function LowerChar(c: char): char
  {
    if 'A' <= c <= 'Z' then (c as int + 32) as char else c
  }

  function UpperChar(c: char): char
  {
    if 'a' <= c <= 'z' then (c as int - 32) as char else c
  }

  /** `s.lower()` on ASCII letters. Every other character is kept: the only
      use of the result is a comparison with ASCII words, and no non-ASCII
      character lower-cases to an ASCII letter that occurs in them. */
  function Lower(s: string): (r: string)
    ensures |r| == |s|
    ensures forall j :: 0 <= j < |s| ==> r[j] == LowerChar(s[j])
  {
    seq(|s|, j requires 0 <= j < |s| => LowerChar(s[j]))
  }

  /** `s.upper()` on ASCII letters. */
  function Upper(s: string): (r: string)
    ensures |r| == |s|
    ensures forall j :: 0 <= j < |s| ==> r[j] == UpperChar(s[j])
  {
    seq(|s|, j requires 0 <= j < |s| => UpperChar(s[j]))
  }

  /** Upper-casing keeps whitespace where it is, so stripping and
      upper-casing commute. */
  lemma StripUpper(s: string)
    ensures Strip(Upper(s)) == Upper(Strip(s))
  {
    Decompose(s);
    var p, r, q := Head(s), Strip(s), Tail(s);
    UpperConcat(p + r, q);
    UpperConcat(p, r);
    UpperKeepsSpace(p);
    UpperKeepsSpace(q);
    UpperKeepsTight(r);
    StripUnique(Upper(p), Upper(r), Upper(q));
  }

  lemma UpperConcat(a: string, b: string)
    ensures Upper(a + b) == Upper(a) + Upper(b)
  {
  }

  lemma UpperKeepsSpace(s: string)
    requires AllSpace(s)
    ensures AllSpace(Upper(s))
  {
    forall j | 0 <= j < |s|
      ensures IsSpace(Upper(s)[j])
    {
      assert IsSpace(s[j]);
    }
  }

  lemma UpperKeepsTight(s: string)
    requires Tight(s)
    ensures Tight(Upper(s))
  {
  }

  /** Lower-casing an upper-cased string gives the lower-cased original. */
  lemma LowerUpper(s: string)
    ensures Lower(Upper(s)) == Lower(s)
  {
  }
}

=== FILE: real_math.dfy ===
/** Exact real-number counterparts of the `math` functions the engine uses.

    `sin`, `cos`, `sqrt` and `atan2` are not computable in Dafny's theory of
    reals, so they travel as function-valued fields of an `Elementary`
    record. `Lawful` states the algebraic facts about them that the proofs
    rely on; it is satisfied by the true functions of analysis. Floating-point
    rounding is not modelled: every quantity is an exact `real`.
 */
module RealMath {

  datatype Elementary = Elementary(
    pi: real,
    sin: real -> real,
    cos: real -> real,
    sqrt: real -> real,
    atan2: (real, real) -> real)

  /** The facts the model may use about the transcendental functions. */
  ghost predicate Lawful(m: Elementary)
  {
    && 3.14159 < m.pi < 3.14160
    && (forall x :: m.sin(x) * m.sin(x) + m.cos(x) * m.cos(x) == 1.0)
    && (forall x :: 0.0 <= x ==> 0.0 <= m.sqrt(x) && m.sqrt(x) * m.sqrt(x) == x)
  }

  function Abs(x: real): (r: real)
    ensures r >= 0.0
    ensures r == x || r == -x
  {
    if x < 0.0 then -x else x
  }

  /** `math.radians`. */
  function Radians(deg: real, m: Elementary): real
  {
    deg * m.pi / 180.0
  }

  /** `math.degrees`. */
  function Degrees(rad: real, m: Elementary): real
    requires m.pi != 0.0
  {
    rad * 180.0 / m.pi
  }

  /** Converting degrees to radians and back gives the original angle. */
  lemma DegreesOfRadians(deg: real, m: Elementary)
    requires m.pi != 0.0
    ensures Degrees(Radians(deg, m), m) == deg
  {
    var p := m.pi;
    calc {
      Degrees(Radians(deg, m), m);
      (deg * p / 180.0) * 180.0 / p;
      { assert (deg * p / 180.0) * 180.0 == deg * p; }
      deg * p / p;
      deg;
    }
  }

  /** The smallest integer not below `x` (`math.ceil`). */
  function Ceil(x: real): (c: int)
    ensures x <= c as real < x + 1.0
  {
    -((-x).Floor)
  }

  /** `int(x)` on a float: truncation toward zero. */
  function Trunc(x: real): (t: int)
    ensures Abs(t as real) <= Abs(x) < Abs(t as real) + 1.0
    ensures x >= 0.0 ==> t >= 0
    ensures x <= 0.0 ==> t <= 0
  {
    if x >= 0.0 then x.Floor else -((-x).Floor)
  }

  /** `x` and `y` differ by a whole number of moduli. */
  predicate Congruent(x: real, y: real, modulus: real)
    requires modulus > 0.0
  {
    ((x - y) / modulus).Floor as real * modulus == x - y
  }

  /** Python's float `%` with a positive modulus: the remainder after
      flooring the quotient, always in `[0, modulus)` and congruent to `x`. */
  function FloorMod(x: real, modulus: real): (r: real)
    requires modulus > 0.0
    ensures 0.0 <= r < modulus
    ensures Congruent(x, r, modulus)
  {
    var q := (x / modulus).Floor;
    FloorBounds(x, modulus, q);
    MultipleQuotient(modulus, q);
    x - modulus * q as real
  }

  lemma MultipleQuotient(modulus: real, q: int)
    requires modulus > 0.0
    ensures (modulus * q as real) / modulus == q as real
  {
  }

  /** Two values in `[0, modulus)` congruent to the same `x` are equal: the
      range and the congruence determine Python's `%` completely. */
  lemma CongruentUnique(x: real, r1: real, r2: real, modulus: real)
    requires modulus > 0.0
    requires 0.0 <= r1 < modulus && 0.0 <= r2 < modulus
    requires Congruent(x, r1, modulus) && Congruent(x, r2, modulus)
    ensures r1 == r2
  {
    var q1, q2 := ((x - r1) / modulus).Floor, ((x - r2) / modulus).Floor;
    var k := q1 - q2;
    assert r2 - r1 == (k as real) * modulus;
    if k >= 1 {
      NonNegProduct(k as real - 1.0, modulus);
    } else if k <= -1 {
      NonNegProduct(-(k as real) - 1.0, modulus);
    }
  }

  lemma PosProduct(a: real, b: real)
    requires a > 0.0 && b > 0.0
    ensures a * b > 0.0
  {
  }

  lemma NonNegProduct(a: real, b: real)
    requires a >= 0.0 && b >= 0.0
    ensures a * b >= 0.0
  {
    if a > 0.0 && b > 0.0 {
      PosProduct(a, b);
    }
  }

  /** A product with a positive factor is non-negative only when the other
      factor is. */
  lemma NonNegFactor(x: real, n: real)
    requires n > 0.0 && x * n >= 0.0
    ensures x >= 0.0
  {
  }

  /** A product with a positive factor is positive only when the other
      factor is. */
  lemma PositiveFactor(x: real, n: real)
    requires n > 0.0 && x * n > 0.0
    ensures x > 0.0
  {
  }

  /** A product with a positive factor is zero only if the other factor is. */
  lemma ProductZero(d: real, m: real)
    requires m > 0.0 && d * m == 0.0
    ensures d == 0.0
  {
    if d > 0.0 {
      PosProduct(d, m);
    } else if d < 0.0 {
      PosProduct(-d, m);
    }
  }

  lemma FloorBounds(x: real, modulus: real, q: int)
    requires modulus > 0.0
    requires q == (x / modulus).Floor
    ensures 0.0 <= x - modulus * q as real < modulus
  {
    var y := x / modulus;
    var d := y - q as real;
    assert 0.0 <= d < 1.0;
    assert x - modulus * q as real == d * modulus;
    NonNegProduct(d, modulus);
    PosProduct(1.0 - d, modulus);
    assert (1.0 - d) * modulus == modulus - d * modulus;
  }

  /** A value already inside `[0, modulus)` is left unchanged. */
  lemma FloorModInRange(x: real, modulus: real)
    requires modulus > 0.0
    requires 0.0 <= x < modulus
    ensures FloorMod(x, modulus) == x
  {
    var y := x / modulus;
    assert y * modulus == x;
    if y < 0.0 {
      PosProduct(-y, modulus);
    }
    if y >= 1.0 {
      NonNegProduct(y - 1.0, modulus);
    }
    assert y.Floor == 0;
  }

  /** Adding a whole modulus does not change the remainder. */
  lemma FloorModShift(x: real, modulus: real)
    requires modulus > 0.0
    ensures FloorMod(x + modulus, modulus) == FloorMod(x, modulus)
  {
    var y := x / modulus;
    var z := (x + modulus) / modulus;
    assert y * modulus == x;
    assert z * modulus == x + modulus;
    var w := z - y - 1.0;
    assert w * modulus == z * modulus - y * modulus - modulus;
    ProductZero(w, modulus);
    assert z == y + 1.0;
    assert z.Floor == y.Floor + 1;
  }

  /** A cosine or sine obeying the Pythagorean identity lies in [-1, 1]. */
  lemma UnitBounded(c: real, s: real)
    requires c * c + s * s == 1.0
    ensures -1.0 <= c <= 1.0
  {
    assert c * c <= 1.0 by {
      assert s * s >= 0.0;
    }
  }

  /** Under `Lawful`, every cosine lies in [-1, 1]. */
  lemma CosBounded(m: Elementary, x: real)
    requires Lawful(m)
    ensures -1.0 <= m.cos(x) <= 1.0
  {
    UnitBounded(m.cos(x), m.sin(x));
  }

  /** Under `Lawful`, every sine lies in [-1, 1]. */
  lemma SinBounded(m: Elementary, x: real)
    requires Lawful(m)
    ensures -1.0 <= m.sin(x) <= 1.0
  {
    UnitBounded(m.sin(x), m.cos(x));
  }

  /** The square root of a square is the non-negative base. */
  lemma SqrtOfSquare(m: Elementary, r: real)
    requires Lawful(m)
    requires r >= 0.0
    ensures m.sqrt(r * r) == r
  {
    var s := m.sqrt(r * r);
    assert s >= 0.0 && s * s == r * r;
    SquareInjective(s, r);
  }

  /** Squaring is strictly increasing on the non-negative reals. */
  lemma SquareStrict(s: real, r: real)
    requires 0.0 <= s < r
    ensures s * s < r * r
  {
    PosProduct(r - s, r + s);
    assert (r - s) * (r + s) == r * r - s * s;
  }

  lemma SquareInjective(s: real, r: real)
    requires s >= 0.0 && r >= 0.0 && s * s == r * r
    ensures s == r
  {
    if s + r > 0.0 {
      assert (s - r) * (s + r) == s * s - r * r;
      ProductZero(s - r, s + r);
    }
  }

  /** Under `Lawful`, the square root vanishes exactly at zero. */
  lemma SqrtPositive(m: Elementary, x: real)
    requires Lawful(m)
    requires x > 0.0
    ensures m.sqrt(x) > 0.0
  {
    assert m.sqrt(x) * m.sqrt(x) == x;
  }
}

=== FILE: scans.dfy ===
/** The numpy reductions the trajectory analysis uses: `argmin`/`argmax`
    (first index on ties), `min`/`max`, `mean`, and the first index found
    by `np.where(...)[0][0]`. */
module Scans {
  import opened Outcomes
  import RealMath

  /** `np.argmin`: the first index of a least element. */
  function ArgMin(s: seq<real>): (k: nat)
    requires |s| > 0
    ensures k < |s|
    ensures forall j :: 0 <= j < |s| ==> s[k] <= s[j]
    ensures forall j :: 0 <= j < k ==> s[j] > s[k]
  {
    if |s| == 1 then 0
    else
      var rest := ArgMin(s[1..]);
      assert forall j :: 1 <= j < |s| ==> s[j] == s[1..][j - 1];
      if s[0] <= s[rest + 1] then 0 else rest + 1
  }

  /** `np.argmax`: the first index of a greatest element. */
  function ArgMax(s: seq<real>): (k: nat)
    requires |s| > 0
    ensures k < |s|
    ensures forall j :: 0 <= j < |s| ==> s[j] <= s[k]
    ensures forall j :: 0 <= j < k ==> s[j] < s[k]
  {
    if |s| == 1 then 0
    else
      var rest := ArgMax(s[1..]);
      assert forall j :: 1 <= j < |s| ==> s[j] == s[1..][j - 1];
      if s[0] >= s[rest + 1] then 0 else rest + 1
  }

  /** `np.min`: attained, and a lower bound. */
  function Min(s: seq<real>): (r: real)
    requires |s| > 0
    ensures r in s
    ensures forall j :: 0 <= j < |s| ==> r <= s[j]
  {
    s[ArgMin(s)]
  }

  /** `np.max`: attained, and an upper bound. */
  function Max(s: seq<real>): (r: real)
    requires |s| > 0
    ensures r in s
    ensures forall j :: 0 <= j < |s| ==> s[j] <= r
  {
    s[ArgMax(s)]
  }

  /** Shifting every element by the same constant shifts the least and
      the greatest element by it. */
  lemma ShiftExtremes(s: seq<real>, t: seq<real>, c: real)
    requires |s| == |t| > 0
    requires forall k :: 0 <= k < |s| ==> t[k] == s[k] - c
    ensures Min(t) == Min(s) - c
    ensures Max(t) == Max(s) - c
  {
    var i, j := ArgMin(s), ArgMin(t);
    assert Min(s) <= s[j] && Min(t) <= t[i];
    var u, v := ArgMax(s), ArgMax(t);
    assert Max(s) >= s[v] && Max(t) >= t[u];
  }

  function Sum(s: seq<real>): real
  {
    if |s| == 0 then 0.0 else s[0] + Sum(s[1..])
  }

  /** `np.mean`. */
  function Mean(s: seq<real>): real
    requires |s| > 0
  {
    Sum(s) / |s| as real
  }

  /** `k` copies of `x`. */
  function Scale(k: nat, x: real): real
  {
    k as real * x
  }

  lemma {:induction false} SumBounds(s: seq<real>, lo: real, hi: real)
    requires forall j :: 0 <= j < |s| ==> lo <= s[j] <= hi
    ensures Scale(|s|, lo) <= Sum(s) <= Scale(|s|, hi)
  {
    if |s| > 0 {
      SumBounds(s[1..], lo, hi);
      assert Scale(|s| - 1, lo) + lo == Scale(|s|, lo);
      assert Scale(|s| - 1, hi) + hi == Scale(|s|, hi);
    }
  }

  /** The mean lies between the least and the greatest element. */
  lemma MeanBetween(s: seq<real>)
    requires |s| > 0
    ensures Min(s) <= Mean(s) <= Max(s)
  {
    SumBounds(s, Min(s), Max(s));
    QuotientBetween(Sum(s), |s|, Min(s), Max(s));
  }

  lemma QuotientBetween(total: real, k: nat, lo: real, hi: real)
    requires k > 0
    requires Scale(k, lo) <= total <= Scale(k, hi)
    ensures lo <= total / k as real <= hi
  {
    var n := k as real;
    var q := total / n;
    assert (q - lo) * n == total - n * lo;
    assert (hi - q) * n == n * hi - total;
    RealMath.NonNegFactor(q - lo, n);
    RealMath.NonNegFactor(hi - q, n);
  }

  /** The first index whose element is at most `bound`, if any
      (`np.where(s <= bound)[0]`, first entry). */
  function FirstAtMost(s: seq<real>, bound: real): (r: Option<nat>)
    ensures r.Some? ==> r.value < |s| && s[r.value] <= bound
    ensures r.Some? ==> forall j :: 0 <= j < r.value ==> s[j] > bound
    ensures r.None? <==> forall j :: 0 <= j < |s| ==> s[j] > bound
  {
    if |s| == 0 then None
    else if s[0] <= bound then Some(0)
    else
      var rest := FirstAtMost(s[1..], bound);
      assert forall j :: 1 <= j < |s| ==> s[j] == s[1..][j - 1];
      if rest.None? then None else Some(rest.value + 1)
  }
}

=== FILE: sequences.dfy ===
/** Order relations between sequences, shared by the modules that report
    lists of missing keys. */
module Sequences {

  /** `r` is obtained from `s` by deleting elements. */
  ghost predicate IsSubsequence<T>(r: seq<T>, s: seq<T>)
    decreases |s|
  {
    if |r| == 0 then true
    else if |s| == 0 then false
    else if r[0] == s[0] then IsSubsequence(r[1..], s[1..])
    else IsSubsequence(r, s[1..])
  }

  /** No element occurs twice. */
  predicate Distinct<T(==)>(s: seq<T>)
  {
    forall j, k :: 0 <= j < k < |s| ==> s[j] != s[k]
  }

  /** Deleting elements invents none. */
  lemma {:induction false} SubsequenceMembers<T>(r: seq<T>, s: seq<T>)
    requires IsSubsequence(r, s)
    ensures forall x :: x in r ==> x in s
    decreases |s|
  {
    if |r| > 0 && |s| > 0 {
      if r[0] == s[0] {
        SubsequenceMembers(r[1..], s[1..]);
        assert forall x :: x in r ==> x == r[0] || x in r[1..];
      } else {
        SubsequenceMembers(r, s[1..]);
      }
    }
  }

  /** Deleting elements from a list without repeats leaves none. */
  lemma {:induction false} SubsequenceDistinct<T>(r: seq<T>, s: seq<T>)
    requires IsSubsequence(r, s) && Distinct(s)
    ensures Distinct(r)
    decreases |s|
  {
    if |r| > 0 && |s| > 0 {
      assert Distinct(s[1..]) by {
        forall j, k | 0 <= j < k < |s[1..]| ensures s[1..][j] != s[1..][k] {
          assert s[1..][j] == s[j + 1] && s[1..][k] == s[k + 1];
        }
      }
      if r[0] == s[0] {
        SubsequenceDistinct(r[1..], s[1..]);
        SubsequenceMembers(r[1..], s[1..]);
        assert r[0] !in s[1..];
        forall j, k | 0 <= j < k < |r| ensures r[j] != r[k] {
          if j == 0 {
            assert r[k] == r[1..][k - 1];
          } else {
            assert r[j] == r[1..][j - 1] && r[k] == r[1..][k - 1];
          }
        }
      } else {
        SubsequenceDistinct(r, s[1..]);
      }
    }
  }

  /** Deleting elements does not lengthen a list. */
  lemma {:induction false} SubsequenceLength<T>(r: seq<T>, s: seq<T>)
    requires IsSubsequence(r, s)
    ensures |r| <= |s|
    decreases |s|
  {
    if |r| > 0 {
      if r[0] == s[0] {
        SubsequenceLength(r[1..], s[1..]);
      } else {
        SubsequenceLength(r, s[1..]);
      }
    }
  }
}

=== FILE: simulation.dfy ===
/** Trajectory sampling and analysis (`OrbitalSimulation.simulate`,
    `SimulationService.run_simulation` and `_process_simulation_results` in
    backend/services/simulation_service.py; `simulate` is repeated in
    simultion_trajectory/orbital_simulation.py).

    Sample times come from `np.arange(0, duration, step)`, so the end point
    is excluded. The trajectory is never cut at an impact: the analysis only
    reports the first sample at or below the Earth's surface.
 */
module Simulation {
  import opened Outcomes
  import opened RealMath
  import Orbits
  import Kepler
  import opened Cartesian
  import opened Scans

  /** The number of samples `np.arange(0, duration, step)` produces. */
  function SampleCount(duration: real, step: real): nat
    requires step != 0.0
  {
    var c := Ceil(duration / step);
    if c > 0 then c else 0
  }

  /** `np.arange(0, duration, step)`; a zero step raises. */
  function Arange(duration: real, step: real): (r: Result<seq<real>, PyError>)
    ensures r.Failure? <==> step == 0.0
    ensures r.Failure? ==> r.error == ZeroDivision
    ensures r.Success? ==> |r.value| == SampleCount(duration, step)
    ensures r.Success? ==> forall k :: 0 <= k < |r.value| ==> r.value[k] == Grid(k, step)
  {
    if step == 0.0 then Failure(ZeroDivision)
    else Success(seq(SampleCount(duration, step), k requires 0 <= k => Grid(k, step)))
  }

  /** The `k`-th grid point `k * step`. */
  function Grid(k: nat, step: real): real
  {
    k as real * step
  }

  /** With a positive step, the grid holds exactly the points `k * step`
      below `duration`: the end point is excluded. */
  lemma ArangeExcludesEnd(duration: real, step: real, k: nat)
    requires step > 0.0
    ensures k < SampleCount(duration, step) <==> Grid(k, step) < duration
  {
    var q := duration / step;
    assert q * step == duration;
    var c := Ceil(q);
    if k < SampleCount(duration, step) {
      assert (k as real) < q;
      assert (q - k as real) * step > 0.0 by { PosProduct(q - k as real, step); }
    }
    if Grid(k, step) < duration {
      assert (q - k as real) * step > 0.0;
      PositiveFactor(q - k as real, step);
    }
  }

  /** 1800 s at 60 s steps gives 30 samples, and a full hour gives 60, not 61. */
  lemma SampleCountExamples()
    ensures SampleCount(1800.0, 60.0) == 30
    ensures SampleCount(3600.0, 60.0) == 60
  {
    assert 1800.0 / 60.0 == 30.0;
    assert 3600.0 / 60.0 == 60.0;
  }

  /** The raw output of `simulate`: one position per sample time. */
  datatype Trajectory = Trajectory(times: seq<real>, positions: seq<Vec3>)

  /** The position at every sample time; the first failing sample raises. */
  function Positions(el: Orbits.Elements, times: seq<real>, m: Elementary): (r: Result<seq<Vec3>, PyError>)
    ensures r.Success? <==> forall k :: 0 <= k < |times| ==> Position(el, times[k], m).Success?
    ensures r.Success? ==> |r.value| == |times|
    ensures r.Success? ==> forall k :: 0 <= k < |times| ==> Position(el, times[k], m) == Success(r.value[k])
  {
    if |times| == 0 then Success([])
    else
      var p := Position(el, times[0], m);
      if p.Failure? then Failure(p.error)
      else
        var rest := Positions(el, times[1..], m);
        assert forall k :: 1 <= k < |times| ==> times[k] == times[1..][k - 1];
        if rest.Failure? then Failure(rest.error) else Success([p.value] + rest.value)
  }

  /** `simulate(duration, time_step)`. */
  function Simulate(el: Orbits.Elements, duration: real, step: real, m: Elementary): (r: Result<Trajectory, PyError>)
    ensures r.Success? ==> step != 0.0 && |r.value.times| == SampleCount(duration, step)
    ensures r.Success? ==> |r.value.positions| == |r.value.times|
    ensures r.Success? ==> forall k :: 0 <= k < |r.value.times| ==>
      r.value.times[k] == Grid(k, step) && Position(el, Grid(k, step), m) == Success(r.value.positions[k])
  {
    var times :- Arange(duration, step);
    var positions :- Positions(el, times, m);
    Success(Trajectory(times, positions))
  }

  /** On an ellipse every sample has a position, so simulation fails only
      for a zero step. */
  lemma SimulateTotal(el: Orbits.Elements, duration: real, step: real, m: Elementary)
    requires Lawful(m)
    requires el.a > 0.0 && 0.0 <= el.e < 1.0
    ensures Simulate(el, duration, step, m).Success? <==> step != 0.0
  {
    if step != 0.0 {
      var times := Arange(duration, step).value;
      forall k | 0 <= k < |times|
        ensures Position(el, times[k], m).Success?
      {
        PositionBetweenApsides(el, times[k], m);
      }
    }
  }

  /** A sample singled out by the analysis. */
  datatype Sample = Sample(time: real, position: Vec3, distance: real, altitude: real)

  /** The `impact` block: the first sample at or below the surface. */
  datatype Impact = Impact(willImpact: bool, time: Option<real>, position: Option<Vec3>, index: Option<nat>)

  /** The dictionary `_process_simulation_results` returns. */
  datatype Processed = Processed(
    times: seq<real>, positions: seq<Vec3>,
    distances: seq<real>, velocities: seq<real>, altitudes: seq<real>,
    minAltitude: real, maxAltitude: real, minDistance: real, maxDistance: real,
    avgVelocity: real,
    periapsis: Sample, apoapsis: Sample, impact: Impact,
    info: Orbits.OrbitalInfo)

  /** Distance of each sample from the Earth's centre. */
  function Distances(ps: seq<Vec3>, m: Elementary): (r: seq<real>)
    ensures |r| == |ps|
  {
    seq(|ps|, k requires 0 <= k < |ps| => m.sqrt(NormSq(ps[k])))
  }

  /** Each distance is the non-negative square root of the squared length. */
  lemma DistancesExact(ps: seq<Vec3>, m: Elementary)
    requires Lawful(m)
    ensures forall k :: 0 <= k < |ps| ==>
      Distances(ps, m)[k] >= 0.0 && Square(Distances(ps, m)[k]) == NormSq(ps[k])
  {
    forall k | 0 <= k < |ps|
      ensures Distances(ps, m)[k] >= 0.0 && Square(Distances(ps, m)[k]) == NormSq(ps[k])
    {
      NormSqNonNeg(ps[k]);
    }
  }

  lemma NormSqNonNeg(v: Vec3)
    ensures NormSq(v) >= 0.0
  {
    assert v.x * v.x >= 0.0 && v.y * v.y >= 0.0 && v.z * v.z >= 0.0;
  }

  /** Finite-difference speeds between consecutive samples, or `[0]` for a
      single sample: speed `k` times the time step is the length of the
      displacement from sample `k` to sample `k + 1`. */
  function Speeds(ps: seq<Vec3>, dt: real, m: Elementary): (r: seq<real>)
    requires |ps| > 1 ==> dt != 0.0
    ensures |ps| > 1 ==> |r| == |ps| - 1
    ensures |ps| <= 1 ==> r == [0.0]
  {
    if |ps| > 1 then
      seq(|ps| - 1, k requires 0 <= k < |ps| - 1 => m.sqrt(NormSq(Sub(ps[k + 1], ps[k]))) / dt)
    else [0.0]
  }

  /** Dividing each displacement length by `dt` and multiplying it back is
      the identity. */
  lemma ScaledBack(r: seq<real>, ps: seq<Vec3>, dt: real, m: Elementary)
    requires dt != 0.0 && |r| == |ps| - 1
    requires forall k {:trigger r[k]} :: 0 <= k < |r| ==> r[k] == m.sqrt(NormSq(Sub(ps[k + 1], ps[k]))) / dt
    ensures forall k {:trigger r[k]} :: 0 <= k < |r| ==> r[k] * dt == m.sqrt(NormSq(Sub(ps[k + 1], ps[k])))
  {
    forall k | 0 <= k < |r|
      ensures r[k] * dt == m.sqrt(NormSq(Sub(ps[k + 1], ps[k])))
    {
      QuotientTimes(m.sqrt(NormSq(Sub(ps[k + 1], ps[k]))), dt);
    }
  }

  lemma QuotientTimes(a: real, d: real)
    requires d != 0.0
    ensures (a / d) * d == a
  {
  }

  /** Each speed covers the distance between consecutive samples: speed
      times step is non-negative and squares to the squared displacement,
      so a positive step gives non-negative speeds. */
  lemma SpeedsExact(ps: seq<Vec3>, dt: real, m: Elementary, r: seq<real>)
    requires Lawful(m)
    requires |ps| > 1 && dt != 0.0
    requires r == Speeds(ps, dt, m)
    ensures |r| == |ps| - 1
    ensures forall k {:trigger r[k]} :: 0 <= k < |r| ==> r[k] * dt == m.sqrt(NormSq(Sub(ps[k + 1], ps[k])))
    ensures forall k {:trigger r[k]} :: 0 <= k < |r| ==>
        && r[k] * dt >= 0.0
        && Square(r[k] * dt) == NormSq(Sub(ps[k + 1], ps[k]))
        && (dt > 0.0 ==> r[k] >= 0.0)
  {
    ScaledBack(r, ps, dt, m);
    StepLengthsExact(r, ps, dt, m);
  }

  lemma StepLengthsExact(r: seq<real>, ps: seq<Vec3>, dt: real, m: Elementary)
    requires Lawful(m)
    requires dt != 0.0 && |r| == |ps| - 1
    requires forall k {:trigger r[k]} :: 0 <= k < |r| ==> r[k] * dt == m.sqrt(NormSq(Sub(ps[k + 1], ps[k])))
    ensures forall k {:trigger r[k]} :: 0 <= k < |r| ==>
        && r[k] * dt >= 0.0
        && Square(r[k] * dt) == NormSq(Sub(ps[k + 1], ps[k]))
        && (dt > 0.0 ==> r[k] >= 0.0)
  {
    forall k | 0 <= k < |r|
      ensures && r[k] * dt >= 0.0
              && Square(r[k] * dt) == NormSq(Sub(ps[k + 1], ps[k]))
              && (dt > 0.0 ==> r[k] >= 0.0)
    {
      var n := NormSq(Sub(ps[k + 1], ps[k]));
      NormSqNonNeg(Sub(ps[k + 1], ps[k]));
      SpeedFromLength(r[k], dt, m.sqrt(n), n);
    }
  }

  lemma SpeedFromLength(v: real, dt: real, s: real, n: real)
    requires dt != 0.0 && v * dt == s
    requires 0.0 <= s && s * s == n
    ensures v * dt >= 0.0 && Square(v * dt) == n
    ensures dt > 0.0 ==> v >= 0.0
  {
    if dt > 0.0 && v < 0.0 {
      PosProduct(-v, dt);
    }
  }

  /** Height of each sample above the surface. */
  function Altitudes(distances: seq<real>): (r: seq<real>)
    ensures |r| == |distances|
  {
    seq(|distances|, k requires 0 <= k < |distances| => distances[k] - Orbits.EarthRadius)
  }

  function SampleAt(times: seq<real>, ps: seq<Vec3>, distances: seq<real>, altitudes: seq<real>, k: nat): Sample
    requires k < |times| == |ps| == |distances| == |altitudes|
  {
    Sample(times[k], ps[k], distances[k], altitudes[k])
  }

  function ImpactAt(times: seq<real>, ps: seq<Vec3>, first: Option<nat>): Impact
    requires first.Some? ==> first.value < |times| == |ps|
  {
    match first
    case None => Impact(false, None, None, None)
    case Some(k) => Impact(true, Some(times[k]), Some(ps[k]), Some(k))
  }

  /** `_process_simulation_results`. An empty trajectory makes numpy's
      `sum(axis=1)` raise. The caller always passes one time per position
      and distinct first two times (the step is non-zero). */
  function Process(tr: Trajectory, el: Orbits.Elements, m: Elementary): (r: Result<Processed, PyError>)
    requires m.pi != 0.0
    requires |tr.times| == |tr.positions|
    requires |tr.positions| > 1 ==> tr.times[1] != tr.times[0]
    ensures r.Failure? <==> |tr.positions| == 0
    ensures r.Failure? ==> r.error == EmptyAxis
  {
    var ps := tr.positions;
    if |ps| == 0 then Failure(EmptyAxis)
    else
      var distances := Distances(ps, m);
      var raw := Speeds(ps, if |ps| > 1 then tr.times[1] - tr.times[0] else 1.0, m);
      var altitudes := Altitudes(distances);
      var iMin := ArgMin(distances);
      var iMax := ArgMax(distances);
      var first := FirstAtMost(distances, Orbits.EarthRadius);
      Success(Processed(
        tr.times, ps, distances,
        if |raw| > 1 then raw else [],
        altitudes,
        Min(altitudes), Max(altitudes), Min(distances), Max(distances),
        if |raw| > 1 then Mean(raw) else 0.0,
        SampleAt(tr.times, ps, distances, altitudes, iMin),
        SampleAt(tr.times, ps, distances, altitudes, iMax),
        ImpactAt(tr.times, ps, first),
        Orbits.GetOrbitalInfo(el, m)))
  }

  /** The series keep every sample, even after an impact: one distance and
      one altitude per position, each distance the Euclidean length of its
      position and each altitude that distance less the Earth's radius. */
  lemma ProcessSeries(tr: Trajectory, el: Orbits.Elements, m: Elementary)
    requires Lawful(m)
    requires |tr.times| == |tr.positions| > 0
    requires |tr.positions| > 1 ==> tr.times[1] != tr.times[0]
    ensures var p := Process(tr, el, m).value;
      && p.times == tr.times && p.positions == tr.positions
      && |p.distances| == |p.altitudes| == |tr.positions|
      && (forall k :: 0 <= k < |p.distances| ==>
            p.distances[k] >= 0.0 && Square(p.distances[k]) == NormSq(tr.positions[k]))
      && (forall k :: 0 <= k < |p.altitudes| ==> p.altitudes[k] == p.distances[k] - Orbits.EarthRadius)
  {
    ProcessSeriesShape(tr, el, m);
    DistancesExact(tr.positions, m);
  }

  lemma ProcessSeriesShape(tr: Trajectory, el: Orbits.Elements, m: Elementary)
    requires m.pi != 0.0
    requires |tr.times| == |tr.positions| > 0
    requires |tr.positions| > 1 ==> tr.times[1] != tr.times[0]
    ensures var p := Process(tr, el, m).value;
      && p.times == tr.times && p.positions == tr.positions
      && p.distances == Distances(tr.positions, m)
      && p.altitudes == Altitudes(p.distances)
  {
  }

  /** The extremes bound every distance, the altitude extremes are the
      distance extremes less the Earth's radius, and periapsis and apoapsis
      report the first sample attaining the least and the greatest
      distance. */
  lemma ProcessExtremes(tr: Trajectory, el: Orbits.Elements, m: Elementary)
    requires m.pi != 0.0
    requires |tr.times| == |tr.positions| > 0
    requires |tr.positions| > 1 ==> tr.times[1] != tr.times[0]
    ensures var p := Process(tr, el, m).value;
      && (forall k :: 0 <= k < |p.distances| ==> p.minDistance <= p.distances[k] <= p.maxDistance)
      && p.minAltitude == p.minDistance - Orbits.EarthRadius
      && p.maxAltitude == p.maxDistance - Orbits.EarthRadius
      && (exists k :: 0 <= k < |p.distances| && p.periapsis == Sample(tr.times[k], tr.positions[k], p.distances[k], p.altitudes[k])
            && p.distances[k] == p.minDistance
            && forall j :: 0 <= j < k ==> p.distances[j] > p.minDistance)
      && (exists k :: 0 <= k < |p.distances| && p.apoapsis == Sample(tr.times[k], tr.positions[k], p.distances[k], p.altitudes[k])
            && p.distances[k] == p.maxDistance
            && forall j :: 0 <= j < k ==> p.distances[j] < p.maxDistance)
  {
    var p := Process(tr, el, m).value;
    ProcessSeriesShape(tr, el, m);
    ShiftExtremes(p.distances, p.altitudes, Orbits.EarthRadius);
    var iMin := ArgMin(p.distances);
    var iMax := ArgMax(p.distances);
    assert p.periapsis == Sample(tr.times[iMin], tr.positions[iMin], p.distances[iMin], p.altitudes[iMin]);
    assert p.apoapsis == Sample(tr.times[iMax], tr.positions[iMax], p.distances[iMax], p.altitudes[iMax]);
  }

  /** The impact block names the first sample at or below the surface, and
      flags an impact exactly when such a sample exists. */
  lemma ProcessImpact(tr: Trajectory, el: Orbits.Elements, m: Elementary)
    requires m.pi != 0.0
    requires |tr.times| == |tr.positions| > 0
    requires |tr.positions| > 1 ==> tr.times[1] != tr.times[0]
    ensures var p := Process(tr, el, m).value;
      && (p.impact.willImpact <==> exists k :: 0 <= k < |p.distances| && p.distances[k] <= Orbits.EarthRadius)
      && (p.impact.willImpact ==>
            && p.impact.index.Some?
            && var k := p.impact.index.value;
            && k < |p.distances|
            && p.distances[k] <= Orbits.EarthRadius
            && (forall j :: 0 <= j < k ==> p.distances[j] > Orbits.EarthRadius)
            && p.impact.time == Some(tr.times[k])
            && p.impact.position == Some(tr.positions[k]))
      && (!p.impact.willImpact ==> p.impact == Impact(false, None, None, None))
  {
  }

  /** With more than two samples there is one speed per consecutive pair;
      with two or fewer the reported list is empty and the average speed is
      zero. A reported average lies between the least and greatest speed. */
  lemma ProcessVelocities(tr: Trajectory, el: Orbits.Elements, m: Elementary)
    requires m.pi != 0.0
    requires |tr.times| == |tr.positions| > 0
    requires |tr.positions| > 1 ==> tr.times[1] != tr.times[0]
    ensures var p := Process(tr, el, m).value;
      && (|tr.positions| > 2 ==>
            |p.velocities| == |tr.positions| - 1 && Min(p.velocities) <= p.avgVelocity <= Max(p.velocities))
      && (|tr.positions| <= 2 ==> p.velocities == [] && p.avgVelocity == 0.0)
  {
    var p := Process(tr, el, m).value;
    if |tr.positions| > 2 {
      MeanBetween(p.velocities);
    }
  }

  /** With more than two samples the reported speeds are the finite
      differences of the trajectory over the first time step, as `Speeds`
      computes them (`SpeedsExact` gives their values). */
  lemma ProcessSpeeds(tr: Trajectory, el: Orbits.Elements, m: Elementary)
    requires m.pi != 0.0
    requires |tr.times| == |tr.positions| > 2
    requires tr.times[1] != tr.times[0]
    ensures Process(tr, el, m).value.velocities == Speeds(tr.positions, tr.times[1] - tr.times[0], m)
  {
    var raw := Speeds(tr.positions, tr.times[1] - tr.times[0], m);
    assert |raw| > 1;
  }

  /** The payload `run_simulation` wraps on success. */
  datatype Report = Report(data: Processed, totalPoints: nat, orbitalPeriod: real)

  /** `run_simulation`: build the elements from the dictionary, simulate,
      and analyse; any exception becomes the failure outcome. */
  function RunSimulation(d: map<string, real>, duration: real, step: real, m: Elementary): (r: Result<Report, PyError>)
    requires Lawful(m)
    ensures r.Success? <==>
      && Orbits.FromDict(d, m).Success?
      && Simulate(Orbits.FromDict(d, m).value, duration, step, m).Success?
      && SampleCount(duration, step) > 0
    ensures r.Success? ==>
      var el := Orbits.FromDict(d, m).value;
      var tr := Simulate(el, duration, step, m).value;
      && |tr.times| > 0
      && Process(tr, el, m) == Success(r.value.data)
      && r.value.totalPoints == |tr.times| == SampleCount(duration, step)
      && r.value.orbitalPeriod == el.T
  {
    var el :- Orbits.FromDict(d, m);
    var tr :- Simulate(el, duration, step, m);
    assert |tr.positions| > 1 ==> tr.times[1] != tr.times[0] by {
      if |tr.positions| > 1 {
        assert tr.times[1] - tr.times[0] == step;
      }
    }
    var data :- Process(tr, el, m);
    Success(Report(data, |tr.times|, el.T))
  }

  /** The setup script's run: a 7000 km orbit with `e = 0.2` simulated for
      1800 s at 60 s steps succeeds with 30 points. */
  lemma SetupScriptRun(m: Elementary)
    requires Lawful(m)
    ensures var d := map["a" := 7000.0, "e" := 0.2, "i" := 28.5, "omega" := 0.0, "Omega" := 0.0, "M0" := 0.0];
      var r := RunSimulation(d, 1800.0, 60.0, m);
      r.Success? && r.value.totalPoints == 30
  {
    var d := map["a" := 7000.0, "e" := 0.2, "i" := 28.5, "omega" := 0.0, "Omega" := 0.0, "M0" := 0.0];
    assert forall k :: k in Orbits.ElementKeys ==> k in d;
    var el := Orbits.FromDict(d, m).value;
    assert el.a == 7000.0 && el.e == 0.2;
    SimulateTotal(el, 1800.0, 60.0, m);
    SampleCountExamples();
  }

  /** On an ellipse every sampled position lies between the apsis
      distances, compared through squares. */
  lemma TrajectoryBetweenApsides(el: Orbits.Elements, duration: real, step: real, m: Elementary)
    requires Lawful(m)
    requires el.a > 0.0 && 0.0 <= el.e < 1.0
    requires Simulate(el, duration, step, m).Success?
    ensures var ps := Simulate(el, duration, step, m).value.positions;
      forall k :: 0 <= k < |ps| ==>
        Square(Periapsis(el)) <= NormSq(ps[k]) <= Square(Apoapsis(el))
  {
    var tr := Simulate(el, duration, step, m).value;
    forall k | 0 <= k < |tr.positions|
      ensures Square(Periapsis(el)) <= NormSq(tr.positions[k]) <= Square(Apoapsis(el))
    {
      var t := Grid(k, step);
      assert Position(el, t, m) == Success(tr.positions[k]);
      PositionBetweenApsides(el, t, m);
      assert Square(Periapsis(el)) <= NormSq(Position(el, t, m).value) <= Square(Apoapsis(el));
    }
  }

  /** The distance series of a simulated ellipse stays between the apsis
      distances. */
  lemma DistancesBetweenApsides(el: Orbits.Elements, duration: real, step: real, m: Elementary)
    requires Lawful(m)
    requires el.a > 0.0 && 0.0 <= el.e < 1.0
    requires Simulate(el, duration, step, m).Success?
    ensures var ds := Distances(Simulate(el, duration, step, m).value.positions, m);
      forall k :: 0 <= k < |ds| ==> Periapsis(el) <= ds[k] <= Apoapsis(el)
  {
    var ps := Simulate(el, duration, step, m).value.positions;
    var ds := Distances(ps, m);
    TrajectoryBetweenApsides(el, duration, step, m);
    DistancesExact(ps, m);
    ApsesNonNegative(el);
    forall k | 0 <= k < |ds|
      ensures Periapsis(el) <= ds[k] <= Apoapsis(el)
    {
      RootBetween(ds[k], NormSq(ps[k]), Periapsis(el), Apoapsis(el));
    }
  }

  /** On an ellipse every sampled distance of a successful run lies between
      periapsis `a (1 - e)` and apoapsis `a (1 + e)`. */
  lemma SampledDistancesBetweenApsides(d: map<string, real>, duration: real, step: real, m: Elementary)
    requires Lawful(m)
    requires RunSimulation(d, duration, step, m).Success?
    requires Orbits.FromDict(d, m).value.a > 0.0
    requires 0.0 <= Orbits.FromDict(d, m).value.e < 1.0
    ensures var el := Orbits.FromDict(d, m).value;
      var p := RunSimulation(d, duration, step, m).value.data;
      forall k :: 0 <= k < |p.distances| ==> Periapsis(el) <= p.distances[k] <= Apoapsis(el)
  {
    var el := Orbits.FromDict(d, m).value;
    var tr := Simulate(el, duration, step, m).value;
    assert Process(tr, el, m) == Success(RunSimulation(d, duration, step, m).value.data);
    ProcessSeriesShape(tr, el, m);
    DistancesBetweenApsides(el, duration, step, m);
  }

  /** A non-negative `x` whose square lies between `lo^2` and `hi^2`
      (with `lo`, `hi` non-negative) lies between `lo` and `hi`. */
  lemma RootBetween(x: real, sq: real, lo: real, hi: real)
    requires x >= 0.0 && lo >= 0.0 && hi >= 0.0
    requires Square(x) == sq
    requires Square(lo) <= sq <= Square(hi)
    ensures lo <= x <= hi
  {
    if x < lo {
      SquareStrict(x, lo);
    }
    if x > hi {
      SquareStrict(hi, x);
    }
  }

  /** An elliptical orbit whose periapsis clears the Earth's surface never
      reports an impact. */
  lemma NoImpactAbovePeriapsis(d: map<string, real>, duration: real, step: real, m: Elementary)
    requires Lawful(m)
    requires RunSimulation(d, duration, step, m).Success?
    requires Orbits.FromDict(d, m).value.a > 0.0
    requires 0.0 <= Orbits.FromDict(d, m).value.e < 1.0
    requires Periapsis(Orbits.FromDict(d, m).value) > Orbits.EarthRadius
    ensures !RunSimulation(d, duration, step, m).value.data.impact.willImpact
  {
    var el := Orbits.FromDict(d, m).value;
    var tr := Simulate(el, duration, step, m).value;
    SampledDistancesBetweenApsides(d, duration, step, m);
    ProcessImpact(tr, el, m);
  }
}

=== FILE: solar_system.dfy ===
/** Approximate planet states for the solar-system view
    (`PLANETARY_ELEMENTS` and `SolarSystemService.get_planet_states` in
    backend/services/solar_system_service.py).

    The time since the J2000 reference epoch is a parameter: reading the
    clock and formatting timestamps are outside the model.
 */
module SolarSystem {
  import opened RealMath

  /** One astronomical unit in km. */
  const AuInKm: real := 149597870.7
  const SunRadiusKm: real := 695700.0
  const SecondsPerDay: real := 86400.0

  /** A row of the element table. Angles in degrees, period in days. */
  datatype PlanetElement = PlanetElement(
    name: string, color: string, orbitColor: string,
    radiusKm: real, semiMajorAxisAu: real, eccentricity: real,
    inclinationDeg: real, nodeDeg: real, periapsisDeg: real,
    meanAnomalyDeg: real, periodDays: real)

  /** `PLANETARY_ELEMENTS`. */
  function Table(): seq<PlanetElement>
  {
    [ PlanetElement("Mercurio", "#d0a169", "#ffb347", 2439.7, 0.38709927, 0.205630, 7.00487, 48.331, 29.124, 174.796, 87.969),
      PlanetElement("Venus", "#f5d36b", "#f9e27d", 6051.8, 0.72333566, 0.006773, 3.39471, 76.680, 54.884, 50.115, 224.701),
      PlanetElement("Tierra", "#6ba4ff", "#3fa9f5", 6371.0, 1.00000011, 0.016710, 0.00005, -11.26064, 114.20783, 358.617, 365.256),
      PlanetElement("Marte", "#ff6f5c", "#ff896b", 3389.5, 1.52371034, 0.093394, 1.850, 49.558, 286.502, 19.356, 686.980),
      PlanetElement("Júpiter", "#f7c492", "#f4a259", 69911.0, 5.20288700, 0.048386, 1.303, 100.464, 273.867, 20.020, 4332.589),
      PlanetElement("Saturno", "#f4deaa", "#f1c27d", 58232.0, 9.53667594, 0.054150, 2.485, 113.665, 339.392, 317.020, 10759.22),
      PlanetElement("Urano", "#9bdaf1", "#68c3d4", 25362.0, 19.18916464, 0.047167, 0.773, 74.006, 96.998, 142.2386, 30685.4),
      PlanetElement("Neptuno", "#4c6fff", "#5a63ff", 24622.0, 30.06992276, 0.008585, 1.770, 131.784, 273.188, 256.228, 60190.0) ]
  }

  /** Every table row has a positive period and a mean anomaly already in
      [0, 360). */
  lemma TableWellFormed()
    ensures |Table()| == 8
    ensures forall k :: 0 <= k < |Table()| ==>
      Table()[k].periodDays > 0.0 && 0.0 <= Table()[k].meanAnomalyDeg < 360.0
  {
  }

  /** One entry of the `planets` list. */
  datatype PlanetState = PlanetState(
    name: string, color: string, orbitColor: string,
    radiusKm: real, semiMajorAxisKm: real, eccentricity: real,
    inclinationDeg: real, nodeDeg: real, periapsisDeg: real,
    meanAnomalyDeg: real, periodDays: real)

  /** The returned dictionary, without its two timestamp strings. */
  datatype SystemState = SystemState(sunRadiusKm: real, planets: seq<PlanetState>)

  /** Mean motion in rad/s: one revolution per orbital period. */
  function MeanMotion(p: PlanetElement, m: Elementary): (n: real)
    requires Lawful(m)
    requires p.periodDays > 0.0
    ensures n > 0.0
    ensures n * PeriodSeconds(p) == 2.0 * m.pi
  {
    PosProduct(p.periodDays, SecondsPerDay);
    2.0 * m.pi / PeriodSeconds(p)
  }

  /** The mean anomaly `deltaSeconds` after the epoch, wrapped into
      [0, 2 pi) by Python's float `%`: the one angle in that range that
      differs from the unwrapped anomaly by whole turns. */
  function MeanAnomalyNow(p: PlanetElement, deltaSeconds: real, m: Elementary): (r: real)
    requires Lawful(m)
    requires p.periodDays > 0.0
    ensures 0.0 <= r < 2.0 * m.pi
    ensures Congruent(Advance(p, deltaSeconds, m), r, 2.0 * m.pi)
  {
    FloorMod(Advance(p, deltaSeconds, m), 2.0 * m.pi)
  }

  /** The reported mean anomaly is the only angle in [0, 2 pi) that differs
      from the unwrapped one by whole turns. */
  lemma MeanAnomalyDetermined(p: PlanetElement, deltaSeconds: real, m: Elementary, a: real)
    requires Lawful(m)
    requires p.periodDays > 0.0
    requires 0.0 <= a < 2.0 * m.pi
    requires Congruent(Advance(p, deltaSeconds, m), a, 2.0 * m.pi)
    ensures a == MeanAnomalyNow(p, deltaSeconds, m)
  {
    CongruentUnique(Advance(p, deltaSeconds, m), a, MeanAnomalyNow(p, deltaSeconds, m), 2.0 * m.pi);
  }

  /** The unwrapped mean anomaly `deltaSeconds` after the epoch. */
  function Advance(p: PlanetElement, deltaSeconds: real, m: Elementary): real
    requires Lawful(m)
    requires p.periodDays > 0.0
  {
    Radians(p.meanAnomalyDeg, m) + MeanMotion(p, m) * deltaSeconds
  }

  function PlanetStateAt(p: PlanetElement, deltaSeconds: real, m: Elementary): PlanetState
    requires Lawful(m)
    requires p.periodDays > 0.0
  {
    PlanetState(
      p.name, p.color, p.orbitColor, p.radiusKm,
      p.semiMajorAxisAu * AuInKm,
      p.eccentricity, p.inclinationDeg, p.nodeDeg, p.periapsisDeg,
      Degrees(MeanAnomalyNow(p, deltaSeconds, m), m),
      p.periodDays)
  }

  /** `get_planet_states`, given the seconds elapsed since the epoch. */
  function PlanetStates(deltaSeconds: real, m: Elementary): (r: SystemState)
    requires Lawful(m)
    ensures r.sunRadiusKm == 695700.0
    ensures |r.planets| == |Table()| == 8
  {
    TableWellFormed();
    SystemState(SunRadiusKm, seq(|Table()|, k requires 0 <= k < |Table()| => PlanetStateAt(Table()[k], deltaSeconds, m)))
  }

  /** Each entry copies its row, converts the semi-major axis from AU to km,
      and reports a mean anomaly in [0, 360) degrees. */
  lemma PlanetStatesRows(deltaSeconds: real, m: Elementary, k: nat)
    requires Lawful(m)
    requires k < 8
    ensures var p, s := Table()[k], PlanetStates(deltaSeconds, m).planets[k];
      && s.name == p.name && s.color == p.color && s.orbitColor == p.orbitColor
      && s.radiusKm == p.radiusKm && s.eccentricity == p.eccentricity
      && s.inclinationDeg == p.inclinationDeg && s.nodeDeg == p.nodeDeg
      && s.periapsisDeg == p.periapsisDeg && s.periodDays == p.periodDays
      && s.semiMajorAxisKm == p.semiMajorAxisAu * 149597870.7
      && 0.0 <= s.meanAnomalyDeg < 360.0
  {
    TableWellFormed();
    var p := Table()[k];
    DegreesInRange(MeanAnomalyNow(p, deltaSeconds, m), m);
  }

  /** An angle in [0, 2 pi) radians is in [0, 360) degrees. */
  lemma DegreesInRange(x: real, m: Elementary)
    requires Lawful(m)
    requires 0.0 <= x < 2.0 * m.pi
    ensures 0.0 <= Degrees(x, m) < 360.0
  {
    var d, pi := Degrees(x, m), m.pi;
    var rest := 360.0 - d;
    assert d * pi == x * 180.0;
    assert rest * pi == (2.0 * pi - x) * 180.0;
    assert rest * pi > 0.0;
    NonNegFactor(d, pi);
    PositiveFactor(rest, pi);
  }

  /** At the epoch itself every planet reports its table mean anomaly,
      since the table values are already in [0, 360). */
  lemma AtEpoch(m: Elementary, k: nat)
    requires Lawful(m)
    requires k < 8
    ensures PlanetStates(0.0, m).planets[k].meanAnomalyDeg == Table()[k].meanAnomalyDeg
  {
    TableWellFormed();
    var p := Table()[k];
    var x := Radians(p.meanAnomalyDeg, m);
    RadiansInRange(p.meanAnomalyDeg, m);
    assert Advance(p, 0.0, m) == x;
    FloorModInRange(x, 2.0 * m.pi);
    DegreesOfRadians(p.meanAnomalyDeg, m);
  }

  /** An angle in [0, 360) degrees is in [0, 2 pi) radians. */
  lemma RadiansInRange(deg: real, m: Elementary)
    requires Lawful(m)
    requires 0.0 <= deg < 360.0
    ensures 0.0 <= Radians(deg, m) < 2.0 * m.pi
  {
    var r := Radians(deg, m);
    NonNegProduct(deg, m.pi);
    PosProduct(360.0 - deg, m.pi);
    assert r == deg * m.pi / 180.0;
    assert 2.0 * m.pi - r == (360.0 - deg) * m.pi / 180.0;
  }

  /** The orbital period in seconds. */
  function PeriodSeconds(p: PlanetElement): real
  {
    p.periodDays * SecondsPerDay
  }

  lemma MeanAnomalyPeriodic(p: PlanetElement, deltaSeconds: real, m: Elementary)
    requires Lawful(m)
    requires p.periodDays > 0.0
    ensures MeanAnomalyNow(p, deltaSeconds + PeriodSeconds(p), m) == MeanAnomalyNow(p, deltaSeconds, m)
  {
    var n := MeanMotion(p, m);
    assert n * (deltaSeconds + PeriodSeconds(p)) == n * deltaSeconds + n * PeriodSeconds(p);
    assert Advance(p, deltaSeconds + PeriodSeconds(p), m) == Advance(p, deltaSeconds, m) + 2.0 * m.pi;
    FloorModShift(Advance(p, deltaSeconds, m), 2.0 * m.pi);
  }

  /** One full orbital period later every planet is back at the same mean
      anomaly. */
  lemma Periodic(deltaSeconds: real, m: Elementary, k: nat)
    requires Lawful(m)
    requires k < 8
    ensures PlanetStates(deltaSeconds + PeriodSeconds(Table()[k]), m).planets[k]
         == PlanetStates(deltaSeconds, m).planets[k]
  {
    TableWellFormed();
    MeanAnomalyPeriodic(Table()[k], deltaSeconds, m);
  }
}
